=== FILE: README.md ===
# A verified model of the marketing-wizard core

The application is a browser wizard for producing marketing assets with a
generative image and text service. It supports five modes:

- a single **storefront** designer;
- a **reference video** remake;
- a **creative** commercial;
- an **Amazon listing** image set;
- a character-driven **plot** film.

This project models the pure logic under its screens. It covers:

- the step machine of the wizard;
- the storyboard's shot list, with scene groups, continuity frames, in-between frames, deletion, retries and chunked batch rendering;
- the Amazon slot plan, the merge of analysed prompts, the size-to-ratio classifier and batch progress;
- the merge-with-fallback of generated prompts;
- the assembly of image requests;
- the key gate;
- the storefront canvases and logo;
- the plot roster, turnaround sheets, environments and costumes;
- the video upload check;
- the assistant chat.

Every call to the generative service is an input to the model. `Reply<T>` is
either `Ok(value)` or `Fail`, and an image answer is an
`Option<InlineData>`. Each screen's handler is a pure function from the
screen's state and those answers to the new state. Concurrency becomes an
ordered list of chunks with explicit pause events. Browser storage becomes
a map. The clock becomes a `now` parameter.

Modules follow the program's structure:

- `Workflow`: the app shell.
- `Storyboard`: the storyboard screen.
- `AmazonConfig`, `AmazonBrief` and `AmazonVisuals`: the three Amazon screens.
- `Scripts` and `VideoPrompts`: the prompt screens.
- `Gemini`: the service's request assembly and answer conventions.
- `ApiKey`: the key form.
- `Storefront`: the storefront designer.
- `PlotCharacters`, `PlotReference`, `PlotEnvironment` and `PlotOutfitting`: the plot-mode screens.
- `VideoUpload`: the video step.
- `Assistant`: the chat.
- `Batch`: the chunk runner both batch screens share.
- `ObjectKeys`: the order in which a JavaScript object lists its keys.
- `Types`, `Seqs`, `Text` and `Wrappers`: shared definitions and helpers.

The model follows the code in these places:

- The storyboard refuses a delete whenever the whole list has at most two frames. The guard counts the whole list, not one scene.
- The continuity frame is the global predecessor `idx - 1`. It is used only when it shares the scene and has an image, so a scene interleaved with another loses continuity.
- The storyboard never passes an environment anchor to the frame request.
- The scene-group runner pauses after every frame, the last one included.
- `onBack` on the first step of a mode restarts the wizard.
- Frame attachments follow the code's order: product reference, environment anchor, previous frame, then characters.
- Scene groups are shown in the order `Object.entries` lists the grouping record (section 10.1.11.1 of ECMAScript 2024): scene keys that are array indices ("1", "2", ...) first, ascending by number, then the other keys in order of first appearance. A storyboard whose scene "2" appears before scene "1" is shown with scene "1" first.

## Model

| member | source | states |
|---|---|---|
| Workflow.Steps | App.tsx:43-71 | no mode has no steps; storefront lists 1 step, reference 5, creative and Amazon 4, plot 7; every list is strictly increasing in the numeric step order |
| Workflow.ModeStepsIncrease | App.tsx:45-68 | each mode's literal step list is strictly increasing |
| Workflow.NeighboursOrderAll | App.tsx:45-68 | increasing neighbours make the whole list increasing, the fact the sidebar's ordering rests on |
| Workflow.SidebarOnlyBackward | App.tsx:142 | within a mode a sidebar entry is enabled exactly when it is not ahead of the current step: going back is always allowed, jumping forward never |
| Workflow.Launch | App.tsx:73-79 | the wizard starts blank and opens the key form exactly when no key is stored |
| Workflow.SelectMode | App.tsx:85-98 | without a stored key only the key form opens and mode and step are untouched; with one the mode is set and the step is that mode's first listed step |
| Workflow.KeySet | App.tsx:81-83 | accepting a key closes the form and changes nothing else |
| Workflow.SaveUnlocksModes | App.tsx:81-98 | after a successful save through the key form, choosing any mode enters its first step with the form closed |
| Workflow.Restart | App.tsx:100-102 | restart clears mode, step and every collected artifact and sets a new restart key |
| Workflow.RestartForgets | App.tsx:100-102 | two wizards that differ in anything collected are identical after a restart |
| Workflow.EveryListedStepHasScreen | App.tsx:244-267 | every step a mode lists has a screen in that mode |
| Workflow.BackFollowsSteps | App.tsx:244-267 | going back from step i > 0 lands on step i-1 and changes nothing else; going back from the first step restarts |
| Workflow.BackInPlot | App.tsx:246-252 | the plot mode's back callbacks follow its step list |
| Workflow.BackInOtherModes | App.tsx:244-267 | the other modes' back callbacks follow their step lists |
| Workflow.CompleteFollowsSteps | App.tsx:244-267 | completing step i with the artifact its screen hands over moves to step i+1 of the same mode; the last step stays put |
| Workflow.RosterTokenShape | App.tsx:252 | the plot token is empty only for an empty roster, starts with the first character's line, and appending a character appends ". " and its line |
| Storyboard.Ids | components/Step4Visuals.tsx:275-283 | the id list has one entry per shot, in order |
| Storyboard.FirstImage | components/Step4Visuals.tsx:306 | the reference photo is the first product image, present exactly when there is one |
| Storyboard.Members | components/Step4Visuals.tsx:275-283 | a group holds exactly the shots with its scene key, all drawn from the list |
| Storyboard.MembersInOrder | components/Step4Visuals.tsx:278-281 | a group is the storyboard filtered by its scene key, so it keeps the storyboard order |
| Storyboard.SceneKeys | components/Step4Visuals.tsx:275-283 | the group keys are distinct, cover every shot's scene key (or "default") and nothing else |
| Storyboard.FirstAppearance | components/Step4Visuals.tsx:278-281 | the keys in the order the grouping loop creates them: distinct, covering every shot's key and nothing else |
| Storyboard.FirstAppearanceOrder | components/Step4Visuals.tsx:278-281 | the creation order is the order of each scene's first frame, strictly increasing |
| Storyboard.SceneKeysOrder | components/Step4Visuals.tsx:483 | the listed groups put numbered scenes first in strictly ascending number; the other scenes keep their order of first appearance |
| Storyboard.SceneKeysExamples | components/Step4Visuals.tsx:483 | worked example: scenes "2" then "1" are listed "1", "2"; scenes "default" then "1" are listed "1", "default" |
| ObjectKeys.OwnKeys | components/Step4Visuals.tsx:483 | an object lists exactly the keys it was given, none twice when they were created without repeats |
| ObjectKeys.OwnKeysOrder | components/Step5VideoPrompts.tsx:101 | array-index keys come ahead of all other keys and ascend; the other keys keep their creation order |
| ObjectKeys.OwnKeysAscending | components/Step5VideoPrompts.tsx:101 | keys created without repeats list their array indices strictly ascending |
| ObjectKeys.IndexValueInjective | components/Step5VideoPrompts.tsx:101 | two array-index keys with the same number are the same key |
| ObjectKeys.OwnKeysNumbersAscend | components/Step4Visuals.tsx:483 | worked example: keys created "2", "1" are listed "1", "2" |
| ObjectKeys.OwnKeysNumbersFirst | components/Step4Visuals.tsx:483 | worked example: keys created "default", "1" are listed "1", "default" |
| Storyboard.GroupsPartition | components/Step4Visuals.tsx:275-283 | the group sizes add up to the number of shots and every shot lies in the group of its own key |
| Storyboard.EveryFrameGrouped | components/Step4Visuals.tsx:275-283 | every shot lies in the group of its own scene key |
| Storyboard.GroupsInOrder | components/Step4Visuals.tsx:275-283 | each listed group is non-empty and is exactly its scene's shots in storyboard order |
| Storyboard.GroupSizesTotal | components/Step4Visuals.tsx:275-283 | over distinct keys covering every shot, the group sizes sum to the number of shots |
| Storyboard.GroupSizesCons | components/Step4Visuals.tsx:275-283 | adding a shot in front adds one to the group of its key only |
| Storyboard.GroupSizesEmpty | components/Step4Visuals.tsx:275-283 | no shots give empty groups |
| Storyboard.OccursOnce | components/Step4Visuals.tsx:275-283 | a key of a distinct key list occurs in it once |
| Storyboard.OccursNever | components/Step4Visuals.tsx:275-283 | a key outside the list occurs in it zero times |
| Storyboard.NoMembers | components/Step4Visuals.tsx:275-283 | a key no shot carries has an empty group |
| Storyboard.PreviousFrame | components/Step4Visuals.tsx:294-302 | a supplied previous frame always wins; otherwise only in plot mode with idx > 0 is the global predecessor's image used, and only when it shares the scene and has an image |
| Storyboard.ContinuitySkipsInterleavedScene | components/Step4Visuals.tsx:294-302 | a frame whose predecessor belongs to another scene gets no previous frame even though an earlier frame of its scene has an image |
| Storyboard.FirstSuccess | components/Step4Visuals.tsx:291-331 | the attempt that succeeds is the first successful answer among the at most three attempts, every earlier attempt failed, and there is none exactly when all three fail |
| Storyboard.GenerateImageForShot | components/Step4Visuals.tsx:285-332 | an unknown id returns "" and changes nothing; otherwise at most 3 attempts with a pause before each retry, success sets only that shot's image and returns it, and final failure clears its busy flag and keeps its old image |
| Storyboard.StoryboardOmitsEnvironment | components/Step4Visuals.tsx:304-311 | a storyboard frame request never carries an environment anchor |
| Storyboard.IdentityLabelsAreIdentities | services/geminiService.ts:142-149 | every label added for the roster is a character identity |
| Storyboard.EditSave | components/Step4Visuals.tsx:334-337 | saving an edit replaces the image only on shots with the edited id; with nothing being edited the list is unchanged |
| Storyboard.EditSaveKeepsFrames | components/Step4Visuals.tsx:334-337 | saving keeps ids and prompts, and saving twice is saving once |
| Storyboard.EditSaveKeepsIds | components/Step4Visuals.tsx:334-337 | saving keeps every id in place |
| Storyboard.EditSaveTwice | components/Step4Visuals.tsx:334-337 | saving the same edit twice is saving it once |
| Storyboard.RefineRequest | components/Step4Visuals.tsx:128-141 | a refine is sent only with an instruction and an existing image; it carries the image, the instruction, and a mask exactly when one is drawn |
| Storyboard.Refine | components/Step4Visuals.tsx:128-141 | the shot list changes only for a sent refine with a non-empty answer, and then only the edited shot's image |
| Storyboard.UpdatePrompt | components/Step4Visuals.tsx:541 | a prompt edit changes only the final prompt of shots with that id; every other field and every other shot stay as they were |
| Storyboard.UpdatePromptLastWins | components/Step4Visuals.tsx:541 | of two prompt edits of the same frame the later one stays, and writing back the prompt a frame already has changes nothing |
| Storyboard.InBetweenShot | components/Step4Visuals.tsx:343-358 | the new frame is the current shot with a new stamped id, a subject action marked as a transition quoting its first 15 characters, a prompt for a transition to the next frame (or a follow-on frame when there is none), no image and not busy; nothing else differs |
| Storyboard.AddInBetween | components/Step4Visuals.tsx:339-363 | an unknown id changes nothing; otherwise the new frame sits right after the chosen one and every other shot keeps its order |
| Storyboard.DeleteShot | components/Step4Visuals.tsx:365-372 | at most two frames in the whole list refuses the delete; otherwise the result is the list filtered by id, so exactly the shots with that id go and the rest keep their order |
| Seqs.FilterConcat | components/Step4Visuals.tsx:371 | filtering a joined list joins the filtered halves, so a filter keeps the survivors in their order |
| Storyboard.CountSplit | components/Step4Visuals.tsx:365-372 | the shots deleted and the shots kept add up to the list |
| Storyboard.InBetweenThenDelete | components/Step4Visuals.tsx:339-372 | deleting a freshly inserted in-between frame restores the list |
| Storyboard.DropInsertedAt | components/Step4Visuals.tsx:339-372 | removing a frame inserted after position i restores the list |
| Storyboard.DropInserted | components/Step4Visuals.tsx:365-372 | filtering out an id carried only by the inserted frame leaves the two halves |
| Storyboard.DeleteCanEmptyScene | components/Step4Visuals.tsx:365-372 | because the guard is global, a scene's only frame can be deleted |
| Storyboard.PendingIds | components/Step4Visuals.tsx:377 | the pending list names exactly the shots without an image; it is empty exactly when every shot has one |
| Storyboard.PendingInOrder | components/Step4Visuals.tsx:377 | the pending list is the ids of the image-less shots, filtered in storyboard order |
| Storyboard.GenerateAllCoversPending | components/Step4Visuals.tsx:374-387 | the batch runs every pending shot once, in order, in non-empty chunks of at most two with one pause between neighbouring chunks; the button is enabled exactly when there is work |
| Storyboard.GenerateAllPacing | components/Step4Visuals.tsx:379-385 | every chunk but the last is full, the batch starts and ends with a render, and a render follows every pause |
| Storyboard.SceneGroupInOrder | components/Step4Visuals.tsx:389-398 | a scene group renders its pending shots one at a time in order, pausing after each |
| Batch.ChunksShape | components/Step4Visuals.tsx:379-385 | the chunks concatenate back to the input, none is empty, none exceeds the size, and all but the last are full |
| Batch.ChunkCount | components/Step4Visuals.tsx:379-385 | the number of chunks is the input length divided by the size, rounded up |
| Batch.ScheduleShape | components/Step4Visuals.tsx:379-385 | the schedule runs every chunk in order, starts and ends with a run, and pauses exactly once between consecutive chunks |
| Batch.ChunkedPacing | components/Step4Visuals.tsx:379-385 | a chunked schedule has full chunks but the last, starts and ends with a run and follows each pause with a run |
| Batch.ScheduleSnoc | components/Step4Visuals.tsx:379-385 | appending a chunk appends a pause (if any chunk came before) and its run |
| Batch.Cumulative | components/Step4AmazonVisuals.tsx:390 | one progress value per chunk |
| Batch.CumulativeSnoc | components/Step4AmazonVisuals.tsx:390 | a further chunk adds one progress value: everything finished so far |
| Batch.CumulativeShape | components/Step4AmazonVisuals.tsx:384-398 | progress strictly increases, never exceeds the total and ends at it |
| Batch.RunBatch | components/Step4AmazonVisuals.tsx:386-395 | the loop that takes k items at a time produces exactly the chunk schedule and the progress values |
| Batch.ChunksUnfold | components/Step4AmazonVisuals.tsx:386-388 | the first chunk is the first k items (or all that remain) |
| Batch.Sequential | components/Step4Visuals.tsx:392-396 | one run and one pause per item |
| Batch.SequentialShape | components/Step4Visuals.tsx:392-396 | item j runs alone at position 2j followed by a pause; there is one pause per item |
| Batch.SequentialPositions | components/Step4Visuals.tsx:392-396 | item j runs alone at position 2j, followed by a pause |
| Batch.SequentialPauses | components/Step4Visuals.tsx:392-396 | the sequential runner pauses once per item |
| AmazonConfig.CountInput | components/Step2AmazonConfig.tsx:115 | a typed count is kept when non-negative; negative or unparsable input becomes 0 |
| AmazonConfig.Numbered | components/Step2AmazonConfig.tsx:55-65 | n slots of one kind, slot i numbered i |
| AmazonConfig.Slots | components/Step2AmazonConfig.tsx:51-65 | the plan has main + secondary + A+ slots |
| AmazonConfig.BuildSlots | components/Step2AmazonConfig.tsx:51-68 | the three loops of the builder produce exactly the plan |
| AmazonConfig.SlotAt | components/Step2AmazonConfig.tsx:55-65 | all main slots come first, then secondary, then A+; gallery slots carry the gallery size, A+ slots the A+ size, and every slot starts empty |
| AmazonConfig.PrefixesDiffer | components/Step2AmazonConfig.tsx:56-64 | ids of different kinds never coincide |
| AmazonConfig.SlotIdsDistinct | components/Step2AmazonConfig.tsx:56-64 | no two slots of a plan share an id |
| AmazonConfig.InitialPlan | components/Step2AmazonConfig.tsx:43-49 | worked example: the default counts 1/6/4 give 11 slots, main first and A+ last |
| AmazonBrief.FileContent | components/Step3AmazonBrief.tsx:37-44 | a .csv or .txt file sends its first 5000 characters; any other file sends a placeholder naming it |
| AmazonBrief.ShortTextSentWhole | components/Step3AmazonBrief.tsx:37 | a short text file is sent whole |
| AmazonBrief.MergeOne | components/Step3AmazonBrief.tsx:72-77 | a slot takes both prompts from the first answer with its id and is otherwise identical |
| AmazonBrief.Merge | components/Step3AmazonBrief.tsx:71-78 | the merge keeps length and applies that rule to each slot |
| AmazonBrief.MergeKeepsPlan | components/Step3AmazonBrief.tsx:71-78 | ids, kinds, sizes and images survive the merge; a slot no answer names is unchanged |
| AmazonBrief.MergeIgnoresStrangers | components/Step3AmazonBrief.tsx:71-78 | answers for unknown ids are ignored; no answers change nothing |
| AmazonBrief.MergeIdempotent | components/Step3AmazonBrief.tsx:71-78 | merging the same answers twice is merging them once |
| AmazonBrief.Analyze | components/Step3AmazonBrief.tsx:54-87 | without a title or on failure the plan is kept; on success it is the merge; the busy flag is cleared either way |
| AmazonBrief.RemoveFile | components/Step3AmazonBrief.tsx:48-52 | removing the file empties its content and keeps the plan |
| AmazonBrief.EditFinalPrompt | components/Step3AmazonBrief.tsx:196 | editing changes the final prompt of the slots with that id only |
| AmazonBrief.AnalyzeUnlocksProceed | components/Step3AmazonBrief.tsx:211 | an answer giving some slot a non-empty final prompt unlocks proceeding |
| AmazonVisuals.ClassifyRatio | components/Step4AmazonVisuals.tsx:331-338 | the nearest-ratio cascade equals a five-band classification of the exact ratio |
| AmazonVisuals.BandMonotone | components/Step4AmazonVisuals.tsx:331-338 | a wider ratio never gets a taller class |
| AmazonVisuals.Divide | components/Step4AmazonVisuals.tsx:328 | with a non-zero height the ratio is exact; a zero height gives NaN exactly when the width is zero too |
| AmazonVisuals.DigitsLackX | components/Step4AmazonVisuals.tsx:323 | decimal digits contain no separator and are unchanged by lower-casing |
| AmazonVisuals.DecimalSizeSplits | components/Step4AmazonVisuals.tsx:323 | "wxh" in decimal splits into exactly its two numbers |
| AmazonVisuals.ParseDecimalSize | components/Step4AmazonVisuals.tsx:322-341 | a decimal "wxh" is classified by the quotient of its two numbers |
| AmazonVisuals.ParseDimensions | components/Step4AmazonVisuals.tsx:322-341 | with a non-zero height the class is the band of w/h |
| AmazonVisuals.ParseZeroHeight | components/Step4AmazonVisuals.tsx:328-338 | a zero height gives 1:1 for "0x0" (NaN) and 16:9 otherwise (Infinity) |
| AmazonVisuals.ParseWithoutSeparator | components/Step4AmazonVisuals.tsx:340 | a size without an x gives 1:1 |
| AmazonVisuals.DefaultSizes | components/Step2AmazonConfig.tsx:48-49 | the default gallery size is square and the default A+ size is 16:9 |
| AmazonVisuals.GallerySize | components/Step2AmazonConfig.tsx:48 | worked example: "1600x1600" gives 1:1 |
| AmazonVisuals.APlusSize | components/Step2AmazonConfig.tsx:49 | worked example: "970x600" gives 16:9 |
| AmazonVisuals.SquareBand | components/Step4AmazonVisuals.tsx:331 | worked example: 1600/1600 falls in the square band |
| AmazonVisuals.WideBand | components/Step4AmazonVisuals.tsx:332 | worked example: 970/600 falls in the wide band |
| AmazonVisuals.Decimal1600 | components/Step2AmazonConfig.tsx:48 | worked example: 1600 prints as "1600" |
| AmazonVisuals.Decimal970And600 | components/Step2AmazonConfig.tsx:49 | worked example: 970 and 600 print as "970" and "600" |
| AmazonVisuals.SingleRequest | components/Step4AmazonVisuals.tsx:343-352 | a busy slot or a missing reference photo sends nothing; otherwise the request opens with the reference photo, follows it with the slot's final prompt and uses the slot's parsed ratio |
| AmazonVisuals.GenerateSingle | components/Step4AmazonVisuals.tsx:343-372 | only the chosen slot changes, and only in its image and busy flag; refused requests change nothing, success sets its image and failure only clears its busy flag |
| AmazonVisuals.TargetsFrom | components/Step4AmazonVisuals.tsx:377-379 | targets are exactly the idle, image-less slots of the kind, in increasing index order |
| AmazonVisuals.BatchCoversTargets | components/Step4AmazonVisuals.tsx:374-399 | the batch runs every target once, in order, in chunks of at most four, all full but the last, starting and ending with a run and pausing once between neighbouring chunks and nowhere else |
| AmazonVisuals.ProgressCounts | components/Step4AmazonVisuals.tsx:390 | after chunk j the counter reads min(total, 4(j+1)) |
| AmazonVisuals.BatchStates | components/Step4AmazonVisuals.tsx:383-398 | a refused batch passes through no state; otherwise it starts busy at 0 of the target count, stays busy with that total after every chunk, and ends idle at 0 of 0 |
| AmazonVisuals.BatchProgress | components/Step4AmazonVisuals.tsx:384-398 | after each chunk the counter reads the targets finished so far, rising strictly and never past the total, reaching it with the last chunk before the reset to 0 of 0 |
| AmazonVisuals.WorkEnablesBatch | components/Step4AmazonVisuals.tsx:439-440 | with a target and a reference photo the batch button is enabled |
| AmazonVisuals.RenderedLeavesTargets | components/Step4AmazonVisuals.tsx:377-379 | a slot that received an image is no longer a target |
| AmazonVisuals.EditRequest | components/Step4AmazonVisuals.tsx:161-180 | a refine needs an instruction or a reference file and starts with the current image |
| AmazonVisuals.EditSave | components/Step4AmazonVisuals.tsx:401-404 | saving replaces the image only on slots with the edited id |
| AmazonVisuals.Refine | components/Step4AmazonVisuals.tsx:161-180 | the plan changes only for a sent refine with a non-empty answer |
| Scripts.PromptFor | components/Step3Prompts.tsx:36 | the generated prompt at i when present and non-empty, else the fallback built from the shot |
| Scripts.RemapConcat | components/Step3PlotScript.tsx:93-99 | remapping a script in two parts gives the first part's frames followed by the second's, numbered on from the first and reading the prompts after the first part's, so an extension continues the numbering |
| Scripts.RemapIdsDistinct | components/Step3Prompts.tsx:35 | ids within one generation are distinct |
| Scripts.RemapUsesPrompts | components/Step3Prompts.tsx:33-37 | with a non-empty prompt for every entry no fallback is used |
| Scripts.ReferencePrompts | components/Step3Prompts.tsx:27-46 | on failure the shots are kept; on success they are the remap with the product-detail fallback |
| Scripts.MountReference | components/Step3Prompts.tsx:16-25 | the reference-prompt screen opened with frames keeps them; opened without, it asks for prompts, and the frames change exactly when that call succeeds for a non-empty script |
| Scripts.CreativeScript | components/Step2CreativeScript.tsx:24-41 | a failure of either call keeps the shots; otherwise the brainstorm is remapped with the subject-action fallback |
| Scripts.MountCreative | components/Step2CreativeScript.tsx:16-22 | the creative-script screen opened with frames keeps them; opened without, it generates, and the frames change exactly when both calls succeed for a non-empty brainstorm |
| Scripts.Propose | components/Step3PlotScript.tsx:31-43 | no requirement or a failure changes nothing; a new proposal clears the shots |
| Scripts.InitialShots | components/Step3PlotScript.tsx:45-64 | without a proposal or on failure nothing changes; otherwise the shots are the remapped brainstorm |
| Scripts.Extend | components/Step3PlotScript.tsx:83-105 | extension needs a proposal and shots; with both and two answered calls with a non-empty brainstorm the shots become the old shots followed by the remapped brainstorm numbered from the old count, and nothing else changes; otherwise nothing changes |
| Scripts.ExpandArc | components/Step3PlotScript.tsx:66-79 | without a proposal or on a failed call nothing changes; otherwise the arc field takes the new text, no frames appear when there were none, and existing frames get the extension exactly as the plot extension would add them |
| Scripts.ExpandArcThenExtend | components/Step3PlotScript.tsx:66-79 | expanding equals updating the arc and then extending: the extension reading the earlier proposal makes no difference to the frames |
| Scripts.InitialNumbered | components/Step3PlotScript.tsx:53-57 | the initial plot shots are numbered by position |
| Scripts.ExtendNumbered | components/Step3PlotScript.tsx:93-99 | extension keeps shots numbered by position |
| Scripts.NumberedIdsDistinct | components/Step3PlotScript.tsx:93-99 | position-numbered ids are distinct |
| Scripts.UpdateProposalField | components/Step3PlotScript.tsx:107-109 | only the named field changes |
| VideoPrompts.VideoPromptFor | components/Step5VideoPrompts.tsx:46-49 | never empty: the generated text at i when non-empty, else the old video prompt when non-empty, else the cinematic fallback naming the product and the subject action |
| VideoPrompts.ProductPrompts | components/Step5VideoPrompts.tsx:44-50 | on failure nothing changes; otherwise every shot keeps everything but its video prompt, which becomes non-empty and is chosen as VideoPromptFor says |
| VideoPrompts.RegenerateKeepsPrompts | components/Step5VideoPrompts.tsx:44-50 | a shot that had a video prompt keeps one, and only video prompts change |
| VideoPrompts.PlotTransitions | components/Step5VideoPrompts.tsx:39-43 | a failed call keeps the old transitions; a missing or malformed list gives none |
| VideoPrompts.PairPrompt | components/Step5VideoPrompts.tsx:114-119 | "" when no transition joins the pair under either naming; otherwise the prompt of the first transition that joins it, or "" when that prompt is missing or empty |
| VideoPrompts.PairPromptCons | components/Step5VideoPrompts.tsx:114-119 | read from the front, a first answer joining the pair decides its prompt and a non-joining one is skipped |
| VideoPrompts.Pairs | components/Step5VideoPrompts.tsx:108-113 | a scene of n shots gives n-1 pairs that chain: pair i starts at shot i, ends where pair i+1 starts, and the last ends at the scene's last shot |
| VideoPrompts.CardCountOfGroups | components/Step5VideoPrompts.tsx:108-113 | over non-empty groups, the cards plus the groups make up the shots |
| VideoPrompts.CardsPerStoryboard | components/Step5VideoPrompts.tsx:21-29 | the storyboard has as many transition cards as shots minus scenes |
| VideoPrompts.Copy | components/Step5VideoPrompts.tsx:58-63 | copying empty text does nothing |
| Gemini.FrameStyle | services/geminiService.ts:112-115 | the style is the first character's style text when there is one, else the photorealistic default |
| Gemini.PayloadOfDataUri | services/geminiService.ts:137 | the payload after the first comma of a data URI is the encoded data |
| Gemini.MimeOfDataUri | services/geminiService.ts:138 | the MIME type between ':' and ';' is recovered, defaulting to image/png |
| Gemini.DataUriRoundTrip | services/geminiService.ts:136-139 | splitting a data URI the service built gives back its data and MIME type |
| Gemini.CaptionsConcat | services/geminiService.ts:117-150 | the labels of a joined request are the labels of its halves |
| Gemini.PairedConcat | services/geminiService.ts:117-150 | every label is followed by its image in a joined request when it is in each half |
| Gemini.CaptionedImage | services/geminiService.ts:133 | a labelled attachment contributes its one label |
| Gemini.Uncaptioned | services/geminiService.ts:117-125 | an unlabelled part contributes no label |
| Gemini.NoCaptions | services/geminiService.ts:117-125 | parts without labels contribute none |
| Gemini.CharacterPartsShape | services/geminiService.ts:142-149 | one identity label per character with an outfit or turnaround image, in roster order, each followed by its image |
| Gemini.FrameHeadShape | services/geminiService.ts:117-140 | the environment label precedes the previous-frame label, each present only when attached |
| Gemini.FramePartsShape | services/geminiService.ts:117-150 | the request opens with the scene text, carries the product reference right after it when given, and its labels are the environment anchor, the previous frame, then the identities |
| Gemini.FrameResult | services/geminiService.ts:158-160 | a frame answer without an image part is a failure; otherwise a data URI |
| Gemini.ImageOrEmpty | services/geminiService.ts:233-235 | the other image calls answer "" exactly when the answer holds no image part |
| Gemini.ImagesOf | components/StepStorefrontDesigner.tsx:76-81 | only the responses with an image contribute, each as a data URI, and all do when all have one |
| Gemini.EditFrameParts | services/geminiService.ts:163-170 | image, instruction, and a mask part exactly when a mask is given |
| Gemini.EditListingParts | services/geminiService.ts:219-227 | image, instruction, the reference when given, then the mask when given |
| Gemini.ListAnswer | services/geminiService.ts:79 | an empty reply text is an empty list; only malformed text is a failure |
| ApiKey.ClearKey | components/ApiKeyManager.tsx:90-92 | after clearing no key is stored, other entries stay, and no entry is added |
| ApiKey.Type | components/ApiKeyManager.tsx:51-54 | typing clears the error |
| ApiKey.Save | components/ApiKeyManager.tsx:15-28 | blank input is rejected with the blank-key message, and other input not starting with "AIza" (untrimmed) with the format message; otherwise the trimmed key is stored and reported |
| ApiKey.TrimKeepsPrefix | components/ApiKeyManager.tsx:21-27 | trimming keeps a leading "AIza" |
| ApiKey.SavedKeyIsUsable | components/ApiKeyManager.tsx:26-28 | what is saved starts with "AIza" and is what the key lookup returns |
| Storefront.InitialCanvases | components/StepStorefrontDesigner.tsx:18-20 | one untouched 1600x1600 canvas |
| Storefront.AddCanvas | components/StepStorefrontDesigner.tsx:29-33 | a blank 1000x1000 canvas is appended and the others stay |
| Storefront.RemoveCanvas | components/StepStorefrontDesigner.tsx:35-38 | the last canvas cannot be removed; otherwise the result is the list filtered by id, so exactly the canvases with that id go and the rest keep their order |
| Storefront.RemoveKeepsOne | components/StepStorefrontDesigner.tsx:35-38 | removal keeps a non-empty list with distinct ids |
| Storefront.RemoveAbsent | components/StepStorefrontDesigner.tsx:35-38 | removing an unknown id changes nothing |
| Storefront.UpdateCanvas | components/StepStorefrontDesigner.tsx:40-42 | a canvas with that id takes the new width, the new height, the new reference with its preview, or loses both, and nothing else on it changes; other canvases and every id stay |
| Storefront.UpdateCanvasSettles | components/StepStorefrontDesigner.tsx:40-42 | repeating an edit changes nothing more, and the later of two width (or height) edits is the one that stays |
| Storefront.SameIds | components/StepStorefrontDesigner.tsx:40-42 | lists with the same ids position by position are alike for well-formedness |
| Storefront.FindSameIds | components/StepStorefrontDesigner.tsx:92 | the first canvas with an id sits at the same place in lists with the same ids |
| Storefront.InitialLogo | components/StepStorefrontDesigner.tsx:13-15 | no variants, no choice, no reference |
| Storefront.LogoBrand | components/StepStorefrontDesigner.tsx:58 | an empty brand reads "Generic" |
| Storefront.LogoParts | components/StepStorefrontDesigner.tsx:58-72 | the brief, then the reference when given |
| Storefront.FinishLogo | components/StepStorefrontDesigner.tsx:75-88 | the variants are the returned images and the first is chosen when any came back; a failure keeps the old ones |
| Storefront.SelectLogo | components/StepStorefrontDesigner.tsx:232 | choosing a variant selects it |
| Storefront.LogoUrl | components/StepStorefrontDesigner.tsx:98-100 | the anchor is the chosen variant exactly when the switch is on and a non-empty variant is chosen |
| Storefront.GeneratedLogoAnchors | components/StepStorefrontDesigner.tsx:83-100 | a generation that returns an image makes its first image the anchor while the switch is on |
| Storefront.ImagelessLogoDoesNotAnchor | components/StepStorefrontDesigner.tsx:83-100 | a generation without an image leaves no anchor |
| Storefront.CanvasAspect | components/StepStorefrontDesigner.tsx:127 | equal sides give 1:1, a wider canvas 16:9, a taller 9:16 |
| Storefront.AspectSwap | components/StepStorefrontDesigner.tsx:127 | swapping the sides swaps landscape and portrait |
| Storefront.CanvasPartsShape | components/StepStorefrontDesigner.tsx:103-119 | the scene text first, then the labelled logo when attached, then the labelled reference |
| Storefront.StartCanvas | components/StepStorefrontDesigner.tsx:91-95 | an unknown or busy canvas is not started; otherwise the canvases with that id are marked busy and nothing else about any canvas changes |
| Storefront.FinishCanvas | components/StepStorefrontDesigner.tsx:133-146 | success replaces the canvas's images, failure keeps them; it is freed either way, its sizes and reference stay, and no other canvas changes |
| Storefront.RenderIsExclusive | components/StepStorefrontDesigner.tsx:91-95 | a busy canvas refuses a second start and is startable again after finishing |
| PlotCharacters.InitialRoster | components/Step1PlotCharacter.tsx:208-211 | two blank characters char-0 and char-1 with distinct ids |
| PlotCharacters.DeleteCharacter | components/Step1PlotCharacter.tsx:223-226 | with at most one character the delete is refused; otherwise the result is the roster filtered by id, keeping the others in order |
| PlotCharacters.DeleteKeepsOne | components/Step1PlotCharacter.tsx:223-226 | with distinct ids a delete removes at most one and never empties the roster |
| PlotCharacters.UpdateCharacter | components/Step1PlotCharacter.tsx:219-221 | only the character with the matching id is replaced |
| PlotCharacters.SetStyleAll | components/Step1PlotCharacter.tsx:228-231 | every character gets the style and nothing else changes |
| PlotCharacters.AnalyzeLook | components/Step1PlotCharacter.tsx:56-67 | with photos and an answer the card takes photos, token and style; otherwise nothing is saved |
| PlotCharacters.DescribedToken | components/Step1PlotCharacter.tsx:87 | the token is "Generated: " and the first 50 characters of the description |
| PlotCharacters.GenerateLook | components/Step1PlotCharacter.tsx:69-99 | nothing happens without a description, while busy or while the key picker must open; an image-less answer fails; success makes the card ready |
| PlotCharacters.GeneratedLookUnlocks | components/Step1PlotCharacter.tsx:318 | generating the last missing look unlocks proceeding |
| PlotCharacters.AddCharacterAsWritten | components/Step1PlotCharacter.tsx:214-217 | the new id is numbered by the current length |
| PlotCharacters.AddAfterDeleteDuplicatesId | components/Step1PlotCharacter.tsx:214-217 | deleting char-0 and adding gives two characters named char-1 |
| PlotCharacters.StartRoster | components/Step1PlotCharacter.tsx:208-211 | the opening roster with a counter at 2 is valid |
| PlotCharacters.StartRosterValid | components/Step1PlotCharacter.tsx:208-211 | no opening id reaches the counter |
| PlotCharacters.AddCharacter | components/Step1PlotCharacter.tsx:214-217 | the corrected add appends the counter's id and keeps ids distinct |
| PlotCharacters.AddKeepsValid | components/Step1PlotCharacter.tsx:214-217 | adding with the counter keeps ids distinct and below the counter |
| PlotCharacters.DeleteFromRoster | components/Step1PlotCharacter.tsx:223-226 | deleting keeps the counter and validity |
| PlotCharacters.DeleteKeepsValid | components/Step1PlotCharacter.tsx:223-226 | a delete keeps ids distinct and below the counter |
| PlotCharacters.EditsKeepValid | components/Step1PlotCharacter.tsx:219-231 | updates and restyling keep the roster valid |
| PlotCharacters.AddAfterDeleteKeepsIdsApart | components/Step1PlotCharacter.tsx:214-226 | the scenario that duplicates an id as written yields char-2 with the counter |
| PlotReference.StartTurnaround | components/Step2PlotReference.tsx:18-20 | a busy card does not start; otherwise only that card is marked busy |
| PlotReference.FinishTurnaround | components/Step2PlotReference.tsx:21-27 | success sets that card's sheet, failure keeps it; either way only that card is freed |
| PlotReference.RenderEnablesProceed | components/Step2PlotReference.tsx:94 | a render returning an image enables proceeding; a failed one restores the roster |
| PlotReference.RenderAll | components/Step2PlotReference.tsx:30-34 | every idle card takes its own answer and busy cards are left alone |
| PlotReference.RenderAllCompletes | components/Step2PlotReference.tsx:86-94 | when every card ends with a sheet the render-all button disappears and proceeding is enabled |
| PlotEnvironment.StartEnvironment | components/Step3_2PlotEnvironment.tsx:19-20 | starting a render disables every render button |
| PlotEnvironment.FinishEnvironment | components/Step3_2PlotEnvironment.tsx:19-32 | only environments with that id take the answer; a failure or unknown id changes none; the busy marker is cleared |
| PlotEnvironment.LastRenderCompletes | components/Step3_2PlotEnvironment.tsx:89 | rendering the last environment without an image enables proceeding |
| PlotOutfitting.First | components/Step3_5PlotOutfitting.tsx:50 | the selected costume is the first suggestion, present exactly when there is one |
| PlotOutfitting.Regenerate | components/Step3_5PlotOutfitting.tsx:43-58 | all answered: each character takes its suggestions and selects the first; any failure keeps the roster |
| PlotOutfitting.RegenerateSettles | components/Step3_5PlotOutfitting.tsx:35 | after non-empty suggestions reopening would not ask again and every selection is a suggestion |
| PlotOutfitting.SelectCostume | components/Step3_5PlotOutfitting.tsx:60-62 | only the matching character's selection changes |
| PlotOutfitting.StartOutfit | components/Step3_5PlotOutfitting.tsx:64-65 | starting disables that character's button and proceeding |
| PlotOutfitting.FinishOutfit | components/Step3_5PlotOutfitting.tsx:66-77 | only the matching character's outfitted look is set; failure or unknown id changes none; the marker is cleared |
| PlotOutfitting.FinishReenablesProceed | components/Step3_5PlotOutfitting.tsx:208 | a finished render re-enables proceeding when no suggestions load |
| VideoUpload.CanBrowserPlay | components/Step2Video.tsx:43-50 | .ts and .mkv names in any case are never playable; otherwise playable exactly for a video MIME type |
| VideoUpload.PlayIgnoresCase | components/Step2Video.tsx:45 | a name and its lower-cased form are judged alike |
| VideoUpload.ExcludedExtensions | components/Step2Video.tsx:47-48 | any capitalisation of .ts or .mkv is refused |
| VideoUpload.UpperCaseTransportStream | components/Step2Video.tsx:47 | worked example: "CLIP.TS" with a video MIME type is refused |
| VideoUpload.ChooseFile | components/Step2Video.tsx:19-26 | a new file clears the structure |
| VideoUpload.RemoveFile | components/Step2Video.tsx:96 | removing the file keeps the structure |
| VideoUpload.NoFileNoAnalysis | components/Step2Video.tsx:29 | without a file analysis changes nothing |
| VideoUpload.Analyze | components/Step2Video.tsx:28-40 | without a file nothing changes; an answer replaces the structure and a failure keeps it |
| VideoUpload.NewFileReopensAnalysis | components/Step2Video.tsx:112-123 | a new file re-enables analysis; a non-empty answer locks it and shows proceeding |
| Assistant.Opening | components/AiAssistant.tsx:38-44 | the chat opens with one model greeting and no session |
| Assistant.Send | components/AiAssistant.tsx:90-123 | a blank draft or a reply in progress changes nothing; otherwise the user message, the streamed reply and on a break the notice are appended, and the draft is cleared |
| Assistant.StreamReply | components/AiAssistant.tsx:100-116 | the last message ends holding every non-empty chunk in order |
| Assistant.StreamedGrows | components/AiAssistant.tsx:106-115 | the shown reply only grows as chunks arrive |
| Assistant.Clear | components/AiAssistant.tsx:132-138 | the log becomes exactly the reset notice and the session is dropped |
| Assistant.StripTag | components/AiAssistant.tsx:151 | one leading prompt, text or json tag line is removed |
| Assistant.TagsExclusive | components/AiAssistant.tsx:151 | at most one tag opens a block |
| Assistant.TagStrippedOnce | components/AiAssistant.tsx:151 | worked example: a doubled tag keeps its second copy |
| Assistant.Render | components/AiAssistant.tsx:141-155 | pieces alternate between prose at even positions and prompt blocks at odd ones, each block showing the prompt Cut leaves, and no piece holds a fence |
| Assistant.RenderLosesOnlyTags | components/AiAssistant.tsx:141-155 | putting each block's tag and surrounding whitespace back around its shown prompt and rejoining the pieces with fences gives back the reply |
| Assistant.Cut | components/AiAssistant.tsx:151-152 | a block is its tag (none, prompt, text or json), whitespace, the shown prompt and whitespace, in that order |
| Assistant.BodyFenceFree | components/AiAssistant.tsx:151-152 | a block without a fence shows a prompt without one |
| Assistant.UnfencedIsPlain | components/AiAssistant.tsx:143-148 | a reply without a fence is one piece of prose |

## Left out

- The generative service calls, the chat session and its streaming: each is an input (`Reply`, `Option<InlineData>`, a list of chunks with a break flag).
- File reading, `fetch`, object URLs, the clipboard, downloads and zip export: browser I/O. Storage is a map from name to string.
- Timers and `Promise.all`/`allSettled`: batches are ordered chunk lists with pause events; interleavings of concurrent renders are not modelled.
- Stale state captured by concurrent handlers: the outfit and environment busy markers, which whichever render ends first clears; `generateSingle`'s busy test on a captured roster; a clear during streaming.
- Clock-stamped ids (`Date.now()`): `now` is a parameter, and collisions between two stamps in the same millisecond are not modelled. One stamp stands for a whole remapped batch, where the source reads the clock once per frame; the ids stay distinct either way because they carry the frame number.
- Mask drawing on a canvas and its pixels: a mask is an optional string.
- React rendering, modal state, preview panes and the remount by restart key.
- The request the plot extension sends while an arc is expanded carries the proposal from before the new arc; requests are abstract here and the extension's answers are inputs, so only the frames it adds are modelled.
- The product-photo forms of the reference and creative modes: a file picker with append and remove.
- Prompt wording: request texts are abstract instructions carrying their inputs, not the literal English prompts.
- Unicode case mapping and UTF-16: strings are sequences of characters, and lower-casing maps only A-Z.
- The logo's three parallel requests: one reply list, failing as a whole.
- AmazonVisuals.ClassifyRatio: uses exact rationals where the source uses binary floating point, so ratios within rounding distance of a band edge are not modelled.
- AmazonConfig.CountInput: fractional input is not modelled (the count is an integer or missing).
- Storefront.CanvasAspect: the sides are integers; the source's `Number` sides could also be fractional or NaN.
- Storyboard.Members: the grouping object is a plain `{}`, so a scene key naming an `Object.prototype` property (`constructor`, `toString`, `__proto__` and the like) finds an inherited truthy value and `push` throws; the model groups such keys like any other, so GroupsPartition, EveryFrameGrouped and CardsPerStoryboard describe the source only for storyboards without such keys.
- Storyboard.SceneKeys: lists a scene key that names an `Object.prototype` property like any other key, where the source throws while grouping (see the line above).
- A malformed image response (an empty candidate list, or a candidate without content) makes the source throw while reading its parts. Gemini.FrameResult and Gemini.ImageOrEmpty take the image part of a well-formed answer, so they do not cover that throw; the caller sees it as a failed call, which the screens' models receive as a failed reply.

## Findings

| source | as written | input that shows it | evidently intended | confidence | as-written member | corrected member |
|---|---|---|---|---|---|---|
| components/Step1PlotCharacter.tsx:214-217 | a new character's id is `char-<current roster length>` | start with char-0 and char-1, delete char-0, add a character: the roster holds two characters with id char-1, so later updates and deletes by id hit both | ids stay distinct across deletes | not executed | PlotCharacters.AddAfterDeleteDuplicatesId | PlotCharacters.AddCharacter |

=== FILE: amazon_brief.dfy ===
/** The Amazon listing brief: the listing text and an optional requirement
    file are sent for analysis, and the prompts that come back are merged
    into the image plan by slot id. */
module AmazonBrief {
  import opened Wrappers
  import opened Seqs
  import opened Text
  import opened Types

  /** At most this many characters of a text requirement file are sent. */
  const FileLimit: nat := 5000

  /** What the brief sends for an uploaded requirement file: the first
      `FileLimit` characters of a `.csv` or `.txt` file, a placeholder
      naming any other file. */
  function FileContent(name: string, text: string): (r: string)
    ensures (EndsWith(name, ".csv") || EndsWith(name, ".txt")) ==>
              |r| == (if |text| < FileLimit then |text| else FileLimit) && r == text[..|r|]
    ensures !(EndsWith(name, ".csv") || EndsWith(name, ".txt")) ==>
              r == "[Binary File: " + name + " uploaded as requirement source]"
  {
    if EndsWith(name, ".csv") || EndsWith(name, ".txt") then
      (if |text| <= FileLimit then text else text[..FileLimit])
    else "[Binary File: " + name + " uploaded as requirement source]"
  }

  /** A text file short enough is sent whole. */
  lemma ShortTextSentWhole(name: string, text: string)
    requires EndsWith(name, ".txt") && |text| <= FileLimit
    ensures FileContent(name, text) == text
  {
  }

  /** One analysed slot: the id it answers for and its two prompts. */
  datatype SlotPrompt = SlotPrompt(id: string, prompt: string, finalPrompt: string)

  function ForId(id: string): SlotPrompt -> bool
  {
    (r: SlotPrompt) => r.id == id
  }

  /** One slot after the merge: the first answer for its id, if any,
      supplies both prompts; everything else about the slot stays. */
  function MergeOne(original: AmazonSlot, results: seq<SlotPrompt>): (r: AmazonSlot)
    ensures Find(results, ForId(original.id)).None? ==> r == original
    ensures Find(results, ForId(original.id)).Some? ==>
              r == original.(prompt := Find(results, ForId(original.id)).value.prompt,
                             finalPrompt := Find(results, ForId(original.id)).value.finalPrompt)
  {
    match Find(results, ForId(original.id))
    case None => original
    case Some(a) => original.(prompt := a.prompt, finalPrompt := a.finalPrompt)
  }

  /** The merge of `handleAnalyze`. */
  function Merge(configs: seq<AmazonSlot>, results: seq<SlotPrompt>): (r: seq<AmazonSlot>)
    ensures |r| == |configs|
    ensures forall i :: 0 <= i < |configs| ==> r[i] == MergeOne(configs[i], results)
  {
    if configs == [] then [] else [MergeOne(configs[0], results)] + Merge(configs[1..], results)
  }

  /** The merge keeps the plan: the same slots in the same order with the
      same ids, kinds, sizes and images; only prompts change, and only for
      slots some answer names. */
  lemma MergeKeepsPlan(configs: seq<AmazonSlot>, results: seq<SlotPrompt>)
    ensures forall i :: 0 <= i < |configs| ==>
              var m := Merge(configs, results)[i];
              m.id == configs[i].id && m.slotType == configs[i].slotType && m.size == configs[i].size
              && m.generatedImageUrl == configs[i].generatedImageUrl && m.isGenerating == configs[i].isGenerating
    ensures forall i :: 0 <= i < |configs| ==>
              (forall j :: 0 <= j < |results| ==> results[j].id != configs[i].id) ==>
                Merge(configs, results)[i] == configs[i]
  {
  }

  /** Answers with ids the plan does not have are ignored; an empty answer
      changes nothing. */
  lemma MergeIgnoresStrangers(configs: seq<AmazonSlot>, results: seq<SlotPrompt>, extra: seq<SlotPrompt>)
    requires forall j, i :: 0 <= j < |extra| && 0 <= i < |configs| ==> extra[j].id != configs[i].id
    ensures Merge(configs, results + extra) == Merge(configs, results)
    ensures Merge(configs, []) == configs
  {
    forall i | 0 <= i < |configs|
      ensures MergeOne(configs[i], results + extra) == MergeOne(configs[i], results)
    {
      FindAppendMiss(results, extra, ForId(configs[i].id));
    }
  }

  /** Merging the same answers twice is merging them once. */
  lemma MergeIdempotent(configs: seq<AmazonSlot>, results: seq<SlotPrompt>)
    ensures Merge(Merge(configs, results), results) == Merge(configs, results)
  {
  }

  /** The screen's state. */
  datatype Brief = Brief(title: string, bullets: string, parameters: string, notes: string,
                         fileContent: string, analyzing: bool, configs: seq<AmazonSlot>)

  /** The analysis is allowed once a title is filled in and none is running. */
  predicate AnalyzeEnabled(b: Brief)
  {
    !b.analyzing && b.title != ""
  }

  /** `handleAnalyze`, given the answer: without a title nothing is sent
      and nothing changes; a failed call leaves the plan; a successful one
      merges the answers. */
  function Analyze(b: Brief, answer: Reply<seq<SlotPrompt>>): (r: Brief)
    ensures !r.analyzing
    ensures b.title == "" || answer.Fail? ==> r.configs == b.configs
    ensures b.title != "" && answer.Ok? ==> r.configs == Merge(b.configs, answer.value)
    ensures r.title == b.title && r.fileContent == b.fileContent
  {
    if b.title == "" then b.(analyzing := false)
    else match answer
      case Fail => b.(analyzing := false)
      case Ok(results) => b.(analyzing := false, configs := Merge(b.configs, results))
  }

  /** `removeFile`: the requirement file and its content are dropped. */
  function RemoveFile(b: Brief): (r: Brief)
    ensures r.fileContent == "" && r.configs == b.configs && r.title == b.title
  {
    b.(fileContent := "")
  }

  /** One slot's final prompt edited in place. */
  function EditFinalPrompt(configs: seq<AmazonSlot>, id: string, text: string): (r: seq<AmazonSlot>)
    ensures |r| == |configs|
    ensures forall i :: 0 <= i < |configs| ==>
              r[i] == if configs[i].id == id then configs[i].(finalPrompt := text) else configs[i]
  {
    MapIf(configs, (c: AmazonSlot) => c.id == id, (c: AmazonSlot) => c.(finalPrompt := text))
  }

  /** Going on needs at least one slot with a final prompt, and no analysis running. */
  predicate ProceedEnabled(b: Brief)
  {
    !b.analyzing && exists i :: 0 <= i < |b.configs| && b.configs[i].finalPrompt != ""
  }

  /** A successful analysis that answers for some slot with a non-empty
      final prompt unlocks the next step. */
  lemma AnalyzeUnlocksProceed(b: Brief, results: seq<SlotPrompt>, i: nat)
    requires b.title != "" && i < |b.configs|
    requires Find(results, ForId(b.configs[i].id)).Some?
    requires Find(results, ForId(b.configs[i].id)).value.finalPrompt != ""
    ensures ProceedEnabled(Analyze(b, Ok(results)))
  {
    assert Analyze(b, Ok(results)).configs[i].finalPrompt != "";
  }
}

=== FILE: amazon_config.dfy ===
/** The Amazon image-plan screen: how many main, secondary and A+ images
    to make, and at which sizes. */
module AmazonConfig {
  import opened Wrappers
  import opened Text
  import opened Types

  datatype Form = Form(mainCount: nat, secondaryCount: nat, aplusCount: nat, gallerySize: string, aplusSize: string)

  /** The form as it opens: one main image, six secondary and four A+
      modules, galleries at 1600x1600 and A+ modules at 970x600. */
  function Initial(): Form
  {
    Form(1, 6, 4, "1600x1600", "970x600")
  }

  /** `Math.max(0, Number(v))` for an integer input; `None` is `NaN`, for
      which the loop `i < NaN` makes nothing, exactly like zero. */
  function CountInput(v: Option<int>): (n: nat)
    ensures v.Some? && v.value >= 0 ==> n == v.value
    ensures v.None? || v.value <= 0 ==> n == 0
  {
    match v
    case None => 0
    case Some(x) => if x > 0 then x else 0
  }

  function Prefix(t: SlotType): string
  {
    match t
    case Main => "main-"
    case Secondary => "sec-"
    case APlus => "aplus-"
  }

  function Slot(t: SlotType, i: nat, size: string): AmazonSlot
  {
    AmazonSlot(Prefix(t) + NatToString(i), t, size, "", "", None, false)
  }

  /** `n` slots of one kind, numbered from zero. */
  function Numbered(t: SlotType, size: string, n: nat): (r: seq<AmazonSlot>)
    ensures |r| == n
    ensures forall i :: 0 <= i < n ==> r[i] == Slot(t, i, size)
  {
    if n == 0 then [] else Numbered(t, size, n - 1) + [Slot(t, n - 1, size)]
  }

  /** The plan `handleProceed` hands on: main images, then secondary
      images, then A+ modules, all with empty prompts and no image. */
  function Slots(f: Form): (r: seq<AmazonSlot>)
    ensures |r| == f.mainCount + f.secondaryCount + f.aplusCount
  {
    Numbered(Main, f.gallerySize, f.mainCount)
    + Numbered(Secondary, f.gallerySize, f.secondaryCount)
    + Numbered(APlus, f.aplusSize, f.aplusCount)
  }

  /** `handleProceed` as written: three counting loops pushing one slot each. */
  method BuildSlots(f: Form) returns (configs: seq<AmazonSlot>)
    ensures configs == Slots(f)
  {
    configs := [];
    var i := 0;
    while i < f.mainCount
      invariant i <= f.mainCount
      invariant configs == Numbered(Main, f.gallerySize, i)
    {
      configs := configs + [Slot(Main, i, f.gallerySize)];
      i := i + 1;
    }
    var head := configs;
    i := 0;
    while i < f.secondaryCount
      invariant i <= f.secondaryCount
      invariant configs == head + Numbered(Secondary, f.gallerySize, i)
    {
      configs := configs + [Slot(Secondary, i, f.gallerySize)];
      i := i + 1;
    }
    head := configs;
    i := 0;
    while i < f.aplusCount
      invariant i <= f.aplusCount
      invariant configs == head + Numbered(APlus, f.aplusSize, i)
    {
      configs := configs + [Slot(APlus, i, f.aplusSize)];
      i := i + 1;
    }
  }

  /** Slot `k` of the plan: its kind, its number within the kind and its size. */
  lemma SlotAt(f: Form, k: nat)
    requires k < |Slots(f)|
    ensures k < f.mainCount ==> Slots(f)[k] == Slot(Main, k, f.gallerySize)
    ensures f.mainCount <= k < f.mainCount + f.secondaryCount ==>
              Slots(f)[k] == Slot(Secondary, k - f.mainCount, f.gallerySize)
    ensures f.mainCount + f.secondaryCount <= k ==>
              Slots(f)[k] == Slot(APlus, k - f.mainCount - f.secondaryCount, f.aplusSize)
  {
  }

  /** Different kinds have ids that already differ in their first letter. */
  lemma PrefixesDiffer(s: SlotType, t: SlotType, x: string, y: string)
    requires s != t
    ensures Prefix(s) + x != Prefix(t) + y
  {
    assert (Prefix(s) + x)[0] == Prefix(s)[0];
    assert (Prefix(t) + y)[0] == Prefix(t)[0];
  }

  /** Every slot of a plan has its own id, so the later lookups by id
      (merging prompts, saving edits) each hit one slot. */
  lemma SlotIdsDistinct(f: Form)
    ensures forall a, b :: 0 <= a < b < |Slots(f)| ==> Slots(f)[a].id != Slots(f)[b].id
  {
    forall a, b | 0 <= a < b < |Slots(f)| ensures Slots(f)[a].id != Slots(f)[b].id {
      SlotAt(f, a);
      SlotAt(f, b);
      var sa, sb := Slots(f)[a], Slots(f)[b];
      var ia := if a < f.mainCount then a else if a < f.mainCount + f.secondaryCount then a - f.mainCount
                else a - f.mainCount - f.secondaryCount;
      var ib := if b < f.mainCount then b else if b < f.mainCount + f.secondaryCount then b - f.mainCount
                else b - f.mainCount - f.secondaryCount;
      assert sa.id == Prefix(sa.slotType) + NatToString(ia);
      assert sb.id == Prefix(sb.slotType) + NatToString(ib);
      if sa.slotType == sb.slotType {
        PrefixedNumbersDiffer(Prefix(sa.slotType), ia, ib);
      } else {
        PrefixesDiffer(sa.slotType, sb.slotType, NatToString(ia), NatToString(ib));
      }
    }
  }

  /** The opening form plans eleven slots: one main, six secondary, four A+. */
  lemma InitialPlan()
    ensures |Slots(Initial())| == 11
    ensures Slots(Initial())[0].slotType == Main && Slots(Initial())[10].slotType == APlus
  {
    SlotAt(Initial(), 0);
    SlotAt(Initial(), 10);
  }
}

=== FILE: amazon_visuals.dfy ===
/** The Amazon listing renderer: each slot's size string picks an aspect
    ratio, slots render one at a time or in batches of one kind, and a
    rendered image can be edited. */
module AmazonVisuals {
  import opened Wrappers
  import opened Seqs
  import opened Text
  import opened Types
  import opened Gemini
  import opened Batch

  // ---------------------------------------------------------------------
  // Aspect ratio of a size string
  // ---------------------------------------------------------------------

  function Abs(x: real): real
  {
    if x < 0.0 then -x else x
  }

  /** The nearest-ratio cascade of `parseAspectRatio` on a finite ratio,
      tolerances included, then its fallback. Computed exactly on the
      rationals. */
  function ClassifyRatio(r: real): (a: AspectRatio)
    ensures a == Band(r)
  {
    if Abs(r - 1.0) < 0.1 then Square
    else if Abs(r - 16.0 / 9.0) < 0.3 then Wide
    else if Abs(r - 9.0 / 16.0) < 0.3 then Tall
    else if Abs(r - 4.0 / 3.0) < 0.2 then Landscape
    else if Abs(r - 3.0 / 4.0) < 0.2 then Portrait
    else if r > 1.2 then Wide
    else if r < 0.8 then Tall
    else Square
  }

  /** What the cascade amounts to: five consecutive bands of the ratio. */
  function Band(r: real): AspectRatio
  {
    if r < 69.0 / 80.0 then Tall
    else if r <= 9.0 / 10.0 then Portrait
    else if r <= 17.0 / 15.0 then Square
    else if r <= 133.0 / 90.0 then Landscape
    else Wide
  }

  /** The bands are ordered: a wider image never gets a taller ratio. */
  lemma BandMonotone(r: real, s: real)
    requires r <= s
    ensures Rank(Band(r)) <= Rank(Band(s))
  {
  }

  function Rank(a: AspectRatio): nat
  {
    match a
    case Tall => 0
    case Portrait => 1
    case Square => 2
    case Landscape => 3
    case Wide => 4
  }

  /** `w / h` in floating point: a finite quotient, an infinity, or NaN. */
  datatype Quotient = Finite(value: real) | PosInfinity | NegInfinity | NaN

  /** The quotient of two parsed integers. A zero height gives NaN over a
      zero width and otherwise an infinity whose sign is the product of the
      signs, negative zero included. */
  function Divide(w: JsInt, h: JsInt): (q: Quotient)
    ensures h.magnitude > 0 ==> q == Finite(w.Value() as real / h.Value() as real)
    ensures h.magnitude == 0 ==> (q.NaN? <==> w.magnitude == 0)
  {
    if h.magnitude == 0 then
      if w.magnitude == 0 then NaN
      else if w.negative == h.negative then PosInfinity else NegInfinity
    else Finite(w.Value() as real / h.Value() as real)
  }

  /** The cascade on any quotient: every test fails on NaN (so the fallback
      answers 1:1), an infinity falls through to the fallback by its sign. */
  function ClassifyQuotient(q: Quotient): AspectRatio
  {
    match q
    case NaN => Square
    case PosInfinity => Wide
    case NegInfinity => Tall
    case Finite(r) => ClassifyRatio(r)
  }

  /** `parseAspectRatio(size)`: lower-case, split on `x`; anything but two
      pieces, or a piece `parseInt` rejects, is 1:1. */
  function ParseAspectRatio(size: string): AspectRatio
  {
    var parts := Split(ToLower(size), "x");
    if |parts| != 2 then Square
    else match (ParseInt(parts[0]), ParseInt(parts[1]))
      case (Some(w), Some(h)) => ClassifyQuotient(Divide(w, h))
      case _ => Square
  }

  lemma DigitsLackX(s: string)
    requires AllDigits(s)
    ensures 'x' !in s
    ensures ToLower(s) == s
  {
    forall i | 0 <= i < |s| ensures s[i] != 'x' && ToLower(s)[i] == s[i] {
      assert IsDigit(s[i]);
    }
  }

  /** A size written `<w>x<h>` in decimal is classified by the quotient of the two numbers. */
  lemma ParseDecimalSize(w: nat, h: nat)
    ensures ParseAspectRatio(NatToString(w) + "x" + NatToString(h)) == ClassifyQuotient(Divide(JsInt(false, w), JsInt(false, h)))
  {
    var a, b := NatToString(w), NatToString(h);
    assert Split(ToLower(a + "x" + b), "x") == [a, b] by {
      DecimalSizeSplits(a, b);
    }
    assert ParseInt(a) == Some(JsInt(false, w)) by {
      ParseIntRoundTrip(w);
    }
    assert ParseInt(b) == Some(JsInt(false, h)) by {
      ParseIntRoundTrip(h);
    }
  }

  /** Two digit strings joined by `x` split back into the two. */
  lemma DecimalSizeSplits(a: string, b: string)
    requires AllDigits(a) && AllDigits(b)
    ensures Split(ToLower(a + "x" + b), "x") == [a, b]
  {
    assert ToLower(a + "x" + b) == a + "x" + b by {
      DigitsLackX(a);
      DigitsLackX(b);
      ToLowerConcat(a, "x");
      ToLowerConcat(a + "x", b);
      assert ToLower("x") == "x" by { assert ToLower("x")[0] == LowerChar('x'); }
    }
    assert Split(a + "x" + b, "x") == [a] + Split(b, "x") by {
      DigitsLackX(a);
      SplitCharCons(a, 'x', b);
    }
    assert Split(b, "x") == [b] by {
      DigitsLackX(b);
      SplitCharNone(b, 'x');
    }
  }

  /** With a non-zero height, `<w>x<h>` gets the band of `w / h`. */
  lemma ParseDimensions(w: nat, h: nat)
    requires h > 0
    ensures ParseAspectRatio(NatToString(w) + "x" + NatToString(h)) == Band(w as real / h as real)
  {
    ParseDecimalSize(w, h);
  }

  /** With a zero height the ratio is infinite (16:9) unless the width is
      zero too, when it is NaN and the answer is 1:1. */
  lemma ParseZeroHeight(w: nat)
    ensures ParseAspectRatio(NatToString(w) + "x" + NatToString(0)) == if w == 0 then Square else Wide
  {
    ParseDecimalSize(w, 0);
  }

  /** A size with no `x` or `X` in it is 1:1. */
  lemma ParseWithoutSeparator(size: string)
    requires forall i :: 0 <= i < |size| ==> size[i] != 'x' && size[i] != 'X'
    ensures ParseAspectRatio(size) == Square
  {
    forall i | 0 <= i < |ToLower(size)| ensures ToLower(size)[i] != 'x' {
      assert ToLower(size)[i] == LowerChar(size[i]);
    }
    SplitCharNone(ToLower(size), 'x');
  }

  /** The plan's default sizes: galleries are square and A+ modules 16:9. */
  lemma DefaultSizes()
    ensures ParseAspectRatio("1600x1600") == Square
    ensures ParseAspectRatio("970x600") == Wide
  {
    GallerySize();
    APlusSize();
  }

  lemma GallerySize()
    ensures ParseAspectRatio("1600x1600") == Square
  {
    assert "1600x1600" == NatToString(1600) + "x" + NatToString(1600) by {
      Decimal1600();
    }
    assert ParseAspectRatio(NatToString(1600) + "x" + NatToString(1600)) == Square by {
      ParseDimensions(1600, 1600);
      SquareBand();
    }
  }

  lemma SquareBand()
    ensures Band(1600 as real / 1600 as real) == Square
  {
    assert 1600 as real / 1600 as real == 1.0;
  }

  lemma WideBand()
    ensures Band(970 as real / 600 as real) == Wide
  {
    assert 970 as real / 600 as real > 133.0 / 90.0;
  }

  lemma APlusSize()
    ensures ParseAspectRatio("970x600") == Wide
  {
    assert "970x600" == NatToString(970) + "x" + NatToString(600) by {
      Decimal970And600();
    }
    assert ParseAspectRatio(NatToString(970) + "x" + NatToString(600)) == Wide by {
      ParseDimensions(970, 600);
      WideBand();
    }
  }

  lemma Decimal1600()
    ensures NatToString(1600) == "1600"
  {
    assert NatToString(1) == "1";
    assert NatToString(16) == "16";
    assert NatToString(160) == "160";
  }

  lemma Decimal970And600()
    ensures NatToString(970) == "970" && NatToString(600) == "600"
  {
    assert NatToString(9) == "9";
    assert NatToString(97) == "97";
    assert NatToString(6) == "6";
    assert NatToString(60) == "60";
  }

  // ---------------------------------------------------------------------
  // Rendering
  // ---------------------------------------------------------------------

  /** What one slot render sends: the product photo and placement prompt, at
      the slot's ratio. */
  datatype ListingRequest = ListingRequest(parts: seq<Part>, ratio: AspectRatio)

  /** No render for a slot already rendering, or without a product photo. */
  function SingleRequest(configs: seq<AmazonSlot>, index: nat, reference: Option<FileRef>): (r: Option<ListingRequest>)
    requires index < |configs|
    ensures r.None? <==> configs[index].isGenerating || reference.None?
    ensures r.Some? ==> r.value.ratio == ParseAspectRatio(configs[index].size)
                        && |r.value.parts| == 2 && r.value.parts[0] == Image(Upload(reference.value))
                        && r.value.parts[1] == Text(RenderListing(configs[index].finalPrompt))
  {
    if configs[index].isGenerating || reference.None? then None
    else Some(ListingRequest(ListingParts(configs[index].finalPrompt, reference.value), ParseAspectRatio(configs[index].size)))
  }

  /** `generateSingleImage`, given the answer: the slot takes the URL the
      call returns (possibly empty) or just stops rendering on failure;
      nothing happens when no request is made. */
  function GenerateSingle(configs: seq<AmazonSlot>, index: nat, reference: Option<FileRef>, reply: Reply<string>): (r: seq<AmazonSlot>)
    requires index < |configs|
    ensures |r| == |configs|
    ensures forall i :: 0 <= i < |configs| && i != index ==> r[i] == configs[i]
    ensures SingleRequest(configs, index, reference).None? ==> r == configs
    ensures SingleRequest(configs, index, reference).Some? ==>
              !r[index].isGenerating
              && r[index].generatedImageUrl == (if reply.Ok? then Some(reply.value) else configs[index].generatedImageUrl)
              && r[index].(isGenerating := configs[index].isGenerating, generatedImageUrl := configs[index].generatedImageUrl)
                 == configs[index]
  {
    if SingleRequest(configs, index, reference).None? then configs
    else match reply
      case Ok(url) => configs[index := configs[index].(isGenerating := false, generatedImageUrl := Some(url))]
      case Fail => configs[index := configs[index].(isGenerating := false)]
  }

  /** The slots of one kind that still need an image and are not rendering,
      from position `k` on, in plan order. */
  function TargetsFrom(configs: seq<AmazonSlot>, t: SlotType, k: nat): (r: seq<nat>)
    requires k <= |configs|
    ensures forall j :: 0 <= j < |r| ==> k <= r[j] < |configs| && IsTarget(configs[r[j]], t)
    ensures forall j, m :: 0 <= j < m < |r| ==> r[j] < r[m]
    ensures forall i :: k <= i < |configs| && IsTarget(configs[i], t) ==> i in r
    decreases |configs| - k
  {
    if k == |configs| then []
    else (if IsTarget(configs[k], t) then [k] else []) + TargetsFrom(configs, t, k + 1)
  }

  predicate IsTarget(c: AmazonSlot, t: SlotType)
  {
    c.slotType == t && !Has(c.generatedImageUrl) && !c.isGenerating
  }

  function Targets(configs: seq<AmazonSlot>, t: SlotType): seq<nat>
  {
    TargetsFrom(configs, t, 0)
  }

  const ChunkSize: nat := 4
  const ChunkPauseMs: nat := 800

  /** `generateAllByType`: nothing while a batch runs or when no slot of the
      kind needs rendering; otherwise the targets in chunks of four with a
      pause between chunks. */
  function BatchPlan(configs: seq<AmazonSlot>, t: SlotType, busy: bool): Option<seq<Event<nat>>>
  {
    if busy || Targets(configs, t) == [] then None
    else Some(Schedule(Chunks(Targets(configs, t), ChunkSize), ChunkPauseMs))
  }

  /** A batch renders every target exactly in plan order, at most four at a
      time and four in every chunk but the last; it starts and ends with a
      render and pauses only between two chunks, once per gap. */
  lemma BatchCoversTargets(configs: seq<AmazonSlot>, t: SlotType)
    requires Targets(configs, t) != []
    ensures BatchPlan(configs, t, false).Some?
    ensures Flatten(Runs(BatchPlan(configs, t, false).value)) == Targets(configs, t)
    ensures forall j :: 0 <= j < |Runs(BatchPlan(configs, t, false).value)| ==>
              0 < |Runs(BatchPlan(configs, t, false).value)[j]| <= ChunkSize
    ensures forall j :: 0 <= j < |Runs(BatchPlan(configs, t, false).value)| - 1 ==>
              |Runs(BatchPlan(configs, t, false).value)[j]| == ChunkSize
    ensures var plan := BatchPlan(configs, t, false).value;
            PauseCount(plan) == |Runs(plan)| - 1 && plan[0].Run? && plan[|plan| - 1].Run?
            && forall i :: 0 <= i < |plan| - 1 && plan[i].Pause? ==> plan[i + 1].Run?
  {
    ChunksShape(Targets(configs, t), ChunkSize);
    ScheduleShape(Chunks(Targets(configs, t), ChunkSize), ChunkPauseMs);
  }

  /** The progress counter `Math.min(total, i + 4)` after chunk `j` counts
      the targets sent so far. */
  lemma {:induction false} ProgressCounts(xs: seq<nat>, base: nat)
    ensures forall j :: 0 <= j < |Chunks(xs, ChunkSize)| ==>
              Cumulative(Chunks(xs, ChunkSize), base)[j] == Min(base + |xs|, base + ChunkSize * j + ChunkSize)
    decreases |xs|
  {
    var cs := Chunks(xs, ChunkSize);
    var c := Cumulative(cs, base);
    if |xs| > ChunkSize {
      ProgressCounts(xs[ChunkSize..], base + ChunkSize);
      assert cs[1..] == Chunks(xs[ChunkSize..], ChunkSize);
      assert c[1..] == Cumulative(Chunks(xs[ChunkSize..], ChunkSize), base + ChunkSize);
      forall j | 0 <= j < |cs|
        ensures c[j] == Min(base + |xs|, base + ChunkSize * j + ChunkSize)
      {
        if j > 0 {
          assert c[j] == c[1..][j - 1];
        }
      }
    }
  }

  /** The batch flag and the progress counter `{current, total}` the screen shows. */
  datatype BatchState = BatchState(busy: bool, current: nat, total: nat)

  /** The states a batch of one kind passes through: none when it is
      refused; otherwise busy at 0 of the target count, then after chunk `j`
      the counter `Math.min(total, i + 4)` with `i = 4j`, and finally idle
      at 0 of 0. */
  function BatchStates(configs: seq<AmazonSlot>, t: SlotType, busy: bool): (r: seq<BatchState>)
    ensures busy || Targets(configs, t) == [] ==> r == []
    ensures !busy && Targets(configs, t) != [] ==>
              |r| == |Chunks(Targets(configs, t), ChunkSize)| + 2
              && r[0] == BatchState(true, 0, |Targets(configs, t)|)
              && r[|r| - 1] == BatchState(false, 0, 0)
              && forall j :: 1 <= j < |r| - 1 ==> r[j].busy && r[j].total == |Targets(configs, t)|
  {
    var ts := Targets(configs, t);
    if busy || ts == [] then []
    else
      var n := |Chunks(ts, ChunkSize)|;
      [BatchState(true, 0, |ts|)]
      + seq(n, j requires 0 <= j < n => BatchState(true, Min(|ts|, ChunkSize * j + ChunkSize), |ts|))
      + [BatchState(false, 0, 0)]
  }

  /** Across a batch the counter reads the number of targets whose chunk
      has finished: it starts at 0, rises strictly with every chunk, never
      passes the total, reaches it with the last chunk, and the batch then
      resets to idle at 0 of 0. */
  lemma BatchProgress(configs: seq<AmazonSlot>, t: SlotType)
    requires Targets(configs, t) != []
    ensures var r := BatchStates(configs, t, false);
            var cs := Chunks(Targets(configs, t), ChunkSize);
            (forall j :: 0 <= j < |cs| ==> r[j + 1].current == Cumulative(cs, 0)[j])
            && (forall j :: 1 <= j < |r| - 1 ==> r[j - 1].current < r[j].current <= r[j].total)
            && r[|r| - 2].current == |Targets(configs, t)|
            && r[|r| - 1] == BatchState(false, 0, 0)
  {
    var ts := Targets(configs, t);
    var cs := Chunks(ts, ChunkSize);
    var r := BatchStates(configs, t, false);
    var c := Cumulative(cs, 0);
    ProgressCounts(ts, 0);
    ChunksShape(ts, ChunkSize);
    CumulativeShape(cs, 0);
    assert |cs| > 0;
    forall j | 0 <= j < |cs| ensures r[j + 1].current == c[j] {
      assert r[j + 1] == BatchState(true, Min(|ts|, ChunkSize * j + ChunkSize), |ts|);
    }
    forall j | 1 <= j < |r| - 1 ensures r[j - 1].current < r[j].current <= r[j].total {
      if j > 1 {
        assert r[j - 1].current == c[j - 2];
      }
      assert r[j].current == c[j - 1];
    }
  }

  /** Counts of a kind, and of its slots that have an image. */
  function OfType(t: SlotType): AmazonSlot -> bool
  {
    (c: AmazonSlot) => c.slotType == t
  }

  function DoneOfType(t: SlotType): AmazonSlot -> bool
  {
    (c: AmazonSlot) => c.slotType == t && Has(c.generatedImageUrl)
  }

  /** The batch button of a kind: enabled unless a batch runs, every slot of
      the kind has an image, or there is no product photo. */
  predicate BatchEnabled(configs: seq<AmazonSlot>, t: SlotType, busy: bool, reference: Option<FileRef>)
  {
    !busy && Count(configs, DoneOfType(t)) != Count(configs, OfType(t)) && reference.Some?
  }

  /** Whenever a batch would find work and a photo is there, its button is enabled. */
  lemma WorkEnablesBatch(configs: seq<AmazonSlot>, t: SlotType, reference: Option<FileRef>)
    requires Targets(configs, t) != [] && reference.Some?
    ensures BatchEnabled(configs, t, false, reference)
  {
    var k := Targets(configs, t)[0];
    CountStrictlyLess(configs, OfType(t), DoneOfType(t), k);
  }

  /** A slot that received a non-empty image is no longer a target. */
  lemma RenderedLeavesTargets(configs: seq<AmazonSlot>, index: nat, reference: Option<FileRef>, url: string, t: SlotType)
    requires index < |configs| && SingleRequest(configs, index, reference).Some? && url != ""
    ensures index !in Targets(GenerateSingle(configs, index, reference, Ok(url)), t)
  {
  }

  // ---------------------------------------------------------------------
  // Editing
  // ---------------------------------------------------------------------

  /** The listing editor sends nothing without an instruction or a
      reference photo; otherwise the image, the instruction, the photo and
      the mask, each when present. */
  function EditRequest(slot: AmazonSlot, instruction: string, reference: Option<FileRef>, mask: Option<string>): (r: Option<seq<Part>>)
    requires Has(slot.generatedImageUrl)
    ensures r.None? <==> instruction == "" && reference.None?
    ensures r.Some? ==> |r.value| >= 2 && r.value[0] == Image(Fetched(slot.generatedImageUrl.value))
  {
    if instruction == "" && reference.None? then None
    else Some(EditListingParts(slot.generatedImageUrl.value, instruction, reference, mask))
  }

  /** `handleEditSave`: the edited slot takes the new image, nothing else changes. */
  function EditSave(configs: seq<AmazonSlot>, editing: Option<AmazonSlot>, newUrl: string): (r: seq<AmazonSlot>)
    ensures |r| == |configs|
    ensures editing.None? ==> r == configs
    ensures editing.Some? ==> forall i :: 0 <= i < |configs| ==>
              r[i] == if configs[i].id == editing.value.id then configs[i].(generatedImageUrl := Some(newUrl)) else configs[i]
  {
    if editing.None? then configs
    else MapIf(configs, (c: AmazonSlot) => c.id == editing.value.id, (c: AmazonSlot) => c.(generatedImageUrl := Some(newUrl)))
  }

  /** The editor's answer: saved only when the call returns a non-empty URL. */
  function Refine(configs: seq<AmazonSlot>, editing: AmazonSlot, instruction: string, reference: Option<FileRef>,
                  reply: Reply<string>): (r: seq<AmazonSlot>)
    requires Has(editing.generatedImageUrl)
    ensures r != configs ==> (instruction != "" || reference.Some?) && reply.Ok? && reply.value != ""
    ensures (instruction != "" || reference.Some?) && reply.Ok? && reply.value != "" ==>
              r == EditSave(configs, Some(editing), reply.value)
  {
    if EditRequest(editing, instruction, reference, None).None? then configs
    else if reply.Ok? && reply.value != "" then EditSave(configs, Some(editing), reply.value)
    else configs
  }
}

=== FILE: apikey.dfy ===
/** The API key gate: the key lives in browser storage under a fixed name,
    and the key form accepts only a non-blank key that starts with `AIza`. */
module ApiKey {
  import opened Wrappers
  import opened Text

  const StorageKey := "gemini_api_key"
  const BlankKeyError := "请输入有效的 API Key"
  const FormatError := "API Key 格式不正确，应以 AIza 开头"

  /** Browser storage: names to stored strings. */
  type Storage = map<string, string>

  /** `getStoredApiKey()`: `null` when nothing is stored. */
  function StoredKey(storage: Storage): Option<string>
  {
    if StorageKey in storage then Some(storage[StorageKey]) else None
  }

  /** `clearStoredApiKey()`. */
  function ClearKey(storage: Storage): (r: Storage)
    ensures StoredKey(r).None?
    ensures forall k :: k in storage && k != StorageKey ==> k in r && r[k] == storage[k]
    ensures r.Keys == storage.Keys - {StorageKey}
  {
    storage - {StorageKey}
  }

  /** The key form: the typed text and the error message shown under it. */
  datatype KeyForm = KeyForm(input: string, error: string)

  /** Typing replaces the text and clears the error. */
  function Type(form: KeyForm, text: string): (r: KeyForm)
    ensures r.input == text && r.error == ""
  {
    KeyForm(text, "")
  }

  /** What saving did: showed an error, or stored the key and reported it to the app. */
  datatype SaveOutcome = Rejected(form: KeyForm) | Saved(storage: Storage, key: string)

  /** `handleSave`: a blank entry and an entry not starting with `AIza` are
      refused with their messages; otherwise the trimmed key is stored. The
      prefix is tested on the text as typed, before trimming. */
  function Save(form: KeyForm, storage: Storage): (r: SaveOutcome)
    ensures r.Rejected? <==> Trim(form.input) == "" || !StartsWith(form.input, "AIza")
    ensures r.Rejected? ==> r.form.input == form.input
    ensures r.Rejected? && Trim(form.input) == "" ==> r.form.error == BlankKeyError
    ensures r.Rejected? && Trim(form.input) != "" ==> r.form.error == FormatError
    ensures r.Saved? ==> r.key == Trim(form.input) && r.storage == storage[StorageKey := r.key]
  {
    if Trim(form.input) == "" then Rejected(form.(error := BlankKeyError))
    else if !StartsWith(form.input, "AIza") then Rejected(form.(error := FormatError))
    else
      var key := Trim(form.input);
      Saved(storage[StorageKey := key], key)
  }

  /** Trimming a key that starts with `AIza` keeps that prefix. */
  lemma TrimKeepsPrefix(s: string)
    requires StartsWith(s, "AIza")
    ensures StartsWith(Trim(s), "AIza")
  {
    assert s[..4] == "AIza";
    assert s[0] == 'A' && !IsSpace(s[0]);
    TrimStartKeeps(s);
    var k := Trim(s);
    assert k == TrimEnd(s);
    assert s[3] == 'a' && !IsSpace(s[3]);
    assert |k| >= 4;
    assert k[..4] == s[..4];
  }

  /** Whatever is saved is a non-empty key that still starts with `AIza`, and
      reading storage back returns it: the gate opens after a save. */
  lemma SavedKeyIsUsable(form: KeyForm, storage: Storage)
    requires Save(form, storage).Saved?
    ensures StartsWith(Save(form, storage).key, "AIza")
    ensures StoredKey(Save(form, storage).storage) == Some(Save(form, storage).key)
    ensures Has(StoredKey(Save(form, storage).storage))
  {
    TrimKeepsPrefix(form.input);
  }
}

=== FILE: assistant.dfy ===
/** The assistant chat: a message log, one streamed reply at a time, and
    the rendering of replies whose fenced blocks hold copyable prompts. */
module Assistant {
  import opened Wrappers
  import opened Text

  datatype Role = User | Model

  datatype Message = Message(role: Role, text: string)

  const Greeting := "👋 您好！我是您的首席 AI 视觉导演。\n\n告诉我您的**产品**是什么，您想打造一套**亚马逊品牌套图**还是一支**完整的商业视频**？\n\n我会运用顶级设计思维，为您规划 3 套完整的视觉体系（包含光影、色调、运镜逻辑），并提供可一键复制的**大师级风格指令**。"
  const ResetText := "已重置思维链。请告诉我新的产品需求，我将为您重新规划视觉体系！"
  const DisconnectText := "⚠️ 连接中断，请检查 API Key 或网络设置。"

  /** The chat panel: the draft, the log, whether a reply streams, and
      whether a chat session exists. */
  datatype Chat = Chat(input: string, messages: seq<Message>, thinking: bool, session: bool)

  function Opening(): (r: Chat)
    ensures |r.messages| == 1 && r.messages[0].role == Model && !r.thinking && !r.session
  {
    Chat("", [Message(Model, Greeting)], false, false)
  }

  /** Sending needs a draft that is not blank and no reply in progress. */
  predicate SendEnabled(c: Chat)
  {
    Trim(c.input) != "" && !c.thinking
  }

  /** The reply text a stream has produced: its non-empty chunks, in order. */
  function Streamed(chunks: seq<Option<string>>): string
  {
    if chunks == [] then ""
    else Streamed(chunks[..|chunks| - 1]) + (if Has(chunks[|chunks| - 1]) then chunks[|chunks| - 1].value else "")
  }

  /** The text shown after any number of chunks is a prefix of the text
      shown after more: the reply only ever grows. */
  lemma {:induction false} StreamedGrows(chunks: seq<Option<string>>, i: nat)
    requires i <= |chunks|
    ensures StartsWith(Streamed(chunks), Streamed(chunks[..i]))
    decreases |chunks| - i
  {
    if i < |chunks| {
      StreamedGrows(chunks, i + 1);
      assert chunks[..i + 1][..i] == chunks[..i];
      var a := Streamed(chunks[..i]);
      var b := Streamed(chunks[..i + 1]);
      var s := Streamed(chunks);
      assert b[..|a|] == a;
      assert s[..|b|] == b;
      assert s[..|a|] == b[..|a|];
    } else {
      assert chunks[..i] == chunks;
    }
  }

  /** Sending a draft: the draft goes into the log as the user's message,
      followed by one model message that holds the streamed text, and by
      the disconnect notice when the stream breaks off. The draft is
      cleared and a session exists afterwards. A blank draft or a reply in
      progress changes nothing. */
  method Send(c: Chat, chunks: seq<Option<string>>, broken: bool) returns (r: Chat)
    ensures !SendEnabled(c) ==> r == c
    ensures SendEnabled(c) ==> r.input == "" && !r.thinking && r.session
    ensures SendEnabled(c) ==>
              (r.messages == c.messages + [Message(User, c.input), Message(Model, Streamed(chunks))]
                             + (if broken then [Message(Model, DisconnectText)] else []))
  {
    if !SendEnabled(c) {
      return c;
    }
    var log := StreamReply(c.messages + [Message(User, c.input)], chunks);
    if broken {
      log := log + [Message(Model, DisconnectText)];
    }
    r := Chat("", log, false, true);
  }

  /** Streaming a reply: an empty model message is appended, and every
      non-empty chunk rewrites it to the text received so far. */
  method StreamReply(sent: seq<Message>, chunks: seq<Option<string>>) returns (log: seq<Message>)
    ensures log == sent + [Message(Model, Streamed(chunks))]
  {
    log := sent + [Message(Model, "")];
    var full := "";
    var i := 0;
    while i < |chunks|
      invariant 0 <= i <= |chunks|
      invariant full == Streamed(chunks[..i])
      invariant log == sent + [Message(Model, full)]
    {
      assert chunks[..i + 1][..i] == chunks[..i];
      if Has(chunks[i]) {
        full := full + chunks[i].value;
        log := log[..|log| - 1] + [Message(Model, full)];
      }
      i := i + 1;
    }
    assert chunks[..|chunks|] == chunks;
  }

  /** Clearing leaves exactly the reset notice and drops the session. */
  function Clear(c: Chat): (r: Chat)
    ensures r.messages == [Message(Model, ResetText)] && !r.session
    ensures r.input == c.input && r.thinking == c.thinking
  {
    c.(messages := [Message(Model, ResetText)], session := false)
  }

  // ---------------------------------------------------------------------
  // Rendering a reply
  // ---------------------------------------------------------------------

  const Fence := "```"

  /** The language tag a fenced block may open with. */
  function StripTag(s: string): (r: string)
    ensures |r| <= |s| && r == s[|s| - |r|..]
    ensures StartsWith(s, "prompt\n") ==> r == s[7..]
    ensures StartsWith(s, "text\n") || StartsWith(s, "json\n") ==> r == s[5..]
    ensures !StartsWith(s, "prompt\n") && !StartsWith(s, "text\n") && !StartsWith(s, "json\n") ==> r == s
  {
    TagsExclusive(s);
    if StartsWith(s, "prompt\n") then s[7..]
    else if StartsWith(s, "text\n") then s[5..]
    else if StartsWith(s, "json\n") then s[5..]
    else s
  }

  /** The tags differ in their first letter, so at most one opens a block. */
  lemma TagsExclusive(s: string)
    ensures StartsWith(s, "prompt\n") ==> !StartsWith(s, "text\n") && !StartsWith(s, "json\n")
    ensures StartsWith(s, "text\n") ==> !StartsWith(s, "json\n")
  {
    if StartsWith(s, "prompt\n") {
      assert s[0] == "prompt\n"[0];
    }
    if StartsWith(s, "text\n") {
      assert s[0] == "text\n"[0];
    }
  }

  /** Only one tag goes: a doubled tag keeps its second copy. */
  lemma TagStrippedOnce(rest: string)
    ensures StripTag("json\n" + "json\n" + rest) == "json\n" + rest
  {
    var s := "json\n" + "json\n" + rest;
    assert s[..5] == "json\n";
    assert s[..7] != "prompt\n" by { assert s[0] != 'p'; }
    assert s[..5] != "text\n" by { assert s[0] != 't'; }
    assert s[5..] == "json\n" + rest;
  }

  datatype Segment = Plain(text: string) | PromptBlock(content: string)

  /** A block between two fences taken apart: the language tag, the
      whitespace before the prompt, the prompt, and the whitespace after. */
  datatype BlockParts = BlockParts(tag: string, lead: string, body: string, trail: string)

  /** What the renderer drops from a block is one known language tag and
      whitespace on either side; what it keeps is the rest, in place. */
  function Cut(piece: string): (c: BlockParts)
    ensures piece == c.tag + c.lead + c.body + c.trail
    ensures c.body == Trim(StripTag(piece))
    ensures c.tag == "" || c.tag == "prompt\n" || c.tag == "text\n" || c.tag == "json\n"
    ensures AllSpace(c.lead) && AllSpace(c.trail)
  {
    var t := StripTag(piece);
    var u := TrimStart(t);
    var body := TrimEnd(u);
    TagIsKnown(piece);
    Rejoin(piece, t, u, body);
    TrimmedAway(t);
    BlockParts(piece[..|piece| - |t|], t[..|t| - |u|], body, u[|body|..])
  }

  /** A string rejoins from a prefix, a suffix of what follows it, and a
      prefix of that suffix. */
  lemma Rejoin(s: string, t: string, u: string, v: string)
    requires |t| <= |s| && t == s[|s| - |t|..]
    requires |u| <= |t| && u == t[|t| - |u|..]
    requires |v| <= |u| && v == u[..|v|]
    ensures s == s[..|s| - |t|] + t[..|t| - |u|] + v + u[|v|..]
  {
    assert s == s[..|s| - |t|] + t;
    assert t == t[..|t| - |u|] + u;
    assert u == v + u[|v|..];
  }

  /** What trimming removes is whitespace on either side. */
  lemma TrimmedAway(t: string)
    ensures AllSpace(t[..|t| - |TrimStart(t)|])
    ensures AllSpace(TrimStart(t)[|TrimEnd(TrimStart(t))|..])
  {
    LeadIsSpace(t);
    TrailIsSpace(TrimStart(t));
  }

  lemma LeadIsSpace(t: string)
    ensures AllSpace(t[..|t| - |TrimStart(t)|])
  {
    var lead := t[..|t| - |TrimStart(t)|];
    forall k | 0 <= k < |lead| ensures IsSpace(lead[k]) {
      assert lead[k] == t[k];
    }
  }

  lemma TrailIsSpace(u: string)
    ensures AllSpace(u[|TrimEnd(u)|..])
  {
    var n := |TrimEnd(u)|;
    var trail := u[n..];
    forall k | 0 <= k < |trail| ensures IsSpace(trail[k]) {
      assert trail[k] == u[n + k];
    }
  }

  /** What `StripTag` removes is nothing or one of the three tags. */
  lemma TagIsKnown(s: string)
    ensures var tag := s[..|s| - |StripTag(s)|];
            tag == "" || tag == "prompt\n" || tag == "text\n" || tag == "json\n"
  {
    TagsExclusive(s);
  }

  /** A block's prompt holds no fence when its block holds none. */
  lemma BodyFenceFree(piece: string)
    ensures !Contains(piece, Fence) ==> !Contains(Trim(StripTag(piece)), Fence)
  {
    var c := Cut(piece);
    var a := |c.tag| + |c.lead|;
    assert piece[a..a + |c.body|] == c.body;
    ContainsWithin(piece, a, a + |c.body|, Fence);
  }

  lemma PromptsFenceFree(parts: seq<string>)
    requires forall i :: 0 <= i < |parts| ==> !Contains(parts[i], Fence)
    ensures forall i :: 0 <= i < |parts| ==> !Contains(Trim(StripTag(parts[i])), Fence)
  {
    forall i | 0 <= i < |parts| ensures !Contains(Trim(StripTag(parts[i])), Fence) {
      BodyFenceFree(parts[i]);
    }
  }

  /** A reply is cut at every fence; pieces at even positions are prose kept
      verbatim, pieces at odd positions are prompt blocks without their
      language tag and surrounding whitespace. No segment holds a fence. */
  function Render(text: string): (r: seq<Segment>)
    ensures |r| == |Split(text, Fence)| && r[0].Plain?
    ensures forall i :: 0 <= i < |r| ==> (r[i].Plain? <==> i % 2 == 0)
    ensures forall i :: 0 <= i < |r| && i % 2 == 0 ==> r[i].text == Split(text, Fence)[i]
    ensures forall i :: 0 <= i < |r| && i % 2 == 1 ==> r[i].content == Cut(Split(text, Fence)[i]).body
    ensures forall i :: 0 <= i < |r| ==> !Contains(if r[i].Plain? then r[i].text else r[i].content, Fence)
  {
    var parts := Split(text, Fence);
    PromptsFenceFree(parts);
    seq(|parts|, i requires 0 <= i < |parts| =>
      if i % 2 == 0 then Plain(parts[i]) else PromptBlock(Trim(StripTag(parts[i]))))
  }

  /** The pieces a reply is rendered from: prose as shown, and each block
      rebuilt from its shown prompt with its tag and whitespace put back. */
  function Raw(text: string, r: seq<Segment>): seq<string>
    requires |r| == |Split(text, Fence)|
  {
    seq(|r|, i requires 0 <= i < |r| =>
      match r[i]
      case Plain(t) => t
      case PromptBlock(content) =>
        var c := Cut(Split(text, Fence)[i]);
        c.tag + c.lead + content + c.trail)
  }

  /** Rendering loses only each block's tag and surrounding whitespace:
      putting them back around the shown prompts, and the fences between
      the pieces, gives the reply back. */
  lemma RenderLosesOnlyTags(text: string)
    ensures Join(Raw(text, Render(text)), Fence) == text
  {
    var r := Render(text);
    var parts := Split(text, Fence);
    forall i | 0 <= i < |r| ensures Raw(text, r)[i] == parts[i] {
      if r[i].PromptBlock? {
        var c := Cut(parts[i]);
        assert r[i].content == c.body;
      }
    }
    assert Raw(text, r) == parts;
    JoinSplit(text, Fence);
  }

  /** A reply without a fence renders as one piece of prose. */
  lemma UnfencedIsPlain(text: string)
    ensures !Contains(text, Fence) ==> Render(text) == [Plain(text)]
  {
    match IndexFrom(text, Fence, 0)
    case None =>
    case Some(j) =>
      assert 0 <= j <= |text| && OccursAt(text, Fence, j);
  }
}

=== FILE: batch.dfy ===
/** The batch runners of the storyboard and Amazon screens: pending work is
    cut into consecutive chunks of a fixed size, each chunk runs in parallel,
    and the runner pauses between chunks (never after the last one). */
module Batch {
  import opened Seqs

  /** `for (i = 0; i < xs.length; i += k) xs.slice(i, i + k)`. */
  function Chunks<T>(xs: seq<T>, k: nat): seq<seq<T>>
    requires k > 0
    decreases |xs|
  {
    if xs == [] then []
    else if |xs| <= k then [xs]
    else [xs[..k]] + Chunks(xs[k..], k)
  }

  /** The chunks concatenate back to the input, none is empty, none exceeds
      `k`, and all but the last are exactly `k` long. */
  lemma {:induction false} ChunksShape<T>(xs: seq<T>, k: nat)
    requires k > 0
    ensures Flatten(Chunks(xs, k)) == xs
    ensures forall j :: 0 <= j < |Chunks(xs, k)| ==> 0 < |Chunks(xs, k)[j]| <= k
    ensures forall j :: 0 <= j < |Chunks(xs, k)| - 1 ==> |Chunks(xs, k)[j]| == k
    decreases |xs|
  {
    if |xs| > k {
      var r := Chunks(xs, k);
      var rest := Chunks(xs[k..], k);
      ChunksShape(xs[k..], k);
      assert r == [xs[..k]] + rest;
      assert r[1..] == rest;
      assert xs[..k] + xs[k..] == xs;
      forall j | 0 <= j < |r| ensures 0 < |r[j]| <= k {
        if j > 0 { assert r[j] == rest[j - 1]; }
      }
      forall j | 0 <= j < |r| - 1 ensures |r[j]| == k {
        if j > 0 { assert r[j] == rest[j - 1]; }
      }
    }
  }

  /** There are `ceil(|xs| / k)` chunks: enough to hold `xs`, one fewer would not be. */
  lemma {:induction false} ChunkCount<T>(xs: seq<T>, k: nat)
    requires k > 0
    ensures (|Chunks(xs, k)| - 1) * k < |xs| <= |Chunks(xs, k)| * k
    decreases |xs|
  {
    if |xs| > k {
      var c := |Chunks(xs[k..], k)|;
      ChunkCount(xs[k..], k);
      assert |Chunks(xs, k)| == c + 1;
      assert (c + 1) * k == c * k + k;
      assert (c - 1) * k == c * k - k;
    }
  }

  /** One step of a batch run: a chunk running in parallel, or a timed pause. */
  datatype Event<T> = Run(items: seq<T>) | Pause(ms: nat)

  /** The run as the loop performs it: each chunk, then a pause if more work follows. */
  function Schedule<T>(chunks: seq<seq<T>>, pauseMs: nat): seq<Event<T>>
  {
    if chunks == [] then []
    else if |chunks| == 1 then [Run(chunks[0])]
    else [Run(chunks[0]), Pause(pauseMs)] + Schedule(chunks[1..], pauseMs)
  }

  /** The chunks in the order the schedule runs them. */
  function Runs<T>(events: seq<Event<T>>): seq<seq<T>>
  {
    if events == [] then []
    else (if events[0].Run? then [events[0].items] else []) + Runs(events[1..])
  }

  function PauseCount<T>(events: seq<Event<T>>): nat
  {
    if events == [] then 0 else (if events[0].Pause? then 1 else 0) + PauseCount(events[1..])
  }

  /** The schedule runs every chunk in order, pauses exactly once between
      neighbouring chunks, and neither starts nor ends with a pause. */
  lemma {:induction false} ScheduleShape<T>(chunks: seq<seq<T>>, ms: nat)
    ensures Runs(Schedule(chunks, ms)) == chunks
    ensures PauseCount(Schedule(chunks, ms)) == if chunks == [] then 0 else |chunks| - 1
    ensures |Schedule(chunks, ms)| == if chunks == [] then 0 else 2 * |chunks| - 1
    ensures chunks != [] ==> Schedule(chunks, ms)[0].Run? && Schedule(chunks, ms)[|Schedule(chunks, ms)| - 1].Run?
    ensures forall i :: 0 <= i < |Schedule(chunks, ms)| - 1 ==>
              Schedule(chunks, ms)[i].Pause? ==> Schedule(chunks, ms)[i + 1].Run?
    decreases |chunks|
  {
    if |chunks| > 1 {
      var s := Schedule(chunks, ms);
      var tail := Schedule(chunks[1..], ms);
      ScheduleShape(chunks[1..], ms);
      assert s[2..] == tail;
      assert s[1..][1..] == tail;
      assert Runs(s) == [chunks[0]] + Runs(s[1..]);
      assert Runs(s[1..]) == Runs(tail);
      assert PauseCount(s[1..]) == 1 + PauseCount(tail);
      forall i | 0 <= i < |s| - 1 && s[i].Pause?
        ensures s[i + 1].Run?
      {
        if i >= 2 {
          assert s[i] == tail[i - 2] && s[i + 1] == tail[i - 1];
        }
      }
    }
  }

  /** A chunked schedule runs full chunks but the last, starts and ends
      with a run, and follows every pause with a run. */
  lemma ChunkedPacing<T>(xs: seq<T>, k: nat, ms: nat)
    requires k > 0
    ensures var runs := Runs(Schedule(Chunks(xs, k), ms));
            forall j :: 0 <= j < |runs| - 1 ==> |runs[j]| == k
    ensures var plan := Schedule(Chunks(xs, k), ms);
            plan != [] ==> (plan[0].Run? && plan[|plan| - 1].Run?
                            && forall i :: 0 <= i < |plan| - 1 && plan[i].Pause? ==> plan[i + 1].Run?)
  {
    ChunksShape(xs, k);
    ScheduleShape(Chunks(xs, k), ms);
  }

  /** The progress counter after each chunk: the number of items finished so far. */
  function Cumulative<T>(chunks: seq<seq<T>>, base: nat): (r: seq<nat>)
    ensures |r| == |chunks|
  {
    if chunks == [] then [] else [base + |chunks[0]|] + Cumulative(chunks[1..], base + |chunks[0]|)
  }

  lemma {:induction false} CumulativeSnoc<T>(a: seq<seq<T>>, c: seq<T>, base: nat)
    ensures Cumulative(a + [c], base) == Cumulative(a, base) + [base + |Flatten(a)| + |c|]
    decreases |a|
  {
    if a == [] {
      assert a + [c] == [c];
    } else {
      var ac := a + [c];
      var b := base + |a[0]|;
      assert ac[0] == a[0] && ac[1..] == a[1..] + [c];
      assert Cumulative(ac, base) == [b] + Cumulative(a[1..] + [c], b);
      assert Cumulative(a, base) == [b] + Cumulative(a[1..], b);
      assert |Flatten(a)| == |a[0]| + |Flatten(a[1..])|;
      CumulativeSnoc(a[1..], c, b);
    }
  }

  /** With non-empty chunks the counter strictly increases and ends at the total. */
  lemma {:induction false} CumulativeShape<T>(chunks: seq<seq<T>>, base: nat)
    requires forall j :: 0 <= j < |chunks| ==> chunks[j] != []
    ensures forall j :: 0 <= j < |chunks| ==> base < Cumulative(chunks, base)[j] <= base + |Flatten(chunks)|
    ensures forall j :: 0 <= j < |chunks| - 1 ==> Cumulative(chunks, base)[j] < Cumulative(chunks, base)[j + 1]
    ensures chunks != [] ==> Cumulative(chunks, base)[|chunks| - 1] == base + |Flatten(chunks)|
    decreases |chunks|
  {
    if chunks != [] {
      var b := base + |chunks[0]|;
      CumulativeShape(chunks[1..], b);
      var r := Cumulative(chunks, base);
      assert r[1..] == Cumulative(chunks[1..], b);
      forall j | 0 <= j < |chunks| ensures base < r[j] <= base + |Flatten(chunks)| {
        if j > 0 { assert r[j] == r[1..][j - 1]; }
      }
      forall j | 0 <= j < |chunks| - 1 ensures r[j] < r[j + 1] {
        if j > 0 { assert r[j] == r[1..][j - 1]; }
        assert r[j + 1] == r[1..][j];
      }
      if |chunks| > 1 {
        assert r[|chunks| - 1] == r[1..][|chunks| - 2];
      }
    }
  }

  lemma {:induction false} ScheduleSnoc<T>(a: seq<seq<T>>, c: seq<T>, ms: nat)
    ensures Schedule(a + [c], ms) == Schedule(a, ms) + (if a == [] then [] else [Pause(ms)]) + [Run(c)]
    decreases |a|
  {
    if |a| == 1 {
      assert (a + [c])[1..] == [c];
    } else if |a| > 1 {
      assert (a + [c])[1..] == a[1..] + [c];
      ScheduleSnoc(a[1..], c, ms);
    }
  }

  function Min(a: nat, b: nat): nat
  {
    if a < b then a else b
  }

  /** The loop of `generateAll`: takes the next `k` items while any remain,
      records the chunk, the pause that follows it when more items remain,
      and the progress value `Math.min(total, i + k)` after the chunk. */
  method RunBatch<T>(xs: seq<T>, k: nat, pauseMs: nat) returns (events: seq<Event<T>>, progress: seq<nat>)
    requires k > 0
    ensures events == Schedule(Chunks(xs, k), pauseMs)
    ensures progress == Cumulative(Chunks(xs, k), 0)
  {
    events := [];
    progress := [];
    var rest := xs;
    var done: seq<seq<T>> := [];
    while rest != []
      invariant Chunks(xs, k) == done + Chunks(rest, k)
      invariant |Flatten(done)| + |rest| == |xs|
      invariant events == Schedule(done, pauseMs) + (if rest != [] && done != [] then [Pause(pauseMs)] else [])
      invariant progress == Cumulative(done, 0)
      decreases |rest|
    {
      var n := Min(k, |rest|);
      var chunk := rest[..n];
      assert Chunks(xs, k) == (done + [chunk]) + Chunks(rest[n..], k) by {
        ChunksUnfold(rest, k);
      }
      assert Schedule(done + [chunk], pauseMs) == Schedule(done, pauseMs) + (if done == [] then [] else [Pause(pauseMs)]) + [Run(chunk)] by {
        ScheduleSnoc(done, chunk, pauseMs);
      }
      assert Cumulative(done + [chunk], 0) == Cumulative(done, 0) + [|xs| - |rest| + n] by {
        CumulativeSnoc(done, chunk, 0);
      }
      assert |Flatten(done + [chunk])| == |Flatten(done)| + n by {
        FlattenConcat(done, [chunk]);
        assert Flatten([chunk]) == chunk;
      }
      events := events + [Run(chunk)];
      if n < |rest| {
        events := events + [Pause(pauseMs)];
      }
      progress := progress + [|xs| - |rest| + n];
      done := done + [chunk];
      rest := rest[n..];
    }
    assert Chunks(rest, k) == [];
    assert Chunks(xs, k) == done;
  }

  /** One unfolding of `Chunks` on a non-empty input. */
  lemma ChunksUnfold<T>(ys: seq<T>, k: nat)
    requires k > 0 && ys != []
    ensures Chunks(ys, k) == [ys[..Min(k, |ys|)]] + Chunks(ys[Min(k, |ys|)..], k)
  {
    if |ys| <= k {
      assert ys[..|ys|] == ys;
      assert ys[|ys|..] == [];
    }
  }


  /** The scene-group runner: one item at a time, each followed by a pause,
      the last one included. */
  function Sequential<T>(items: seq<T>, pauseMs: nat): (r: seq<Event<T>>)
    ensures |r| == 2 * |items|
  {
    if items == [] then [] else [Run([items[0]]), Pause(pauseMs)] + Sequential(items[1..], pauseMs)
  }

  /** Item `j` runs alone at position `2j` and is followed by a pause, so the
      run ends with a pause whenever it ran anything. */
  lemma SequentialShape<T>(items: seq<T>, ms: nat)
    ensures forall j :: 0 <= j < |items| ==>
              Sequential(items, ms)[2 * j] == Run([items[j]]) && Sequential(items, ms)[2 * j + 1] == Pause(ms)
    ensures PauseCount(Sequential(items, ms)) == |items|
  {
    SequentialPositions(items, ms);
    SequentialPauses(items, ms);
  }

  lemma {:induction false} SequentialPositions<T>(items: seq<T>, ms: nat)
    ensures forall j :: 0 <= j < |items| ==>
              Sequential(items, ms)[2 * j] == Run([items[j]]) && Sequential(items, ms)[2 * j + 1] == Pause(ms)
    decreases |items|
  {
    if items != [] {
      var r := Sequential(items, ms);
      var tail := Sequential(items[1..], ms);
      SequentialPositions(items[1..], ms);
      assert r == [Run([items[0]]), Pause(ms)] + tail;
      forall j | 0 <= j < |items|
        ensures r[2 * j] == Run([items[j]]) && r[2 * j + 1] == Pause(ms)
      {
        if j > 0 {
          assert items[j] == items[1..][j - 1];
          assert r[2 * j] == tail[2 * (j - 1)];
          assert r[2 * j + 1] == tail[2 * (j - 1) + 1];
        }
      }
    }
  }

  lemma {:induction false} SequentialPauses<T>(items: seq<T>, ms: nat)
    ensures PauseCount(Sequential(items, ms)) == |items|
    decreases |items|
  {
    if items != [] {
      var r := Sequential(items, ms);
      var tail := Sequential(items[1..], ms);
      SequentialPauses(items[1..], ms);
      assert r == [Run([items[0]]), Pause(ms)] + tail;
      assert r[1..] == [Pause(ms)] + tail;
      assert r[1..][1..] == tail;
      assert PauseCount(r) == PauseCount(r[1..]);
    }
  }
}

=== FILE: gemini.dfy ===
/** The request assembly and result conventions of the hosted-model
    service. A request is a list of parts: instructions, captions that
    announce the role of the image part after them, and image parts. */
module Gemini {
  import opened Wrappers
  import opened Text
  import opened Types

  /** The role a caption announces for the image that follows it. */
  datatype Label =
    | EnvironmentAnchor
    | ContinuityPreviousFrame
    | CharacterIdentity(name: string)
    | BrandLogoAnchor
    | VisualReference

  function LabelText(l: Label): string
  {
    match l
    case EnvironmentAnchor => "BACKGROUND ENVIRONMENT ANCHOR:"
    case ContinuityPreviousFrame => "CONTINUITY PREVIOUS FRAME:"
    case CharacterIdentity(name) => "CHARACTER IDENTITY [Name: " + name + "]:"
    case BrandLogoAnchor => "BRAND LOGO ANCHOR SOURCE:"
    case VisualReference => "VISUAL REFERENCE:"
  }

  /** Where an image part's bytes come from: an uploaded file, a URL the
      service downloads, or data already inline (payload and MIME type). */
  datatype ImageSource = Upload(file: FileRef) | Fetched(url: string) | Inline(data: Option<string>, mime: string)

  /** The instruction texts, by what they ask for. */
  datatype Instruction =
    | RenderScene(scene: string, style: string)
    | EditFrame(instruction: string)
    | RenderListing(prompt: string)
    | EditListing(instruction: string)
    | StorefrontScene(width: int, height: int, withLogo: bool)
    | LogoDesign(brand: string, category: string, notes: string)

  datatype Part = Text(instruction: Instruction) | Caption(role: Label) | Image(source: ImageSource) | Mask(data: Option<string>)

  /** The five ratios the image API accepts: 1:1, 16:9, 9:16, 4:3, 3:4. */
  datatype AspectRatio = Square | Wide | Tall | Landscape | Portrait

  function RatioText(a: AspectRatio): string
  {
    match a
    case Square => "1:1"
    case Wide => "16:9"
    case Tall => "9:16"
    case Landscape => "4:3"
    case Portrait => "3:4"
  }

  // ---------------------------------------------------------------------
  // Style
  // ---------------------------------------------------------------------

  function StylePrompt(s: PlotStyle): string
  {
    match s
    case Anime => "2D high-quality anime cel shaded style, vibrant colors, clean lines, Japanese manga aesthetic, hand-drawn look."
    case Realistic => "Highly photorealistic cinematic live-action photography, 8k RAW photo, masterwork, detailed skin textures, realistic human features, cinematic lighting."
    case Cyberpunk => "Cyberpunk aesthetic, neon lighting, futuristic tech accessories, high contrast, vibrant purples and cyans."
    case Pixar => "3D animated feature film style, Pixar/Disney aesthetic, soft rounded features, stylized textures, CGI animation look."
    case Sketch => "Hand-drawn concept art sketch, charcoal and pencil, artistic lines, monochromatic."
    case Ink => "Traditional Chinese ink wash painting, Shan Shui style, expressive black ink brushwork."
    case RealisticInkFusion => "Fusion of high-fidelity 3D realistic cinematic rendering and expressive traditional ink wash particles."
    case Chinese => "Modern Chinese aesthetic (Guofeng), grand cinematic photography, silk textures, elegant vermilion and gold palette."
    case Chinese3DAnime => "High-end Chinese 3D animation rendering style (Xianxia/Xuanhuan), masterwork CGI, Unreal Engine 5 look."
  }

  /** The style line of a storyboard render: the first character's style, or
      the photorealistic default when there is no roster or it has no style. */
  function FrameStyle(chars: seq<Character>): (r: string)
    ensures chars == [] || chars[0].style.None? ==> r == "Photorealistic commercial photography"
    ensures chars != [] && chars[0].style.Some? && StylePrompt(chars[0].style.value) != "" ==>
              r == StylePrompt(chars[0].style.value)
  {
    var style := if chars != [] && chars[0].style.Some? then StylePrompt(chars[0].style.value) else "";
    if style != "" then style else "Photorealistic commercial photography"
  }

  // ---------------------------------------------------------------------
  // Data URIs
  // ---------------------------------------------------------------------

  /** `url.split(',')[1]`: the text between the first and second comma, or
      `undefined` when there is no comma. */
  function DataUriPayload(url: string): Option<string>
  {
    var pieces := Split(url, ",");
    if |pieces| >= 2 then Some(pieces[1]) else None
  }

  /** `url.split(';')[0].split(':')[1] || 'image/png'`. */
  function DataUriMime(url: string): string
  {
    var pieces := Split(Split(url, ";")[0], ":");
    if |pieces| >= 2 && pieces[1] != "" then pieces[1] else "image/png"
  }

  lemma PayloadOfDataUri(d: InlineData)
    requires ',' !in d.mime && ',' !in d.data
    ensures DataUriPayload(DataUri(d)) == Some(d.data)
  {
    var head := "data:" + d.mime + ";base64";
    assert ',' !in head;
    assert DataUri(d) == head + [','] + d.data;
    SplitCharCons(head, ',', d.data);
    SplitCharNone(d.data, ',');
  }

  lemma MimeOfDataUri(d: InlineData)
    requires ';' !in d.mime && ':' !in d.mime
    ensures DataUriMime(DataUri(d)) == if d.mime == "" then "image/png" else d.mime
  {
    var front := "data:" + d.mime;
    var tail := "base64," + d.data;
    assert ';' !in front;
    assert DataUri(d) == front + [';'] + tail;
    SplitCharCons(front, ';', tail);
    assert Split(DataUri(d), ";")[0] == front;
    assert front == "data" + [':'] + d.mime;
    SplitCharCons("data", ':', d.mime);
    SplitCharNone(d.mime, ':');
  }

  /** Reading a generated image's data URI gives back its payload and MIME
      type (the PNG default standing in for an empty type). */
  lemma DataUriRoundTrip(d: InlineData)
    requires ',' !in d.mime && ';' !in d.mime && ':' !in d.mime && ',' !in d.data
    ensures DataUriPayload(DataUri(d)) == Some(d.data)
    ensures DataUriMime(DataUri(d)) == if d.mime == "" then "image/png" else d.mime
  {
    PayloadOfDataUri(d);
    MimeOfDataUri(d);
  }

  // ---------------------------------------------------------------------
  // Storyboard frames
  // ---------------------------------------------------------------------

  /** The reference image of a character: outfitted look first, turnaround second. */
  function CharacterRef(c: Character): Option<string>
  {
    OrElse(c.outfittedUrl, c.turnaroundUrl)
  }

  function CharacterParts(chars: seq<Character>): seq<Part>
  {
    if chars == [] then []
    else
      (if Has(CharacterRef(chars[0]))
       then [Caption(CharacterIdentity(chars[0].name)), Image(Fetched(CharacterRef(chars[0]).value))]
       else [])
      + CharacterParts(chars[1..])
  }

  /** Whether a previous frame is attached: it must be a truthy `data:image` URL. */
  predicate AttachesPrevious(prev: Option<string>)
  {
    Has(prev) && StartsWith(prev.value, "data:image")
  }

  /** The parts before the character identities: instruction, product photo,
      environment anchor and previous frame, each when present. */
  function FrameHead(scene: string, style: string, reference: Option<FileRef>,
                     prev: Option<string>, env: Option<string>): seq<Part>
  {
    [Text(RenderScene(scene, style))]
    + (if reference.Some? then [Image(Upload(reference.value))] else [])
    + (if Has(env) then [Caption(EnvironmentAnchor), Image(Fetched(env.value))] else [])
    + (if AttachesPrevious(prev)
       then [Caption(ContinuityPreviousFrame), Image(Inline(DataUriPayload(prev.value), DataUriMime(prev.value)))]
       else [])
  }

  /** The parts of a storyboard render request, in the order they are pushed. */
  function FrameParts(scene: string, reference: Option<FileRef>, chars: seq<Character>,
                      prev: Option<string>, env: Option<string>): seq<Part>
  {
    FrameHead(scene, FrameStyle(chars), reference, prev, env) + CharacterParts(chars)
  }

  /** The captions of a request, in order. */
  function Captions(parts: seq<Part>): seq<Label>
  {
    if parts == [] then []
    else (if parts[0].Caption? then [parts[0].role] else []) + Captions(parts[1..])
  }

  /** Every caption is immediately followed by the image it announces. */
  predicate CaptionsPaired(parts: seq<Part>)
  {
    forall i :: 0 <= i < |parts| && parts[i].Caption? ==> i + 1 < |parts| && parts[i + 1].Image?
  }

  lemma {:induction false} CaptionsConcat(a: seq<Part>, b: seq<Part>)
    ensures Captions(a + b) == Captions(a) + Captions(b)
    decreases |a|
  {
    if a == [] {
      assert a + b == b;
    } else {
      var ab := a + b;
      var head: seq<Label> := if a[0].Caption? then [a[0].role] else [];
      assert ab[0] == a[0];
      assert ab[1..] == a[1..] + b;
      CaptionsConcat(a[1..], b);
      assert Captions(ab) == head + (Captions(a[1..]) + Captions(b));
      assert Captions(a) == head + Captions(a[1..]);
      assert head + (Captions(a[1..]) + Captions(b)) == (head + Captions(a[1..])) + Captions(b);
    }
  }

  lemma PairedConcat(a: seq<Part>, b: seq<Part>)
    requires CaptionsPaired(a) && CaptionsPaired(b)
    ensures CaptionsPaired(a + b)
  {
    var ab := a + b;
    forall i | 0 <= i < |ab| && ab[i].Caption? ensures i + 1 < |ab| && ab[i + 1].Image? {
      if i < |a| {
        assert ab[i] == a[i];
        assert ab[i + 1] == a[i + 1];
      } else {
        assert ab[i] == b[i - |a|];
        assert ab[i + 1] == b[i + 1 - |a|];
      }
    }
  }

  /** The identity captions the roster contributes: one per character that
      has a reference image, in roster order. */
  function IdentityLabels(chars: seq<Character>): seq<Label>
  {
    if chars == [] then []
    else (if Has(CharacterRef(chars[0])) then [CharacterIdentity(chars[0].name)] else [])
         + IdentityLabels(chars[1..])
  }

  lemma {:induction false} CharacterPartsShape(chars: seq<Character>)
    ensures Captions(CharacterParts(chars)) == IdentityLabels(chars)
    ensures CaptionsPaired(CharacterParts(chars))
    decreases |chars|
  {
    if chars != [] {
      var c := chars[0];
      var head: seq<Part> := if Has(CharacterRef(c))
                             then [Caption(CharacterIdentity(c.name)), Image(Fetched(CharacterRef(c).value))]
                             else [];
      var labels: seq<Label> := if Has(CharacterRef(c)) then [CharacterIdentity(c.name)] else [];
      var rest := CharacterParts(chars[1..]);
      assert CharacterParts(chars) == head + rest;
      assert IdentityLabels(chars) == labels + IdentityLabels(chars[1..]);
      if Has(CharacterRef(c)) {
        CaptionedImage(CharacterIdentity(c.name), Fetched(CharacterRef(c).value));
      }
      assert Captions(head) == labels && CaptionsPaired(head);
      CharacterPartsShape(chars[1..]);
      CaptionsConcat(head, rest);
      PairedConcat(head, rest);
    }
  }

  /** A caption followed by its image. */
  lemma CaptionedImage(l: Label, src: ImageSource)
    ensures Captions([Caption(l), Image(src)]) == [l]
    ensures CaptionsPaired([Caption(l), Image(src)])
  {
    var ps := [Caption(l), Image(src)];
    assert ps[1..] == [Image(src)];
    assert Captions(ps[1..]) == [] + Captions(ps[1..][1..]);
    assert ps[1..][1..] == [];
  }

  /** A part that is not a caption contributes no caption. */
  lemma Uncaptioned(x: Part)
    requires !x.Caption?
    ensures Captions([x]) == []
    ensures CaptionsPaired([x])
  {
    assert [x][1..] == [];
  }

  /** Parts without captions contribute none and are trivially paired. */
  lemma {:induction false} NoCaptions(ps: seq<Part>)
    requires forall i :: 0 <= i < |ps| ==> !ps[i].Caption?
    ensures Captions(ps) == [] && CaptionsPaired(ps)
    decreases |ps|
  {
    if ps != [] {
      NoCaptions(ps[1..]);
    }
  }

  lemma FrameHeadShape(scene: string, style: string, reference: Option<FileRef>,
                       prev: Option<string>, env: Option<string>)
    ensures Captions(FrameHead(scene, style, reference, prev, env)) ==
              (if Has(env) then [EnvironmentAnchor] else [])
              + (if AttachesPrevious(prev) then [ContinuityPreviousFrame] else [])
    ensures CaptionsPaired(FrameHead(scene, style, reference, prev, env))
  {
    var p01: seq<Part> := [Text(RenderScene(scene, style))] + (if reference.Some? then [Image(Upload(reference.value))] else []);
    var p2: seq<Part> := if Has(env) then [Caption(EnvironmentAnchor), Image(Fetched(env.value))] else [];
    var p3: seq<Part> := if AttachesPrevious(prev)
                         then [Caption(ContinuityPreviousFrame), Image(Inline(DataUriPayload(prev.value), DataUriMime(prev.value)))]
                         else [];
    var c2: seq<Label> := if Has(env) then [EnvironmentAnchor] else [];
    var c3: seq<Label> := if AttachesPrevious(prev) then [ContinuityPreviousFrame] else [];
    assert FrameHead(scene, style, reference, prev, env) == p01 + p2 + p3;
    assert Captions(p01) == [] && CaptionsPaired(p01) by {
      NoCaptions(p01);
    }
    assert Captions(p2) == c2 && CaptionsPaired(p2) by {
      if Has(env) {
        CaptionedImage(EnvironmentAnchor, Fetched(env.value));
      }
    }
    assert Captions(p3) == c3 && CaptionsPaired(p3) by {
      if AttachesPrevious(prev) {
        CaptionedImage(ContinuityPreviousFrame, Inline(DataUriPayload(prev.value), DataUriMime(prev.value)));
      }
    }
    assert Captions(p01 + p2) == c2 && CaptionsPaired(p01 + p2) by {
      CaptionsConcat(p01, p2);
      PairedConcat(p01, p2);
    }
    assert Captions(p01 + p2 + p3) == c2 + c3 && CaptionsPaired(p01 + p2 + p3) by {
      CaptionsConcat(p01 + p2, p3);
      PairedConcat(p01 + p2, p3);
    }
  }

  /** A render request starts with its instruction, followed by the product
      reference when there is one, uncaptioned; it announces every other
      image with a caption placed right before it, and its captions come in
      the order environment, previous frame, then one identity per
      character that has a reference image, in roster order. */
  lemma FramePartsShape(scene: string, reference: Option<FileRef>, chars: seq<Character>,
                        prev: Option<string>, env: Option<string>)
    ensures FrameParts(scene, reference, chars, prev, env)[0] == Text(RenderScene(scene, FrameStyle(chars)))
    ensures reference.Some? ==> FrameParts(scene, reference, chars, prev, env)[1] == Image(Upload(reference.value))
    ensures Captions(FrameParts(scene, reference, chars, prev, env)) ==
              (if Has(env) then [EnvironmentAnchor] else [])
              + (if AttachesPrevious(prev) then [ContinuityPreviousFrame] else [])
              + IdentityLabels(chars)
    ensures CaptionsPaired(FrameParts(scene, reference, chars, prev, env))
  {
    var head := FrameHead(scene, FrameStyle(chars), reference, prev, env);
    FrameHeadShape(scene, FrameStyle(chars), reference, prev, env);
    CharacterPartsShape(chars);
    CaptionsConcat(head, CharacterParts(chars));
    PairedConcat(head, CharacterParts(chars));
  }

  /** The result convention of the render call: the first inline image as a
      data URI, and a rejection when the response holds no image. */
  function FrameResult(image: Option<InlineData>): (r: Reply<string>)
    ensures r.Ok? <==> image.Some?
    ensures r.Ok? ==> StartsWith(r.value, "data:") && r.value != ""
  {
    match image
    case None => Fail
    case Some(d) => Ok(DataUri(d))
  }

  /** The result convention of the edit and listing calls: the data URI, or
      the empty string (not a rejection) when the response holds no image. */
  function ImageOrEmpty(image: Option<InlineData>): (r: string)
    ensures r == "" <==> image.None?
    ensures image.Some? ==> StartsWith(r, "data:")
  {
    match image
    case None => ""
    case Some(d) => DataUri(d)
  }

  /** The images of parallel responses: the data URI of every response
      that holds one, in response order; the others are skipped. */
  function ImagesOf(responses: seq<Option<InlineData>>): (r: seq<string>)
    ensures |r| <= |responses|
    ensures forall i :: 0 <= i < |r| ==> StartsWith(r[i], "data:")
    ensures r == [] <==> forall j :: 0 <= j < |responses| ==> responses[j].None?
    ensures (forall j :: 0 <= j < |responses| ==> responses[j].Some?) ==> |r| == |responses|
  {
    if responses == [] then []
    else (if responses[0].Some? then [DataUri(responses[0].value)] else []) + ImagesOf(responses[1..])
  }

  /** A mask part carries the payload of the brush layer's data URI. */
  function MaskParts(mask: Option<string>): seq<Part>
  {
    if Has(mask) then [Mask(DataUriPayload(mask.value))] else []
  }

  /** The parts of a storyboard edit: the frame, the instruction, then the mask if any. */
  function EditFrameParts(url: string, instruction: string, mask: Option<string>): (r: seq<Part>)
    ensures |r| == (if Has(mask) then 3 else 2)
    ensures r[0] == Image(Fetched(url)) && r[1] == Text(EditFrame(instruction))
    ensures Has(mask) ==> r[2] == Mask(DataUriPayload(mask.value))
  {
    [Image(Fetched(url)), Text(EditFrame(instruction))] + MaskParts(mask)
  }

  /** The parts of a listing render: the product photo, then the placement prompt. */
  function ListingParts(prompt: string, reference: FileRef): seq<Part>
  {
    [Image(Upload(reference)), Text(RenderListing(prompt))]
  }

  /** The parts of a listing edit: the image, the instruction, the optional
      reference photo, then the optional mask. */
  function EditListingParts(url: string, instruction: string, reference: Option<FileRef>, mask: Option<string>): (r: seq<Part>)
    ensures |r| == 2 + (if reference.Some? then 1 else 0) + (if Has(mask) then 1 else 0)
    ensures r[..2] == [Image(Fetched(url)), Text(EditListing(instruction))]
    ensures reference.Some? ==> r[2] == Image(Upload(reference.value))
    ensures Has(mask) ==> r[|r| - 1] == Mask(DataUriPayload(mask.value))
  {
    [Image(Fetched(url)), Text(EditListing(instruction))]
    + (if reference.Some? then [Image(Upload(reference.value))] else [])
    + MaskParts(mask)
  }

  // ---------------------------------------------------------------------
  // Structured answers
  // ---------------------------------------------------------------------

  /** What became of a structured (JSON) answer: parsed, empty text, or text
      that does not parse. */
  datatype JsonAnswer<T> = Parsed(value: T) | EmptyText | Malformed

  /** `JSON.parse(response.text || "[]")`: empty text reads as an empty list,
      text that does not parse rejects. */
  function ListAnswer<T>(a: JsonAnswer<seq<T>>): (r: Reply<seq<T>>)
    ensures a.EmptyText? ==> r == Ok([])
    ensures r.Fail? <==> a.Malformed?
    ensures a.Parsed? ==> r == Ok(a.value)
  {
    match a
    case Parsed(v) => Ok(v)
    case EmptyText => Ok([])
    case Malformed => Fail
  }
}

=== FILE: object_keys.dfy ===
/** The order in which `Object.entries` lists the keys of a plain object
    (section 10.1.11.1 of ECMAScript 2024, OrdinaryOwnPropertyKeys): the
    keys that are array indices first, in ascending numeric order, then
    the other string keys in the order they were first created. */
module ObjectKeys {
  import opened Seqs
  import opened Text

  /** 2^32 - 1: an array index is an integer below it. */
  const IndexLimit: nat := 0xFFFF_FFFF

  /** A key is an array index when it is the canonical decimal numeral of
      an integer below `IndexLimit`: no sign, no leading zero, no other
      character ("01", "-1" and "4294967295" are plain keys). */
  predicate IsArrayIndex(k: string)
  {
    AllDigits(k) && DigitsValue(k) < IndexLimit && NatToString(DigitsValue(k)) == k
  }

  function IsIndexFn(): string -> bool
  {
    (k: string) => IsArrayIndex(k)
  }

  function NotIndexFn(): string -> bool
  {
    (k: string) => !IsArrayIndex(k)
  }

  /** The numeric value of a key (0 for a key that is not made of digits). */
  function IndexValue(k: string): nat
  {
    if AllDigits(k) then DigitsValue(k) else 0
  }

  /** Two array indices with the same value are the same key. */
  lemma IndexValueInjective(a: string, b: string)
    requires IsArrayIndex(a) && IsArrayIndex(b)
    ensures IndexValue(a) == IndexValue(b) ==> a == b
  {
  }

  predicate SortedByValue(ks: seq<string>)
  {
    forall i, j :: 0 <= i < j < |ks| ==> IndexValue(ks[i]) <= IndexValue(ks[j])
  }

  /** `k` placed before the first key of larger or equal value. */
  function Insert(k: string, ks: seq<string>): (r: seq<string>)
    ensures |r| == |ks| + 1
    ensures forall x :: x in r <==> x == k || x in ks
  {
    if ks == [] then [k]
    else if IndexValue(k) <= IndexValue(ks[0]) then [k] + ks
    else [ks[0]] + Insert(k, ks[1..])
  }

  lemma {:induction false} InsertSorted(k: string, ks: seq<string>)
    requires SortedByValue(ks)
    ensures SortedByValue(Insert(k, ks))
    decreases |ks|
  {
    if ks != [] && IndexValue(k) > IndexValue(ks[0]) {
      var rest := Insert(k, ks[1..]);
      InsertSorted(k, ks[1..]);
      forall j | 0 <= j < |rest| ensures IndexValue(ks[0]) <= IndexValue(rest[j]) {
        if rest[j] != k {
          assert rest[j] in ks[1..];
          var m :| 0 <= m < |ks| - 1 && ks[1..][m] == rest[j];
          assert ks[1..][m] == ks[m + 1];
        }
      }
      var r := [ks[0]] + rest;
      forall i, j | 0 <= i < j < |r| ensures IndexValue(r[i]) <= IndexValue(r[j]) {
        if i > 0 {
          assert r[i] == rest[i - 1] && r[j] == rest[j - 1];
        } else {
          assert r[j] == rest[j - 1];
        }
      }
    }
  }

  lemma {:induction false} InsertDistinct(k: string, ks: seq<string>)
    requires Distinct(ks) && k !in ks
    ensures Distinct(Insert(k, ks))
    decreases |ks|
  {
    if ks != [] && IndexValue(k) > IndexValue(ks[0]) {
      var tail := ks[1..];
      assert forall j :: 0 <= j < |tail| ==> tail[j] == ks[j + 1];
      InsertDistinct(k, tail);
      var rest := Insert(k, tail);
      assert ks[0] !in tail;
      assert ks[0] !in rest;
      var r := [ks[0]] + rest;
      forall i, j | 0 <= i < j < |r| ensures r[i] != r[j] {
        if i > 0 {
          assert r[i] == rest[i - 1] && r[j] == rest[j - 1];
        } else {
          assert r[j] == rest[j - 1];
        }
      }
    }
  }

  /** Insertion sort by numeric value. */
  function SortByValue(ks: seq<string>): (r: seq<string>)
    ensures |r| == |ks|
    ensures forall x :: x in r <==> x in ks
    ensures SortedByValue(r)
    ensures Distinct(ks) ==> Distinct(r)
  {
    if ks == [] then []
    else
      var tail := ks[1..];
      var sorted := SortByValue(tail);
      InsertSorted(ks[0], sorted);
      assert Distinct(ks) ==> Distinct(tail) && ks[0] !in tail by {
        assert forall j :: 0 <= j < |tail| ==> tail[j] == ks[j + 1];
      }
      if Distinct(ks) then
        InsertDistinct(ks[0], sorted);
        Insert(ks[0], sorted)
      else Insert(ks[0], sorted)
  }

  /** The keys of an object whose keys were created in the order `created`,
      as `Object.keys` and `Object.entries` list them: the same keys, none
      twice. */
  function OwnKeys(created: seq<string>): (r: seq<string>)
    ensures forall x :: x in r <==> x in created
    ensures Distinct(created) ==> Distinct(r)
  {
    var indices := SortByValue(Filter(created, IsIndexFn()));
    var others := Filter(created, NotIndexFn());
    FilterDistinct(created, IsIndexFn());
    FilterDistinct(created, NotIndexFn());
    PartsKind(created);
    DistinctConcat(indices, others);
    indices + others
  }

  /** The sorted part holds only array indices, the other part none. */
  lemma PartsKind(created: seq<string>)
    ensures forall i :: 0 <= i < |SortByValue(Filter(created, IsIndexFn()))| ==>
              IsArrayIndex(SortByValue(Filter(created, IsIndexFn()))[i])
    ensures forall j :: 0 <= j < |Filter(created, NotIndexFn())| ==> !IsArrayIndex(Filter(created, NotIndexFn())[j])
  {
    var fs := Filter(created, IsIndexFn());
    var indices := SortByValue(fs);
    forall i | 0 <= i < |indices| ensures IsArrayIndex(indices[i]) {
      assert indices[i] in fs;
      var m :| 0 <= m < |fs| && fs[m] == indices[i];
      assert IsIndexFn()(fs[m]);
    }
    var others := Filter(created, NotIndexFn());
    assert forall j :: 0 <= j < |others| ==> !IsArrayIndex(others[j]);
  }

  /** The array indices come ahead of all other keys and ascend, and the
      other keys keep their creation order. */
  lemma OwnKeysOrder(created: seq<string>)
    ensures forall i, j :: 0 <= i < j < |OwnKeys(created)| && IsArrayIndex(OwnKeys(created)[j]) ==>
              IsArrayIndex(OwnKeys(created)[i]) && IndexValue(OwnKeys(created)[i]) <= IndexValue(OwnKeys(created)[j])
    ensures Filter(OwnKeys(created), NotIndexFn()) == Filter(created, NotIndexFn())
  {
    var indices := SortByValue(Filter(created, IsIndexFn()));
    var others := Filter(created, NotIndexFn());
    assert OwnKeys(created) == indices + others;
    FilterConcat(indices, others, NotIndexFn());
    FilterDropsAll(indices, NotIndexFn());
    FilterKeepsAll(others, NotIndexFn());
    PartsKind(created);
    IndicesFirst(indices, others);
  }

  /** Sorted array indices followed by other keys: every array index has
      only array indices, with no larger value, before it. */
  lemma IndicesFirst(indices: seq<string>, others: seq<string>)
    requires forall i :: 0 <= i < |indices| ==> IsArrayIndex(indices[i])
    requires SortedByValue(indices)
    requires forall j :: 0 <= j < |others| ==> !IsArrayIndex(others[j])
    ensures forall i, j :: 0 <= i < j < |indices + others| && IsArrayIndex((indices + others)[j]) ==>
              IsArrayIndex((indices + others)[i]) && IndexValue((indices + others)[i]) <= IndexValue((indices + others)[j])
  {
    var r := indices + others;
    forall i, j | 0 <= i < j < |r| && IsArrayIndex(r[j])
      ensures IsArrayIndex(r[i]) && IndexValue(r[i]) <= IndexValue(r[j])
    {
      if j < |indices| {
        assert r[i] == indices[i] && r[j] == indices[j];
      }
    }
  }

  /** Without repeated keys the array indices come out strictly ascending. */
  lemma OwnKeysAscending(created: seq<string>)
    requires Distinct(created)
    ensures forall i, j :: 0 <= i < j < |OwnKeys(created)| && IsArrayIndex(OwnKeys(created)[j]) ==>
              IsArrayIndex(OwnKeys(created)[i]) && IndexValue(OwnKeys(created)[i]) < IndexValue(OwnKeys(created)[j])
  {
    var r := OwnKeys(created);
    OwnKeysOrder(created);
    forall i, j | 0 <= i < j < |r| && IsArrayIndex(r[j])
      ensures IsArrayIndex(r[i]) && IndexValue(r[i]) < IndexValue(r[j])
    {
      IndexValueInjective(r[i], r[j]);
    }
  }

  /** The keys the storyboard meets: single-digit scene numbers are array
      indices, "default" is not. */
  lemma NumeralKeys()
    ensures IsArrayIndex("1") && IndexValue("1") == 1
    ensures IsArrayIndex("2") && IndexValue("2") == 2
    ensures !IsArrayIndex("default")
  {
    assert "1"[..0] == [] && "2"[..0] == [];
    assert !IsDigit("default"[0]);
  }

  /** `Object.keys` of a record filled with keys "2", then "1" lists "1"
      first. */
  lemma OwnKeysNumbersAscend()
    ensures OwnKeys(["2", "1"]) == ["1", "2"]
  {
    var ks := ["2", "1"];
    SplitTwoOne();
    SortTwoOne();
    assert OwnKeys(ks) == SortByValue(Filter(ks, IsIndexFn())) + Filter(ks, NotIndexFn());
  }

  lemma SplitTwoOne()
    ensures Filter(["2", "1"], IsIndexFn()) == ["2", "1"]
    ensures Filter(["2", "1"], NotIndexFn()) == []
  {
    NumeralKeys();
    var ks := ["2", "1"];
    assert ks[1..] == ["1"] && ["1"][1..] == [];
    assert Filter(["1"], IsIndexFn()) == ["1"];
    assert Filter(["1"], NotIndexFn()) == [];
  }

  lemma SortTwoOne()
    ensures SortByValue(["2", "1"]) == ["1", "2"]
  {
    NumeralKeys();
    assert ["2", "1"][1..] == ["1"] && ["1"][1..] == [];
    assert SortByValue(["1"]) == ["1"];
    assert Insert("2", ["1"]) == ["1", "2"];
  }

  /** A plain key created before "1" is still listed after it. */
  lemma OwnKeysNumbersFirst()
    ensures OwnKeys(["default", "1"]) == ["1", "default"]
  {
    var ks := ["default", "1"];
    SplitDefaultOne();
    assert SortByValue(["1"]) == ["1"];
    assert OwnKeys(ks) == SortByValue(Filter(ks, IsIndexFn())) + Filter(ks, NotIndexFn());
  }

  lemma SplitDefaultOne()
    ensures Filter(["default", "1"], IsIndexFn()) == ["1"]
    ensures Filter(["default", "1"], NotIndexFn()) == ["default"]
  {
    NumeralKeys();
    var ks := ["default", "1"];
    assert ks[1..] == ["1"] && ["1"][1..] == [];
    assert Filter(["1"], IsIndexFn()) == ["1"];
    assert Filter(["1"], NotIndexFn()) == [];
  }
}

=== FILE: plot_characters.dfy ===
/** The character roster of the plot mode: characters are added, renamed,
    deleted and given a look, either from uploaded photos or from a
    description, and all share the art style picked for the plot. */
module PlotCharacters {
  import opened Wrappers
  import opened Seqs
  import opened Text
  import opened Types
  import opened Gemini

  function CharId(n: nat): string
  {
    "char-" + NatToString(n)
  }

  function CharacterId(c: Character): string
  {
    c.id
  }

  /** A character with no photos and no look yet: id `char-<n>`, named by
      its place in the roster. */
  function BlankCharacter(n: nat, position: nat): Character
  {
    Character(CharId(n), "角色 " + NatToString(position + 1), [], "", None, None, false, None, None, None)
  }

  /** The roster opens with two blank characters, char-0 and char-1. */
  function InitialRoster(): (r: seq<Character>)
    ensures |r| == 2 && r[0].id == CharId(0) && r[1].id == CharId(1)
    ensures forall i :: 0 <= i < |r| ==> r[i].token == "" && r[i].images == [] && r[i].turnaroundUrl.None?
    ensures DistinctBy(r, CharacterId)
  {
    PrefixedNumbersDiffer("char-", 0, 1);
    [BlankCharacter(0, 0), BlankCharacter(1, 1)]
  }

  function CharIs(id: string): Character -> bool
  {
    (c: Character) => c.id == id
  }

  function CharIsNot(id: string): Character -> bool
  {
    (c: Character) => c.id != id
  }

  // ---------------------------------------------------------------------
  // Roster edits
  // ---------------------------------------------------------------------

  /** Deleting is refused while at most one character is left; otherwise
      every character with that id goes and the others keep their order. */
  function DeleteCharacter(chars: seq<Character>, id: string): (r: seq<Character>)
    ensures |chars| <= 1 ==> r == chars
    ensures |chars| > 1 ==> r == Filter(chars, CharIsNot(id))
    ensures |chars| > 1 ==> forall c :: c in r <==> c in chars && c.id != id
  {
    if |chars| <= 1 then chars else Filter(chars, CharIsNot(id))
  }

  /** With distinct ids a delete removes at most one character, so a
      non-empty roster stays non-empty and its ids stay distinct. */
  lemma DeleteKeepsOne(chars: seq<Character>, id: string)
    requires |chars| >= 1 && DistinctBy(chars, CharacterId)
    ensures |DeleteCharacter(chars, id)| >= 1
    ensures |DeleteCharacter(chars, id)| >= |chars| - 1
    ensures DistinctBy(DeleteCharacter(chars, id), CharacterId)
  {
    if |chars| > 1 {
      FilterOutKey(chars, CharacterId, id, CharIsNot(id));
    }
  }

  /** Saving a card replaces the characters that carry its id; ids, order
      and every other character stay as they were. */
  function UpdateCharacter(chars: seq<Character>, updated: Character): (r: seq<Character>)
    ensures |r| == |chars|
    ensures forall i :: 0 <= i < |r| ==> r[i].id == chars[i].id
    ensures forall i :: 0 <= i < |r| && chars[i].id != updated.id ==> r[i] == chars[i]
    ensures forall i :: 0 <= i < |r| && chars[i].id == updated.id ==> r[i] == updated
  {
    MapIf(chars, CharIs(updated.id), (_: Character) => updated)
  }

  /** Picking an art style gives it to every character and changes nothing else. */
  function SetStyleAll(chars: seq<Character>, style: PlotStyle): (r: seq<Character>)
    ensures |r| == |chars|
    ensures forall i :: 0 <= i < |r| ==> r[i].style == Some(style) && r[i].(style := chars[i].style) == chars[i]
  {
    seq(|chars|, i requires 0 <= i < |chars| => chars[i].(style := Some(style)))
  }

  // ---------------------------------------------------------------------
  // A card's look
  // ---------------------------------------------------------------------

  /** A character has a look once it has a feature token or a turnaround sheet. */
  predicate Ready(c: Character)
  {
    c.token != "" || Has(c.turnaroundUrl)
  }

  /** Proceeding needs a non-empty roster in which every character is ready. */
  predicate ProceedEnabled(chars: seq<Character>)
  {
    |chars| > 0 && forall i :: 0 <= i < |chars| ==> Ready(chars[i])
  }

  /** Analysing uploaded photos: with photos and an answer, the character
      takes the photos, the answer as its token and the plot's style. No
      photos or a rejection leaves the card unsaved. */
  function AnalyzeLook(c: Character, files: seq<FileRef>, style: PlotStyle, reply: Reply<string>): (r: Option<Character>)
    ensures r.Some? <==> files != [] && reply.Ok?
    ensures r.Some? ==> r.value.id == c.id && r.value.images == files && r.value.token == reply.value
                        && r.value.style == Some(style)
  {
    if files == [] then None
    else match reply
      case Fail => None
      case Ok(token) => Some(c.(images := files, token := token, style := Some(style)))
  }

  /** The token a described character gets: the description's first 50 characters, labelled. */
  function DescribedToken(description: string): (r: string)
    ensures StartsWith(r, "Generated: ") && |r| <= 11 + 50
    ensures r[11..] == Head(description, 50)
  {
    "Generated: " + Head(description, 50)
  }

  /** Generating a character from a description. Nothing happens with an
      empty description, while the card is busy, or while the key picker
      still has to be shown; an answer without an image counts as a
      failure. A success gives the character its turnaround sheet, a token
      made from the description and the plot's style. */
  function GenerateLook(c: Character, description: string, analyzing: bool, keyPending: bool,
                        style: PlotStyle, reply: Reply<Option<InlineData>>): (r: Option<Character>)
    ensures r.Some? <==> description != "" && !analyzing && !keyPending && reply.Ok? && reply.value.Some?
    ensures r.Some? ==> r.value.id == c.id && Ready(r.value) && r.value.style == Some(style)
                        && r.value.turnaroundUrl == Some(DataUri(reply.value.value))
                        && r.value.token == DescribedToken(description)
  {
    if description == "" || analyzing || keyPending then None
    else match reply
      case Fail => None
      case Ok(image) =>
        var url := ImageOrEmpty(image);
        if url == "" then None
        else Some(c.(turnaroundUrl := Some(url), token := DescribedToken(description), style := Some(style)))
  }

  /** Saving a generated look on the only character still without one
      unlocks proceeding. */
  lemma GeneratedLookUnlocks(chars: seq<Character>, k: nat, description: string, style: PlotStyle,
                             image: InlineData)
    requires k < |chars| && description != ""
    requires forall i :: 0 <= i < |chars| && chars[i].id != chars[k].id ==> Ready(chars[i])
    ensures var r := GenerateLook(chars[k], description, false, false, style, Ok(Some(image)));
            r.Some? && ProceedEnabled(UpdateCharacter(chars, r.value))
  {
  }

  // ---------------------------------------------------------------------
  // Adding a character
  // ---------------------------------------------------------------------

  /** Adding a character as written: the new id is numbered by the current
      length of the roster. */
  function AddCharacterAsWritten(chars: seq<Character>): (r: seq<Character>)
    ensures |r| == |chars| + 1 && r[..|chars|] == chars
    ensures r[|chars|].id == CharId(|chars|) && r[|chars|].token == "" && r[|chars|].images == []
  {
    chars + [BlankCharacter(|chars|, |chars|)]
  }

  /** Deleting the first character of the opening roster and adding one
      gives two characters that share the id char-1. */
  lemma AddAfterDeleteDuplicatesId()
    ensures var r := AddCharacterAsWritten(DeleteCharacter(InitialRoster(), CharId(0)));
            |r| == 2 && r[0].id == CharId(1) && r[1].id == CharId(1) && !DistinctBy(r, CharacterId)
  {
    var start := InitialRoster();
    PrefixedNumbersDiffer("char-", 1, 0);
    assert Filter([start[1]], CharIsNot(CharId(0))) == [start[1]] by {
      FilterSingle(start[1], CharIsNot(CharId(0)));
    }
    assert start == [start[0]] + [start[1]];
    FilterConcat([start[0]], [start[1]], CharIsNot(CharId(0)));
    FilterSingle(start[0], CharIsNot(CharId(0)));
    var r := AddCharacterAsWritten(DeleteCharacter(start, CharId(0)));
    assert CharacterId(r[0]) == CharacterId(r[1]);
  }

  /** The roster with the number the next added character takes: it only
      ever grows, so an id is never handed out twice. */
  datatype Roster = Roster(chars: seq<Character>, next: nat)

  /** Ids are distinct and none is numbered at or beyond the counter. */
  ghost predicate Valid(ro: Roster)
  {
    DistinctBy(ro.chars, CharacterId) &&
    forall i, m :: 0 <= i < |ro.chars| && ro.next <= m ==> ro.chars[i].id != CharId(m)
  }

  function StartRoster(): (r: Roster)
    ensures r.chars == InitialRoster() && Valid(r)
  {
    StartRosterValid();
    Roster(InitialRoster(), 2)
  }

  lemma StartRosterValid()
    ensures Valid(Roster(InitialRoster(), 2))
  {
    var ro := Roster(InitialRoster(), 2);
    forall i, m | 0 <= i < |ro.chars| && ro.next <= m ensures ro.chars[i].id != CharId(m) {
      PrefixedNumbersDiffer("char-", i, m);
    }
  }

  /** Adding a character with the counter: the new character takes the
      counter's id and its place-based name, and the counter moves on. */
  function AddCharacter(ro: Roster): (r: Roster)
    ensures |r.chars| == |ro.chars| + 1 && r.chars[..|ro.chars|] == ro.chars
    ensures r.chars[|ro.chars|].id == CharId(ro.next) && r.next == ro.next + 1
    ensures Valid(ro) ==> Valid(r)
  {
    var r := Roster(ro.chars + [BlankCharacter(ro.next, |ro.chars|)], ro.next + 1);
    AddKeepsValid(ro, r);
    r
  }

  lemma AddKeepsValid(ro: Roster, r: Roster)
    requires r == Roster(ro.chars + [BlankCharacter(ro.next, |ro.chars|)], ro.next + 1)
    ensures Valid(ro) ==> Valid(r)
  {
    if Valid(ro) {
      var n := |ro.chars|;
      forall i, j | 0 <= i < j < |r.chars| ensures CharacterId(r.chars[i]) != CharacterId(r.chars[j]) {
        if j < n {
          assert r.chars[i] == ro.chars[i] && r.chars[j] == ro.chars[j];
        } else {
          assert r.chars[i] == ro.chars[i];
          assert ro.chars[i].id != CharId(ro.next);
        }
      }
      forall i, m | 0 <= i < |r.chars| && r.next <= m ensures r.chars[i].id != CharId(m) {
        if i < n {
          assert r.chars[i] == ro.chars[i];
        } else {
          PrefixedNumbersDiffer("char-", ro.next, m);
        }
      }
    }
  }

  /** Deleting keeps the counter, so a later add cannot reuse a deleted id. */
  function DeleteFromRoster(ro: Roster, id: string): (r: Roster)
    ensures r.chars == DeleteCharacter(ro.chars, id) && r.next == ro.next
    ensures Valid(ro) ==> Valid(r)
  {
    var r := Roster(DeleteCharacter(ro.chars, id), ro.next);
    DeleteKeepsValid(ro, id);
    r
  }

  lemma DeleteKeepsValid(ro: Roster, id: string)
    ensures Valid(ro) ==> Valid(Roster(DeleteCharacter(ro.chars, id), ro.next))
  {
    if Valid(ro) && |ro.chars| > 1 {
      var r := DeleteCharacter(ro.chars, id);
      FilterOutKey(ro.chars, CharacterId, id, CharIsNot(id));
      forall i, m | 0 <= i < |r| && ro.next <= m ensures r[i].id != CharId(m) {
        assert r[i] in ro.chars;
      }
    }
  }

  /** Updating a card and restyling keep every id, so the roster stays valid. */
  lemma EditsKeepValid(ro: Roster, updated: Character, style: PlotStyle)
    requires Valid(ro)
    ensures Valid(Roster(UpdateCharacter(ro.chars, updated), ro.next))
    ensures Valid(Roster(SetStyleAll(ro.chars, style), ro.next))
  {
    SameKeys(ro.chars, UpdateCharacter(ro.chars, updated), CharacterId);
    SameKeys(ro.chars, SetStyleAll(ro.chars, style), CharacterId);
  }

  /** The scenario that duplicates an id as written keeps ids apart with the counter. */
  lemma AddAfterDeleteKeepsIdsApart()
    ensures var r := AddCharacter(DeleteFromRoster(StartRoster(), CharId(0)));
            Valid(r) && r.chars[|r.chars| - 1].id == CharId(2)
  {
  }
}

=== FILE: plot_environment.dfy ===
/** Environment anchors of the plot mode: every environment of the plan is
    rendered once before the storyboard, one at a time. */
module PlotEnvironment {
  import opened Wrappers
  import opened Seqs
  import opened Types
  import opened Gemini

  /** The environments and the id of the one rendering, if any. */
  datatype Environments = Environments(envs: seq<Environment>, busy: Option<string>)

  /** Every render button is disabled while any environment renders. */
  predicate RenderEnabled(st: Environments)
  {
    !Has(st.busy)
  }

  /** Proceeding needs an image on every environment. */
  predicate ProceedEnabled(envs: seq<Environment>)
  {
    forall i :: 0 <= i < |envs| ==> Has(envs[i].imageUrl)
  }

  function EnvIs(id: string): Environment -> bool
  {
    (e: Environment) => e.id == id
  }

  function StartEnvironment(st: Environments, id: string): (r: Environments)
    ensures r.envs == st.envs
    ensures id != "" ==> !RenderEnabled(r)
  {
    st.(busy := Some(id))
  }

  /** The end of a render: an answer for a known id sets the image of the
      environments with that id (empty when the answer holds no image); a
      rejection or an unknown id changes nothing. The busy marker is
      cleared either way. */
  function FinishEnvironment(st: Environments, id: string, reply: Reply<Option<InlineData>>): (r: Environments)
    ensures r.busy.None? && |r.envs| == |st.envs|
    ensures reply.Fail? || Find(st.envs, EnvIs(id)).None? ==> r.envs == st.envs
    ensures forall i :: 0 <= i < |st.envs| && st.envs[i].id != id ==> r.envs[i] == st.envs[i]
    ensures reply.Ok? ==> forall i :: 0 <= i < |st.envs| && st.envs[i].id == id ==>
              r.envs[i] == st.envs[i].(imageUrl := Some(ImageOrEmpty(reply.value)))
  {
    var envs := match Find(st.envs, EnvIs(id))
      case None => st.envs
      case Some(_) =>
        match reply
        case Fail => st.envs
        case Ok(image) => MapIf(st.envs, EnvIs(id), (e: Environment) => e.(imageUrl := Some(ImageOrEmpty(image))));
    Environments(envs, None)
  }

  /** Rendering the last environment without an image, and getting one,
      enables proceeding; the step is then free for further renders. */
  lemma LastRenderCompletes(st: Environments, k: nat, image: InlineData)
    requires k < |st.envs|
    requires forall i :: 0 <= i < |st.envs| && st.envs[i].id != st.envs[k].id ==> Has(st.envs[i].imageUrl)
    ensures var r := FinishEnvironment(StartEnvironment(st, st.envs[k].id), st.envs[k].id, Ok(Some(image)));
            ProceedEnabled(r.envs) && RenderEnabled(r)
  {
    var id := st.envs[k].id;
    assert EnvIs(id)(st.envs[k]);
    var r := FinishEnvironment(StartEnvironment(st, id), id, Ok(Some(image)));
    forall i | 0 <= i < |st.envs| ensures Has(r.envs[i].imageUrl) {
      if st.envs[i].id == id {
        assert r.envs[i].imageUrl == Some(DataUri(image));
      }
    }
  }
}

=== FILE: plot_outfitting.dfy ===
/** Outfitting in the plot mode: every character gets costume suggestions,
    one of which is selected, and can be rendered wearing it. */
module PlotOutfitting {
  import opened Wrappers
  import opened Seqs
  import opened Types
  import opened Gemini

  /** The outfitting step: the roster, whether suggestions are loading, and
      the id of the character whose outfit is rendering. */
  datatype Outfitting = Outfitting(chars: seq<Character>, loading: bool, outfitting: Option<string>)

  predicate HasSuggestions(c: Character)
  {
    c.suggestedCostumes.Some? && |c.suggestedCostumes.value| > 0
  }

  /** On opening, suggestions are requested unless every character already has some. */
  predicate SkipOnMount(chars: seq<Character>)
  {
    forall i :: 0 <= i < |chars| ==> HasSuggestions(chars[i])
  }

  /** The first suggestion, the one that becomes selected. */
  function First(s: seq<Costume>): (r: Option<Costume>)
    ensures r.Some? <==> s != []
    ensures r.Some? ==> r.value in s
  {
    if s == [] then None else Some(s[0])
  }

  /** Regenerating asks once per character. All answered: each character
      takes its suggestions and selects the first, in roster order. Any
      rejection leaves the roster as it was. */
  function Regenerate(chars: seq<Character>, answers: seq<Reply<seq<Costume>>>): (r: seq<Character>)
    requires |answers| == |chars|
    ensures |r| == |chars|
    ensures (exists i :: 0 <= i < |answers| && answers[i].Fail?) ==> r == chars
    ensures (forall i :: 0 <= i < |answers| ==> answers[i].Ok?) ==>
              forall i :: 0 <= i < |r| ==>
                r[i].id == chars[i].id && r[i].suggestedCostumes == Some(answers[i].value)
                && r[i].selectedCostume == First(answers[i].value)
                && r[i].(suggestedCostumes := chars[i].suggestedCostumes, selectedCostume := chars[i].selectedCostume) == chars[i]
  {
    if exists i :: 0 <= i < |answers| && answers[i].Fail? then chars
    else seq(|chars|, i requires 0 <= i < |chars| =>
           chars[i].(suggestedCostumes := Some(answers[i].value), selectedCostume := First(answers[i].value)))
  }

  /** After suggestions that are all non-empty, reopening the step would not
      ask again, and every selected costume is one of the character's suggestions. */
  lemma RegenerateSettles(chars: seq<Character>, answers: seq<Reply<seq<Costume>>>)
    requires |answers| == |chars|
    requires forall i :: 0 <= i < |answers| ==> answers[i].Ok? && answers[i].value != []
    ensures SkipOnMount(Regenerate(chars, answers))
    ensures var r := Regenerate(chars, answers);
            forall i :: 0 <= i < |r| ==> r[i].selectedCostume.Some? && r[i].selectedCostume.value in r[i].suggestedCostumes.value
  {
    var r := Regenerate(chars, answers);
    forall i | 0 <= i < |r| ensures HasSuggestions(r[i]) {
      assert r[i].suggestedCostumes == Some(answers[i].value);
    }
  }

  function CharIs(id: string): Character -> bool
  {
    (c: Character) => c.id == id
  }

  /** Choosing a costume changes the selection of the characters with that id only. */
  function SelectCostume(chars: seq<Character>, id: string, costume: Costume): (r: seq<Character>)
    ensures |r| == |chars|
    ensures forall i :: 0 <= i < |r| && chars[i].id != id ==> r[i] == chars[i]
    ensures forall i :: 0 <= i < |r| && chars[i].id == id ==>
              r[i].selectedCostume == Some(costume) && r[i].(selectedCostume := chars[i].selectedCostume) == chars[i]
  {
    MapIf(chars, CharIs(id), (c: Character) => c.(selectedCostume := Some(costume)))
  }

  /** A character's outfit button is disabled only while that character renders. */
  predicate OutfitEnabled(st: Outfitting, id: string)
  {
    st.outfitting != Some(id)
  }

  /** Proceeding is disabled while suggestions load or an outfit renders. */
  predicate ProceedEnabled(st: Outfitting)
  {
    !st.loading && !Has(st.outfitting)
  }

  function StartOutfit(st: Outfitting, id: string): (r: Outfitting)
    ensures r.chars == st.chars && !OutfitEnabled(r, id)
    ensures id != "" ==> !ProceedEnabled(r)
  {
    st.(outfitting := Some(id))
  }

  /** The end of an outfit render: an answer for a character on the roster
      sets the outfitted look of the characters with that id (empty when
      the answer holds no image); a rejection or an unknown id changes no
      character. Either way the render marker is cleared. */
  function FinishOutfit(st: Outfitting, id: string, reply: Reply<Option<InlineData>>): (r: Outfitting)
    ensures r.outfitting.None? && r.loading == st.loading && |r.chars| == |st.chars|
    ensures reply.Fail? || Find(st.chars, CharIs(id)).None? ==> r.chars == st.chars
    ensures forall i :: 0 <= i < |st.chars| && st.chars[i].id != id ==> r.chars[i] == st.chars[i]
    ensures reply.Ok? ==> forall i :: 0 <= i < |st.chars| && st.chars[i].id == id ==>
              r.chars[i] == st.chars[i].(outfittedUrl := Some(ImageOrEmpty(reply.value)))
  {
    var chars := match Find(st.chars, CharIs(id))
      case None => st.chars
      case Some(_) =>
        match reply
        case Fail => st.chars
        case Ok(image) => MapIf(st.chars, CharIs(id), (c: Character) => c.(outfittedUrl := Some(ImageOrEmpty(image))));
    Outfitting(chars, st.loading, None)
  }

  /** A finished render, successful or not, re-enables proceeding once
      suggestions are not loading. */
  lemma FinishReenablesProceed(st: Outfitting, id: string, reply: Reply<Option<InlineData>>)
    requires !st.loading
    ensures ProceedEnabled(FinishOutfit(StartOutfit(st, id), id, reply))
  {
  }
}

=== FILE: plot_reference.dfy ===
/** Turnaround sheets of the plot mode: each character is rendered as a
    multi-angle sheet, one card at a time or all cards together. */
module PlotReference {
  import opened Wrappers
  import opened Types
  import opened Gemini

  /** Starting a card marks that character busy; a busy card does not start again. */
  function StartTurnaround(chars: seq<Character>, idx: nat): (r: Option<seq<Character>>)
    requires idx < |chars|
    ensures r.None? <==> chars[idx].isGenerating
    ensures r.Some? ==> |r.value| == |chars| && r.value[idx].isGenerating
    ensures r.Some? ==> r.value[idx].(isGenerating := false) == chars[idx]
    ensures r.Some? ==> forall i :: 0 <= i < |chars| && i != idx ==> r.value[i] == chars[i]
  {
    if chars[idx].isGenerating then None
    else Some(chars[idx := chars[idx].(isGenerating := true)])
  }

  /** The end of a card's render: an answer sets the sheet (empty when the
      answer holds no image), a rejection keeps the old one; either way
      the card is free again and no other character changes. */
  function FinishTurnaround(chars: seq<Character>, idx: nat, reply: Reply<Option<InlineData>>): (r: seq<Character>)
    requires idx < |chars|
    ensures |r| == |chars| && !r[idx].isGenerating
    ensures forall i :: 0 <= i < |chars| && i != idx ==> r[i] == chars[i]
    ensures reply.Fail? ==> r[idx] == chars[idx].(isGenerating := false)
    ensures reply.Ok? ==> r[idx] == chars[idx].(turnaroundUrl := Some(ImageOrEmpty(reply.value)), isGenerating := false)
    ensures reply.Ok? ==> (Has(r[idx].turnaroundUrl) <==> reply.value.Some?)
  {
    match reply
    case Fail => chars[idx := chars[idx].(isGenerating := false)]
    case Ok(image) => chars[idx := chars[idx].(turnaroundUrl := Some(ImageOrEmpty(image)), isGenerating := false)]
  }

  /** Proceeding needs at least one character with a sheet. */
  predicate ProceedEnabled(chars: seq<Character>)
  {
    exists i :: 0 <= i < |chars| && Has(chars[i].turnaroundUrl)
  }

  /** The render-all button is shown while some character has no sheet. */
  predicate RenderAllShown(chars: seq<Character>)
  {
    exists i :: 0 <= i < |chars| && !Has(chars[i].turnaroundUrl)
  }

  /** A render that returns an image enables proceeding; starting a render
      and a failed render never take it away. */
  lemma RenderEnablesProceed(chars: seq<Character>, idx: nat, reply: Reply<Option<InlineData>>)
    requires idx < |chars| && !chars[idx].isGenerating
    ensures var r := FinishTurnaround(StartTurnaround(chars, idx).value, idx, reply);
            (reply.Ok? && reply.value.Some? ==> ProceedEnabled(r) && !r[idx].isGenerating)
            && (reply.Fail? ==> r == chars)
    ensures ProceedEnabled(chars) && reply.Fail? ==> ProceedEnabled(FinishTurnaround(StartTurnaround(chars, idx).value, idx, reply))
  {
    var started := StartTurnaround(chars, idx).value;
    var r := FinishTurnaround(started, idx, reply);
    if reply.Fail? {
      assert r[idx] == chars[idx];
    }
  }

  /** Rendering all cards starts every card that is not busy; once all of
      them answered, each started card holds its own answer and the busy
      ones are left to their earlier render. */
  function RenderAll(chars: seq<Character>, replies: seq<Reply<Option<InlineData>>>): (r: seq<Character>)
    requires |replies| == |chars|
    ensures |r| == |chars|
    ensures forall i :: 0 <= i < |chars| && chars[i].isGenerating ==> r[i] == chars[i]
    ensures forall i :: 0 <= i < |chars| && !chars[i].isGenerating ==>
              r[i] == FinishTurnaround(StartTurnaround(chars, i).value, i, replies[i])[i]
  {
    seq(|chars|, i requires 0 <= i < |chars| =>
      if chars[i].isGenerating then chars[i]
      else match replies[i]
        case Fail => chars[i]
        case Ok(image) => chars[i].(turnaroundUrl := Some(ImageOrEmpty(image))))
  }

  /** After rendering all, the render-all button disappears exactly when
      every card ends with a sheet; an image for every idle card and a
      sheet on every busy one is enough. */
  lemma RenderAllCompletes(chars: seq<Character>, replies: seq<Reply<Option<InlineData>>>)
    requires |replies| == |chars|
    requires forall i :: 0 <= i < |chars| ==>
               if chars[i].isGenerating then Has(chars[i].turnaroundUrl) else replies[i].Ok? && replies[i].value.Some?
    ensures !RenderAllShown(RenderAll(chars, replies))
    ensures |chars| > 0 ==> ProceedEnabled(RenderAll(chars, replies))
  {
    var r := RenderAll(chars, replies);
    forall i | 0 <= i < |chars| ensures Has(r[i].turnaroundUrl) {
      if !chars[i].isGenerating {
        var started := StartTurnaround(chars, i).value;
        assert r[i] == FinishTurnaround(started, i, replies[i])[i];
      }
    }
    if |chars| > 0 {
      assert Has(r[0].turnaroundUrl);
    }
  }
}

=== FILE: scripts.dfy ===
/** Turning a script (shot structures) into storyboard frames: the
    reference-video prompts, the creative script and the plot script with
    its proposal and extensions. */
module Scripts {
  import opened Wrappers
  import opened Text
  import opened Types

  /** The prompt a frame gets when the prompt call returns none for it. */
  datatype Fallback = ProductDetail(token: string) | SubjectAction

  function FallbackPrompt(s: ShotStructure, f: Fallback): string
  {
    match f
    case ProductDetail(token) => "Detailed shot of " + token + ", " + s.shotType + ", " + s.lighting
    case SubjectAction => s.subjectAction
  }

  /** `${prefix}${n}-${now}`. */
  function FrameId(prefix: string, n: nat, now: nat): string
  {
    prefix + NatToString(n) + "-" + NatToString(now)
  }

  /** `result.prompts[i] || fallback`. */
  function PromptFor(prompts: seq<string>, i: nat, s: ShotStructure, f: Fallback): (r: string)
    ensures i < |prompts| && prompts[i] != "" ==> r == prompts[i]
    ensures !(i < |prompts| && prompts[i] != "") ==> r == FallbackPrompt(s, f)
  {
    if i < |prompts| && prompts[i] != "" then prompts[i] else FallbackPrompt(s, f)
  }

  /** `structure.map((s, i) => ({...s, id, finalPrompt}))`: one fresh frame
      per script shot, numbered from `offset`. */
  function Remap(structure: seq<ShotStructure>, prompts: seq<string>, prefix: string, offset: nat, now: nat,
                 f: Fallback): (r: seq<Shot>)
    ensures |r| == |structure|
    ensures forall i :: 0 <= i < |structure| ==>
              r[i] == FromStructure(structure[i]).(id := FrameId(prefix, offset + i, now),
                                                   finalPrompt := PromptFor(prompts, i, structure[i], f))
  {
    seq(|structure|, i requires 0 <= i < |structure| =>
      FromStructure(structure[i]).(id := FrameId(prefix, offset + i, now),
                                   finalPrompt := PromptFor(prompts, i, structure[i], f)))
  }

  /** Remapping a script in two parts gives the frames of the first part
      followed by those of the second, numbered on from where the first
      stopped and reading the prompts after the first part's: an extension
      continues the numbering of the frames before it. */
  lemma RemapConcat(a: seq<ShotStructure>, b: seq<ShotStructure>, prompts: seq<string>, prefix: string,
                    offset: nat, now: nat, f: Fallback)
    ensures Remap(a + b, prompts, prefix, offset, now, f)
            == Remap(a, prompts, prefix, offset, now, f) + Remap(b, Drop(prompts, |a|), prefix, offset + |a|, now, f)
  {
    var r := Remap(a + b, prompts, prefix, offset, now, f);
    var ra := Remap(a, prompts, prefix, offset, now, f);
    var rb := Remap(b, Drop(prompts, |a|), prefix, offset + |a|, now, f);
    forall i | 0 <= i < |r| ensures r[i] == (ra + rb)[i] {
      if i >= |a| {
        assert (a + b)[i] == b[i - |a|];
        assert PromptFor(prompts, i, b[i - |a|], f) == PromptFor(Drop(prompts, |a|), i - |a|, b[i - |a|], f);
      } else {
        assert (a + b)[i] == a[i];
      }
    }
  }

  /** The prompts after the first `n`. */
  function Drop(prompts: seq<string>, n: nat): (r: seq<string>)
    ensures |r| == if n <= |prompts| then |prompts| - n else 0
    ensures forall i :: 0 <= i < |r| ==> r[i] == prompts[n + i]
  {
    if n <= |prompts| then prompts[n..] else []
  }

  /** The frames of one batch have pairwise different ids even when a single
      timestamp stands for the whole batch. */
  lemma RemapIdsDistinct(structure: seq<ShotStructure>, prompts: seq<string>, prefix: string, offset: nat, now: nat,
                         f: Fallback)
    ensures forall i, j :: 0 <= i < j < |structure| ==>
              Remap(structure, prompts, prefix, offset, now, f)[i].id != Remap(structure, prompts, prefix, offset, now, f)[j].id
  {
    var r := Remap(structure, prompts, prefix, offset, now, f);
    forall i, j | 0 <= i < j < |structure| ensures r[i].id != r[j].id {
      NumberedIdsDiffer(prefix, offset + i, offset + j, '-', NatToString(now), NatToString(now));
    }
  }

  /** With a non-empty prompt for every shot, the frames carry exactly the
      prompts returned, in order, and keep their script shots. */
  lemma RemapUsesPrompts(structure: seq<ShotStructure>, prompts: seq<string>, prefix: string, offset: nat, now: nat,
                         f: Fallback)
    requires |prompts| >= |structure|
    requires forall i :: 0 <= i < |prompts| ==> prompts[i] != ""
    ensures forall i :: 0 <= i < |structure| ==>
              Remap(structure, prompts, prefix, offset, now, f)[i].finalPrompt == prompts[i]
              && Remap(structure, prompts, prefix, offset, now, f)[i].structure == structure[i]
  {
  }

  // ---------------------------------------------------------------------
  // Reference mode and creative mode
  // ---------------------------------------------------------------------

  /** Reference-video prompts: a failed call keeps the frames; otherwise
      one `shot-` frame per analysed shot, falling back to a product detail
      prompt. */
  function ReferencePrompts(shots: seq<Shot>, token: string, structure: seq<ShotStructure>,
                            reply: Reply<seq<string>>, now: nat): (r: seq<Shot>)
    ensures reply.Fail? ==> r == shots
    ensures reply.Ok? ==> r == Remap(structure, reply.value, "shot-", 0, now, ProductDetail(token))
  {
    match reply
    case Fail => shots
    case Ok(prompts) => Remap(structure, prompts, "shot-", 0, now, ProductDetail(token))
  }

  /** Opening the reference-prompt screen: it asks for prompts only when it
      opens without frames. Its `generating` test is always false at that
      moment, since the flag starts false. */
  function MountReference(initial: seq<Shot>, token: string, structure: seq<ShotStructure>,
                          reply: Reply<seq<string>>, now: nat): (r: seq<Shot>)
    ensures initial != [] ==> r == initial
    ensures initial == [] ==> r == ReferencePrompts(initial, token, structure, reply, now)
    ensures r != initial <==> initial == [] && reply.Ok? && structure != []
  {
    if initial == [] then ReferencePrompts(initial, token, structure, reply, now) else initial
  }

  /** Creative script: the script comes from a brainstorm, then prompts;
      either failing keeps the frames; the fallback prompt is the action. */
  function CreativeScript(shots: seq<Shot>, brainstorm: Reply<seq<ShotStructure>>, reply: Reply<seq<string>>,
                          now: nat): (r: seq<Shot>)
    ensures brainstorm.Fail? || reply.Fail? ==> r == shots
    ensures brainstorm.Ok? && reply.Ok? ==> r == Remap(brainstorm.value, reply.value, "c-shot-", 0, now, SubjectAction)
  {
    if brainstorm.Fail? || reply.Fail? then shots
    else Remap(brainstorm.value, reply.value, "c-shot-", 0, now, SubjectAction)
  }

  /** Opening the creative-script screen: it generates only when it opens
      without frames (this screen does not test its busy flag). */
  function MountCreative(initial: seq<Shot>, brainstorm: Reply<seq<ShotStructure>>, reply: Reply<seq<string>>,
                         now: nat): (r: seq<Shot>)
    ensures initial != [] ==> r == initial
    ensures initial == [] ==> r == CreativeScript(initial, brainstorm, reply, now)
    ensures r != initial <==> initial == [] && brainstorm.Ok? && reply.Ok? && brainstorm.value != []
  {
    if initial == [] then CreativeScript(initial, brainstorm, reply, now) else initial
  }

  // ---------------------------------------------------------------------
  // Plot script
  // ---------------------------------------------------------------------

  datatype PlotScript = PlotScript(requirement: string, proposal: Option<Proposal>, shots: seq<Shot>)

  const PlotPrefix: string := "plot-shot-"
  const ExtendPrefix: string := "ext-shot-"

  /** `handlePropose`: no call without a requirement; a new proposal
      discards the frames of the previous one. */
  function Propose(st: PlotScript, reply: Reply<Proposal>): (r: PlotScript)
    ensures st.requirement == "" || reply.Fail? ==> r == st
    ensures st.requirement != "" && reply.Ok? ==> r.proposal == Some(reply.value) && r.shots == []
    ensures r.requirement == st.requirement
  {
    if st.requirement == "" then st
    else match reply
      case Fail => st
      case Ok(p) => st.(proposal := Some(p), shots := [])
  }

  /** `handleInitialGenerate`: needs a proposal; numbered `plot-shot-` frames
      replace the current ones. */
  function InitialShots(st: PlotScript, brainstorm: Reply<seq<ShotStructure>>, reply: Reply<seq<string>>,
                        now: nat): (r: PlotScript)
    ensures st.proposal.None? || brainstorm.Fail? || reply.Fail? ==> r == st
    ensures st.proposal.Some? && brainstorm.Ok? && reply.Ok? ==>
              r == st.(shots := Remap(brainstorm.value, reply.value, PlotPrefix, 0, now, SubjectAction))
  {
    if st.proposal.None? || brainstorm.Fail? || reply.Fail? then st
    else st.(shots := Remap(brainstorm.value, reply.value, PlotPrefix, 0, now, SubjectAction))
  }

  /** `handleExtendPlot`: needs a proposal and frames; an empty extension
      changes nothing; otherwise `ext-shot-` frames numbered after the
      current ones are appended. */
  function Extend(st: PlotScript, brainstorm: Reply<seq<ShotStructure>>, reply: Reply<seq<string>>,
                  now: nat): (r: PlotScript)
    ensures st.proposal.None? || st.shots == [] || brainstorm.Fail? || reply.Fail? ==> r == st
    ensures brainstorm.Ok? && brainstorm.value == [] ==> r == st
    ensures |r.shots| >= |st.shots| && r.shots[..|st.shots|] == st.shots && r.proposal == st.proposal
    ensures r != st ==> |r.shots| == |st.shots| + |brainstorm.value|
                        && r.shots[|st.shots|..] == Remap(brainstorm.value, reply.value, ExtendPrefix, |st.shots|, now, SubjectAction)
    ensures st.proposal.Some? && st.shots != [] && brainstorm.Ok? && brainstorm.value != [] && reply.Ok? ==>
              r == st.(shots := st.shots + Remap(brainstorm.value, reply.value, ExtendPrefix, |st.shots|, now, SubjectAction))
  {
    if st.proposal.None? || st.shots == [] || brainstorm.Fail? || brainstorm.value == [] || reply.Fail? then st
    else st.(shots := st.shots + Remap(brainstorm.value, reply.value, ExtendPrefix, |st.shots|, now, SubjectAction))
  }

  /** The proposal field that holds the story arc. */
  const ArcField: string := "narrativeArc"

  /** `handleExpandArc`: needs a proposal; a failed call changes nothing.
      Otherwise the new arc replaces the old one and, when frames exist, the
      plot extension runs too, reading the proposal and frames as they were
      before the new arc; a failed extension keeps the new arc. */
  function ExpandArc(st: PlotScript, arc: Reply<string>, brainstorm: Reply<seq<ShotStructure>>,
                     reply: Reply<seq<string>>, now: nat): (r: PlotScript)
    ensures r.requirement == st.requirement
    ensures st.proposal.None? || arc.Fail? ==> r == st
    ensures st.proposal.Some? && arc.Ok? ==>
              r.proposal == Some(UpdateProposalField(st.proposal, ArcField, arc.value))
    ensures st.shots == [] ==> r.shots == []
    ensures |r.shots| >= |st.shots| && r.shots[..|st.shots|] == st.shots
    ensures st.proposal.Some? && arc.Ok? ==> r.shots == Extend(st, brainstorm, reply, now).shots
  {
    if st.proposal.None? then st
    else match arc
      case Fail => st
      case Ok(a) => Extend(st, brainstorm, reply, now).(proposal := Some(UpdateProposalField(st.proposal, ArcField, a)))
  }

  /** Expanding the arc is updating the arc and then extending: that the
      extension read the proposal from before the update changes nothing
      about the frames, which need only that some proposal exists. */
  lemma ExpandArcThenExtend(st: PlotScript, arc: Reply<string>, brainstorm: Reply<seq<ShotStructure>>,
                            reply: Reply<seq<string>>, now: nat)
    requires st.proposal.Some? && arc.Ok?
    ensures ExpandArc(st, arc, brainstorm, reply, now)
            == Extend(st.(proposal := Some(UpdateProposalField(st.proposal, ArcField, arc.value))), brainstorm, reply, now)
  {
  }

  /** The id of plot frame `p`: an initial frame or an extension, stamped with a time. */
  function ScriptId(ext: bool, p: nat, stamp: nat): string
  {
    FrameId(if ext then ExtendPrefix else PlotPrefix, p, stamp)
  }

  /** Frame `p` of a plot script is numbered `p`: the initial frames by
      their index and every extension by the length it was appended at. */
  ghost predicate NumberedByPosition(shots: seq<Shot>)
  {
    forall p :: 0 <= p < |shots| ==> NumberedAt(shots[p].id, p)
  }

  ghost predicate NumberedAt(id: string, p: nat)
  {
    exists ext: bool, stamp: nat :: id == ScriptId(ext, p, stamp)
  }

  /** The initial frames and every extension keep each frame numbered by
      its position. */
  lemma InitialNumbered(st: PlotScript, brainstorm: Reply<seq<ShotStructure>>, reply: Reply<seq<string>>, now: nat)
    requires st.proposal.Some? && brainstorm.Ok? && reply.Ok?
    ensures NumberedByPosition(InitialShots(st, brainstorm, reply, now).shots)
  {
    var r := InitialShots(st, brainstorm, reply, now).shots;
    forall p | 0 <= p < |r| ensures NumberedAt(r[p].id, p) {
      assert r[p].id == ScriptId(false, p, now);
    }
  }

  lemma ExtendNumbered(st: PlotScript, brainstorm: Reply<seq<ShotStructure>>, reply: Reply<seq<string>>, now: nat)
    requires NumberedByPosition(st.shots)
    ensures NumberedByPosition(Extend(st, brainstorm, reply, now).shots)
  {
    var r := Extend(st, brainstorm, reply, now);
    if r != st {
      var n := |st.shots|;
      forall p | 0 <= p < |r.shots| ensures NumberedAt(r.shots[p].id, p) {
        if p < n {
          assert r.shots[p] == st.shots[p];
        } else {
          assert r.shots[p] == r.shots[n..][p - n];
          assert r.shots[p].id == ScriptId(true, p, now);
        }
      }
    }
  }

  /** Frames numbered by position have pairwise different ids, however
      many extensions were made and whatever the clock said. */
  lemma NumberedIdsDistinct(shots: seq<Shot>)
    requires NumberedByPosition(shots)
    ensures forall p, q :: 0 <= p < q < |shots| ==> shots[p].id != shots[q].id
  {
    forall p, q | 0 <= p < q < |shots| ensures shots[p].id != shots[q].id {
      assert NumberedAt(shots[p].id, p) && NumberedAt(shots[q].id, q);
      var e1: bool, s1: nat :| shots[p].id == ScriptId(e1, p, s1);
      var e2: bool, s2: nat :| shots[q].id == ScriptId(e2, q, s2);
      var pre1 := if e1 then ExtendPrefix else PlotPrefix;
      var pre2 := if e2 then ExtendPrefix else PlotPrefix;
      if e1 == e2 {
        NumberedIdsDiffer(pre1, p, q, '-', NatToString(s1), NatToString(s2));
      } else {
        assert FrameId(pre1, p, s1)[0] == pre1[0];
        assert FrameId(pre2, q, s2)[0] == pre2[0];
      }
    }
  }

  /** Proposal fields are edited in place; editing before any proposal
      exists starts one holding just that field (spreading `null`). */
  function UpdateProposalField(p: Option<Proposal>, field: string, value: string): (r: Proposal)
    ensures field in r.fields && r.fields[field] == value
    ensures p.Some? ==> r.environments == p.value.environments && r.keywords == p.value.keywords
    ensures p.Some? ==> forall k :: k in p.value.fields && k != field ==> k in r.fields && r.fields[k] == p.value.fields[k]
    ensures p.None? ==> r.fields.Keys == {field} && r.environments == [] && r.keywords == []
  {
    match p
    case None => Proposal(map[field := value], [], [])
    case Some(q) => q.(fields := q.fields[field := value])
  }

  /** The requirement can be edited until a proposal exists (or while one is being made). */
  predicate RequirementEditable(st: PlotScript, analyzing: bool)
  {
    st.proposal.None? || analyzing
  }

  /** The hand-off button appears once there are frames. */
  predicate CanComplete(st: PlotScript)
  {
    st.shots != []
  }
}

=== FILE: seqs.dfy ===
/** Generic list operations the app's handlers are built from: the
    array `map`/`filter`/`findIndex` patterns of the TypeScript code. */
module Seqs {
  import opened Wrappers

  /** `xs.map(x => p(x) ? f(x) : x)`: update the elements that match. */
  function MapIf<T>(xs: seq<T>, p: T -> bool, f: T -> T): (r: seq<T>)
    ensures |r| == |xs|
    ensures forall i :: 0 <= i < |xs| ==> r[i] == (if p(xs[i]) then f(xs[i]) else xs[i])
  {
    if xs == [] then [] else [if p(xs[0]) then f(xs[0]) else xs[0]] + MapIf(xs[1..], p, f)
  }

  /** `xs.filter(p)`. */
  function Filter<T>(xs: seq<T>, p: T -> bool): (r: seq<T>)
    ensures |r| <= |xs|
    ensures forall i :: 0 <= i < |r| ==> r[i] in xs && p(r[i])
    ensures forall i :: 0 <= i < |xs| && p(xs[i]) ==> xs[i] in r
  {
    if xs == [] then [] else (if p(xs[0]) then [xs[0]] else []) + Filter(xs[1..], p)
  }

  /** Filtering commutes with concatenation, so it keeps the relative order of the kept elements. */
  lemma {:induction false} FilterConcat<T>(a: seq<T>, b: seq<T>, p: T -> bool)
    ensures Filter(a + b, p) == Filter(a, p) + Filter(b, p)
    decreases |a|
  {
    if a == [] {
      assert a + b == b;
    } else {
      assert (a + b)[1..] == a[1..] + b;
      FilterConcat(a[1..], b, p);
    }
  }

  /** Filtering with a predicate every element meets changes nothing. */
  lemma {:induction false} FilterKeepsAll<T>(xs: seq<T>, p: T -> bool)
    requires forall i :: 0 <= i < |xs| ==> p(xs[i])
    ensures Filter(xs, p) == xs
    decreases |xs|
  {
    if xs != [] {
      FilterKeepsAll(xs[1..], p);
    }
  }

  /** Filtering with a predicate no element meets leaves nothing. */
  lemma {:induction false} FilterDropsAll<T>(xs: seq<T>, p: T -> bool)
    requires forall i :: 0 <= i < |xs| ==> !p(xs[i])
    ensures Filter(xs, p) == []
    decreases |xs|
  {
    if xs != [] {
      FilterDropsAll(xs[1..], p);
    }
  }

  /** Filtering a list without repetitions keeps it without repetitions. */
  lemma {:induction false} FilterDistinct<T>(xs: seq<T>, p: T -> bool)
    ensures Distinct(xs) ==> Distinct(Filter(xs, p))
    decreases |xs|
  {
    if xs != [] && Distinct(xs) {
      var rest := Filter(xs[1..], p);
      FilterDistinct(xs[1..], p);
      assert xs[0] !in xs[1..] by {
        forall j | 0 <= j < |xs| - 1 ensures xs[1..][j] != xs[0] {
          assert xs[1..][j] == xs[j + 1];
        }
      }
      assert xs[0] !in rest;
    }
  }

  /** Filtering out the one element that fails `p` gives back the rest. */
  lemma FilterDropOne<T>(a: seq<T>, x: T, b: seq<T>, p: T -> bool)
    requires !p(x)
    requires forall i :: 0 <= i < |a| ==> p(a[i])
    requires forall i :: 0 <= i < |b| ==> p(b[i])
    ensures Filter(a + [x] + b, p) == a + b
  {
    var ax := a + [x];
    FilterConcat(ax, b, p);
    FilterConcat(a, [x], p);
    FilterSingle(x, p);
    FilterKeepsAll(a, p);
    FilterKeepsAll(b, p);
    assert Filter(ax, p) == a;
  }

  lemma FilterSingle<T>(x: T, p: T -> bool)
    ensures Filter([x], p) == if p(x) then [x] else []
  {
    assert [x][1..] == [];
  }

  /** Number of elements meeting `p`. */
  function Count<T>(xs: seq<T>, p: T -> bool): (n: nat)
    ensures n == |Filter(xs, p)|
    ensures n <= |xs|
  {
    if xs == [] then 0 else (if p(xs[0]) then 1 else 0) + Count(xs[1..], p)
  }

  /** A stronger filter keeps strictly fewer elements when some element
      meets the weaker one only. */
  lemma {:induction false} CountStrictlyLess<T>(xs: seq<T>, p: T -> bool, q: T -> bool, k: nat)
    requires forall i :: 0 <= i < |xs| && q(xs[i]) ==> p(xs[i])
    requires k < |xs| && p(xs[k]) && !q(xs[k])
    ensures Count(xs, q) < Count(xs, p)
    decreases |xs|
  {
    CountLessEq(xs[1..], p, q);
    if k > 0 {
      CountStrictlyLess(xs[1..], p, q, k - 1);
    }
  }

  lemma {:induction false} CountLessEq<T>(xs: seq<T>, p: T -> bool, q: T -> bool)
    requires forall i :: 0 <= i < |xs| && q(xs[i]) ==> p(xs[i])
    ensures Count(xs, q) <= Count(xs, p)
    decreases |xs|
  {
    if xs != [] {
      CountLessEq(xs[1..], p, q);
    }
  }

  /** `xs.findIndex(p)`: the first index whose element meets `p`, or `None` for -1. */
  function FindIndex<T>(xs: seq<T>, p: T -> bool): (r: Option<nat>)
    ensures r.Some? ==> r.value < |xs| && p(xs[r.value])
    ensures r.Some? ==> forall j :: 0 <= j < r.value ==> !p(xs[j])
    ensures r.None? <==> forall j :: 0 <= j < |xs| ==> !p(xs[j])
  {
    if xs == [] then None
    else if p(xs[0]) then Some(0)
    else match FindIndex(xs[1..], p)
      case None => None
      case Some(k) => Some(k + 1)
  }

  /** Appending anything after a match does not move the first match. */
  lemma FindIndexPrefix<T>(a: seq<T>, b: seq<T>, p: T -> bool)
    requires FindIndex(a, p).Some?
    ensures FindIndex(a + b, p) == FindIndex(a, p)
  {
    var m := FindIndex(a, p).value;
    assert (a + b)[m] == a[m];
    assert forall j :: 0 <= j < m ==> (a + b)[j] == a[j];
  }

  /** An element right after elements that all fail `p` is the first match when it meets `p`. */
  lemma FindIndexAfterMisses<T>(a: seq<T>, x: T, p: T -> bool)
    requires forall j :: 0 <= j < |a| ==> !p(a[j])
    requires p(x)
    ensures FindIndex(a + [x], p) == Some(|a|)
  {
    assert (a + [x])[|a|] == x;
    assert forall j :: 0 <= j < |a| ==> (a + [x])[j] == a[j];
  }

  /** An index that meets `p` after elements that all fail it is the one `findIndex` returns. */
  lemma FindIndexIsFirst<T>(xs: seq<T>, p: T -> bool, j: nat)
    requires j < |xs| && p(xs[j]) && forall k :: 0 <= k < j ==> !p(xs[k])
    ensures FindIndex(xs, p) == Some(j)
  {
  }

  /** `xs.find(p)`: the first element meeting `p`. */
  function Find<T>(xs: seq<T>, p: T -> bool): (r: Option<T>)
    ensures r.None? <==> forall j :: 0 <= j < |xs| ==> !p(xs[j])
    ensures r.Some? ==> exists j :: 0 <= j < |xs| && xs[j] == r.value && p(xs[j]) &&
                                    forall k :: 0 <= k < j ==> !p(xs[k])
  {
    match FindIndex(xs, p)
    case None => None
    case Some(i) => Some(xs[i])
  }

  /** Appending elements that fail `p` does not change the first match. */
  lemma {:induction false} FindIndexAppendMiss<T>(a: seq<T>, b: seq<T>, p: T -> bool)
    requires forall j :: 0 <= j < |b| ==> !p(b[j])
    ensures FindIndex(a + b, p) == FindIndex(a, p)
    decreases |a|
  {
    if a == [] {
      assert a + b == b;
    } else {
      assert (a + b)[0] == a[0];
      assert (a + b)[1..] == a[1..] + b;
      FindIndexAppendMiss(a[1..], b, p);
    }
  }

  lemma FindAppendMiss<T>(a: seq<T>, b: seq<T>, p: T -> bool)
    requires forall j :: 0 <= j < |b| ==> !p(b[j])
    ensures Find(a + b, p) == Find(a, p)
  {
    FindIndexAppendMiss(a, b, p);
    if FindIndex(a, p).Some? {
      assert (a + b)[FindIndex(a, p).value] == a[FindIndex(a, p).value];
    }
  }

  /** The concatenation of a list of lists. */
  function Flatten<T>(xss: seq<seq<T>>): seq<T>
  {
    if xss == [] then [] else xss[0] + Flatten(xss[1..])
  }

  lemma {:induction false} FlattenConcat<T>(a: seq<seq<T>>, b: seq<seq<T>>)
    ensures Flatten(a + b) == Flatten(a) + Flatten(b)
    decreases |a|
  {
    if a == [] {
      assert a + b == b;
    } else {
      assert (a + b)[1..] == a[1..] + b;
      FlattenConcat(a[1..], b);
    }
  }

  /** No value occurs twice. */
  predicate Distinct<T(==)>(xs: seq<T>)
  {
    forall i, j :: 0 <= i < j < |xs| ==> xs[i] != xs[j]
  }

  /** Two lists without repetitions and without a common element join into one. */
  lemma DistinctConcat<T>(a: seq<T>, b: seq<T>)
    ensures Distinct(a) && Distinct(b) && (forall i, j :: 0 <= i < |a| && 0 <= j < |b| ==> a[i] != b[j]) ==>
              Distinct(a + b)
  {
    if Distinct(a) && Distinct(b) && (forall i, j :: 0 <= i < |a| && 0 <= j < |b| ==> a[i] != b[j]) {
      forall i, j | 0 <= i < j < |a + b| ensures (a + b)[i] != (a + b)[j] {
        if j < |a| {
          assert (a + b)[i] == a[i] && (a + b)[j] == a[j];
        } else if i >= |a| {
          assert (a + b)[i] == b[i - |a|] && (a + b)[j] == b[j - |a|];
        } else {
          assert (a + b)[i] == a[i] && (a + b)[j] == b[j - |a|];
        }
      }
    }
  }

  /** No two elements share a key. */
  predicate DistinctBy<T, K(==)>(xs: seq<T>, key: T -> K)
  {
    forall i, j :: 0 <= i < j < |xs| ==> key(xs[i]) != key(xs[j])
  }

  /** Lists whose elements carry the same keys position by position. */
  lemma SameKeys<T, K>(a: seq<T>, b: seq<T>, key: T -> K)
    requires |a| == |b| && forall i :: 0 <= i < |a| ==> key(a[i]) == key(b[i])
    ensures DistinctBy(a, key) ==> DistinctBy(b, key)
  {
  }

  /** Dropping the elements with key `k` from a list with distinct keys
      keeps the keys distinct and drops at most one element. */
  lemma {:induction false} FilterOutKey<T, K>(xs: seq<T>, key: T -> K, k: K, p: T -> bool)
    requires DistinctBy(xs, key)
    requires forall x :: p(x) <==> key(x) != k
    ensures DistinctBy(Filter(xs, p), key) && |Filter(xs, p)| >= |xs| - 1
    decreases |xs|
  {
    if xs != [] {
      var tail := xs[1..];
      FilterOutKey(tail, key, k, p);
      var rt := Filter(tail, p);
      assert Filter(xs, p) == (if p(xs[0]) then [xs[0]] else []) + rt;
      if !p(xs[0]) {
        forall j | 0 <= j < |tail| ensures p(tail[j]) {
          assert tail[j] == xs[j + 1];
          assert key(xs[0]) != key(xs[j + 1]);
        }
        FilterKeepsAll(tail, p);
      } else {
        forall m | 0 <= m < |rt| ensures key(rt[m]) != key(xs[0]) {
          var j :| 0 <= j < |tail| && tail[j] == rt[m];
          assert key(xs[0]) != key(xs[j + 1]);
        }
      }
    }
  }
}

=== FILE: storefront.dfy ===
/** The storefront designer: a brand logo generated in three variants, one
    of which can anchor every storefront canvas, and a list of canvases,
    each rendered in three variants at its own size. */
module Storefront {
  import opened Wrappers
  import opened Seqs
  import opened Text
  import opened Types
  import opened Gemini

  /** Every generation runs this many requests in parallel. */
  const Variants := 3

  // ---------------------------------------------------------------------
  // Canvases
  // ---------------------------------------------------------------------

  function BlankCanvas(id: string, width: int, height: int): Canvas
  {
    Canvas(id, width, height, None, None, [], false)
  }

  /** A canvas with no reference photo, no renders and no render under way. */
  predicate Untouched(c: Canvas)
  {
    c.reference.None? && c.referencePreview.None? && c.generatedImages == [] && !c.isGenerating
  }

  /** The ids of the canvases, in order. */
  function CanvasIds(canvases: seq<Canvas>): seq<string>
  {
    seq(|canvases|, i requires 0 <= i < |canvases| => canvases[i].id)
  }

  function CanvasId(c: Canvas): string
  {
    c.id
  }

  /** The list the designer keeps: never empty, and no two canvases share an id. */
  predicate WellFormed(canvases: seq<Canvas>)
  {
    |canvases| >= 1 && DistinctBy(canvases, CanvasId)
  }

  /** The designer opens with one square 1600x1600 canvas. */
  function InitialCanvases(): (r: seq<Canvas>)
    ensures |r| == 1 && r[0].id == "sf-1" && r[0].width == 1600 && r[0].height == 1600
    ensures Untouched(r[0])
    ensures WellFormed(r)
  {
    [BlankCanvas("sf-1", 1600, 1600)]
  }

  function StampedId(now: nat): string
  {
    "sf-" + NatToString(now)
  }

  /** Adding a canvas appends a blank 1000x1000 canvas stamped with the clock. */
  function AddCanvas(canvases: seq<Canvas>, now: nat): (r: seq<Canvas>)
    ensures |r| == |canvases| + 1 && r[..|canvases|] == canvases
    ensures r[|canvases|].id == StampedId(now) && Untouched(r[|canvases|])
    ensures r[|canvases|].width == 1000 && r[|canvases|].height == 1000
    ensures WellFormed(canvases) && StampedId(now) !in CanvasIds(canvases) ==> WellFormed(r)
  {
    var r := canvases + [BlankCanvas(StampedId(now), 1000, 1000)];
    assert forall i :: 0 <= i < |canvases| ==> CanvasIds(canvases)[i] == r[i].id;
    r
  }

  function CanvasIs(id: string): Canvas -> bool
  {
    (c: Canvas) => c.id == id
  }

  function CanvasIsNot(id: string): Canvas -> bool
  {
    (c: Canvas) => c.id != id
  }

  /** Removing a canvas drops every canvas with that id, the others keeping
      their order, except that the last remaining canvas cannot be removed. */
  function RemoveCanvas(canvases: seq<Canvas>, id: string): (r: seq<Canvas>)
    ensures |canvases| == 1 ==> r == canvases
    ensures |canvases| != 1 ==> r == Filter(canvases, CanvasIsNot(id))
    ensures |canvases| != 1 ==> forall c :: c in r <==> c in canvases && c.id != id
  {
    if |canvases| == 1 then canvases else Filter(canvases, CanvasIsNot(id))
  }

  /** Removal keeps the list well formed: with distinct ids at most one
      canvas goes, so at least one stays. */
  lemma RemoveKeepsOne(canvases: seq<Canvas>, id: string)
    requires WellFormed(canvases)
    ensures WellFormed(RemoveCanvas(canvases, id))
    ensures |RemoveCanvas(canvases, id)| >= |canvases| - 1
  {
    if |canvases| != 1 {
      FilterOutKey(canvases, CanvasId, id, CanvasIsNot(id));
    }
  }

  /** Removing an id no canvas carries changes nothing. */
  lemma RemoveAbsent(canvases: seq<Canvas>, id: string)
    requires id !in CanvasIds(canvases)
    ensures RemoveCanvas(canvases, id) == canvases
  {
    forall i | 0 <= i < |canvases| ensures CanvasIsNot(id)(canvases[i]) {
      assert CanvasIds(canvases)[i] == canvases[i].id;
    }
    FilterKeepsAll(canvases, CanvasIsNot(id));
  }

  /** The edits the canvas card offers. */
  datatype CanvasEdit =
    | SetWidth(width: int)
    | SetHeight(height: int)
    | SetReference(file: FileRef, preview: string)
    | ClearReference

  function Patch(c: Canvas, e: CanvasEdit): Canvas
  {
    match e
    case SetWidth(w) => c.(width := w)
    case SetHeight(h) => c.(height := h)
    case SetReference(f, p) => c.(reference := Some(f), referencePreview := Some(p))
    case ClearReference => c.(reference := None, referencePreview := None)
  }

  /** An edit changes the canvases with that id and leaves ids, order and
      every other canvas alone. */
  function UpdateCanvas(canvases: seq<Canvas>, id: string, e: CanvasEdit): (r: seq<Canvas>)
    ensures CanvasIds(r) == CanvasIds(canvases)
    ensures forall i :: 0 <= i < |r| && canvases[i].id != id ==> r[i] == canvases[i]
    ensures forall i :: 0 <= i < |r| && canvases[i].id == id ==>
              r[i].generatedImages == canvases[i].generatedImages && r[i].isGenerating == canvases[i].isGenerating
    ensures WellFormed(canvases) ==> WellFormed(r)
    ensures |r| == |canvases|
    ensures forall i :: 0 <= i < |r| && canvases[i].id == id ==>
              match e
              case SetWidth(w) => r[i] == canvases[i].(width := w)
              case SetHeight(h) => r[i] == canvases[i].(height := h)
              case SetReference(f, p) => r[i] == canvases[i].(reference := Some(f), referencePreview := Some(p))
              case ClearReference => r[i] == canvases[i].(reference := None, referencePreview := None)
  {
    var r := MapIf(canvases, CanvasIs(id), (c: Canvas) => Patch(c, e));
    SameIds(canvases, r);
    r
  }

  /** Repeating an edit changes nothing more, and of two size edits of the
      same side the later one is what stays. */
  lemma UpdateCanvasSettles(canvases: seq<Canvas>, id: string, e: CanvasEdit, a: int, b: int)
    ensures UpdateCanvas(UpdateCanvas(canvases, id, e), id, e) == UpdateCanvas(canvases, id, e)
    ensures UpdateCanvas(UpdateCanvas(canvases, id, SetWidth(a)), id, SetWidth(b)) == UpdateCanvas(canvases, id, SetWidth(b))
    ensures UpdateCanvas(UpdateCanvas(canvases, id, SetHeight(a)), id, SetHeight(b)) == UpdateCanvas(canvases, id, SetHeight(b))
  {
    Overwrites(canvases, id, e, e);
    Overwrites(canvases, id, SetWidth(a), SetWidth(b));
    Overwrites(canvases, id, SetHeight(a), SetHeight(b));
  }

  lemma Overwrites(canvases: seq<Canvas>, id: string, first: CanvasEdit, second: CanvasEdit)
    requires first == second || (first.SetWidth? && second.SetWidth?) || (first.SetHeight? && second.SetHeight?)
    ensures UpdateCanvas(UpdateCanvas(canvases, id, first), id, second) == UpdateCanvas(canvases, id, second)
  {
    var once := UpdateCanvas(canvases, id, first);
    var twice := UpdateCanvas(once, id, second);
    var direct := UpdateCanvas(canvases, id, second);
    forall i | 0 <= i < |canvases| ensures twice[i] == direct[i] {
      assert once[i].id == canvases[i].id by {
        assert CanvasIds(once)[i] == CanvasIds(canvases)[i];
      }
    }
  }

  /** Two lists whose canvases carry the same ids position by position. */
  lemma SameIds(a: seq<Canvas>, b: seq<Canvas>)
    requires |a| == |b| && forall i :: 0 <= i < |a| ==> a[i].id == b[i].id
    ensures CanvasIds(a) == CanvasIds(b)
    ensures WellFormed(a) ==> WellFormed(b)
  {
    SameKeys(a, b, CanvasId);
  }

  /** The first canvas with an id sits at the same place in lists with the same ids. */
  lemma FindSameIds(a: seq<Canvas>, b: seq<Canvas>, id: string)
    requires CanvasIds(a) == CanvasIds(b)
    ensures FindIndex(a, CanvasIs(id)) == FindIndex(b, CanvasIs(id))
  {
    assert |a| == |CanvasIds(a)| == |b|;
    forall j | 0 <= j < |a| ensures CanvasIs(id)(a[j]) == CanvasIs(id)(b[j]) {
      assert CanvasIds(a)[j] == CanvasIds(b)[j];
    }
  }

  // ---------------------------------------------------------------------
  // The logo
  // ---------------------------------------------------------------------

  /** The logo panel: an optional reference, the generated variants, and
      the index of the chosen one. */
  datatype Logo = Logo(
    reference: Option<FileRef>,
    preview: Option<string>,
    generated: seq<string>,
    isGenerating: bool,
    selected: Option<nat>)

  function InitialLogo(): (r: Logo)
    ensures r.generated == [] && r.selected.None? && !r.isGenerating && r.reference.None?
  {
    Logo(None, None, [], false, None)
  }

  /** The chosen index, if any, points at a generated variant. */
  predicate SelectionValid(l: Logo)
  {
    l.selected.Some? ==> l.selected.value < |l.generated|
  }

  function SetLogoReference(l: Logo, f: FileRef, preview: string): Logo
  {
    l.(reference := Some(f), preview := Some(preview))
  }

  function ClearLogoReference(l: Logo): Logo
  {
    l.(reference := None, preview := None)
  }

  /** The brand line of the logo brief: the brand name, or "Generic" when empty. */
  function LogoBrand(brand: string): (r: string)
    ensures r != ""
    ensures brand != "" ==> r == brand
  {
    if brand == "" then "Generic" else brand
  }

  /** The parts of each logo request: the brief, then the reference if any. */
  function LogoParts(brand: string, category: string, notes: string, reference: Option<FileRef>): (r: seq<Part>)
    ensures |r| >= 1 && r[0] == Text(LogoDesign(LogoBrand(brand), category, notes))
    ensures |r| == 2 <==> reference.Some?
    ensures reference.Some? ==> r[1] == Image(Upload(reference.value))
    ensures forall i :: 0 <= i < |r| ==> !r[i].Caption?
  {
    [Text(LogoDesign(LogoBrand(brand), category, notes))]
    + (if reference.Some? then [Image(Upload(reference.value))] else [])
  }

  /** The logo button is disabled while a generation is under way. */
  predicate LogoEnabled(l: Logo)
  {
    !l.isGenerating
  }

  function StartLogo(l: Logo): Logo
  {
    l.(isGenerating := true)
  }

  /** The end of a logo generation. All requests answered: the variants
      are replaced by the images they returned and the first is chosen, or
      nothing is chosen when none returned an image. A rejection of any
      request leaves the variants and the choice as they were. */
  function FinishLogo(l: Logo, replies: Reply<seq<Option<InlineData>>>): (r: Logo)
    ensures !r.isGenerating && r.reference == l.reference && r.preview == l.preview
    ensures replies.Fail? ==> r.generated == l.generated && r.selected == l.selected
    ensures replies.Ok? ==> r.generated == ImagesOf(replies.value)
    ensures replies.Ok? ==> (r.selected == Some(0) <==> r.generated != [])
    ensures replies.Ok? ==> (r.selected.None? <==> r.generated == [])
    ensures SelectionValid(l) ==> SelectionValid(r)
  {
    match replies
    case Fail => l.(isGenerating := false)
    case Ok(responses) =>
      var images := ImagesOf(responses);
      l.(generated := images, isGenerating := false, selected := if |images| > 0 then Some(0) else None)
  }

  /** Clicking a variant chooses it; only generated variants have a button. */
  function SelectLogo(l: Logo, i: nat): (r: Logo)
    requires i < |l.generated|
    ensures r.selected == Some(i) && r.generated == l.generated
    ensures SelectionValid(r)
  {
    l.(selected := Some(i))
  }

  /** The logo that anchors canvas renders: the chosen variant when the
      anchor switch is on, a variant is chosen and it is non-empty. */
  function LogoUrl(useLogo: bool, l: Logo): (r: Option<string>)
    ensures r.Some? <==> useLogo && l.selected.Some? && l.selected.value < |l.generated|
                         && l.generated[l.selected.value] != ""
    ensures r.Some? ==> r.value == l.generated[l.selected.value]
  {
    if useLogo && l.selected.Some? && l.selected.value < |l.generated| && l.generated[l.selected.value] != ""
    then Some(l.generated[l.selected.value])
    else None
  }

  /** A logo generation that returns an image makes its first image the
      anchor of every later canvas render, as long as the switch is on. */
  lemma GeneratedLogoAnchors(l: Logo, responses: seq<Option<InlineData>>)
    requires ImagesOf(responses) != []
    ensures LogoUrl(true, FinishLogo(StartLogo(l), Ok(responses))) == Some(ImagesOf(responses)[0])
    ensures LogoUrl(false, FinishLogo(StartLogo(l), Ok(responses))) == None
  {
    var images := ImagesOf(responses);
    assert StartsWith(images[0], "data:");
  }

  /** A generation without a single image leaves no anchor. */
  lemma ImagelessLogoDoesNotAnchor(l: Logo, responses: seq<Option<InlineData>>, useLogo: bool)
    requires forall j :: 0 <= j < |responses| ==> responses[j].None?
    ensures LogoUrl(useLogo, FinishLogo(StartLogo(l), Ok(responses))) == None
  {
  }

  // ---------------------------------------------------------------------
  // Rendering a canvas
  // ---------------------------------------------------------------------

  /** The canvas ratio is decided by comparing the sides alone: square,
      wider than tall, or taller than wide. */
  function CanvasAspect(width: int, height: int): (a: AspectRatio)
    ensures a == Square || a == Wide || a == Tall
    ensures a == Square <==> width == height
    ensures a == Wide <==> width > height
  {
    if width == height then Square else if width > height then Wide else Tall
  }

  /** Swapping the sides of a canvas swaps landscape and portrait. */
  lemma AspectSwap(width: int, height: int)
    ensures CanvasAspect(width, height) == Square <==> CanvasAspect(height, width) == Square
    ensures CanvasAspect(width, height) == Wide <==> CanvasAspect(height, width) == Tall
  {
  }

  datatype Resolution = OneK | TwoK | FourK

  datatype StorefrontRequest = StorefrontRequest(parts: seq<Part>, ratio: AspectRatio, size: Resolution)

  /** The parts of one canvas request: the scene brief, which demands the
      logo whenever one is chosen; the logo with its caption, only when it
      could be fetched; then the canvas reference with its caption. */
  function CanvasParts(c: Canvas, logo: Option<string>, logoFetched: bool): seq<Part>
  {
    [Text(StorefrontScene(c.width, c.height, logo.Some?))]
    + (if logo.Some? && logoFetched then [Caption(BrandLogoAnchor), Image(Fetched(logo.value))] else [])
    + (if c.reference.Some? then [Caption(VisualReference), Image(Upload(c.reference.value))] else [])
  }

  function CanvasRequest(c: Canvas, logo: Option<string>, logoFetched: bool, size: Resolution): StorefrontRequest
  {
    StorefrontRequest(CanvasParts(c, logo, logoFetched), CanvasAspect(c.width, c.height), size)
  }

  /** A canvas request opens with the scene brief, captions every image it
      carries, and its captions are the logo anchor (when attached) then
      the visual reference (when the canvas has one). */
  lemma CanvasPartsShape(c: Canvas, logo: Option<string>, logoFetched: bool)
    ensures CanvasParts(c, logo, logoFetched)[0] == Text(StorefrontScene(c.width, c.height, logo.Some?))
    ensures Captions(CanvasParts(c, logo, logoFetched)) ==
              (if logo.Some? && logoFetched then [BrandLogoAnchor] else [])
              + (if c.reference.Some? then [VisualReference] else [])
    ensures CaptionsPaired(CanvasParts(c, logo, logoFetched))
  {
    var p0: seq<Part> := [Text(StorefrontScene(c.width, c.height, logo.Some?))];
    var p1: seq<Part> := if logo.Some? && logoFetched then [Caption(BrandLogoAnchor), Image(Fetched(logo.value))] else [];
    var p2: seq<Part> := if c.reference.Some? then [Caption(VisualReference), Image(Upload(c.reference.value))] else [];
    assert CanvasParts(c, logo, logoFetched) == p0 + p1 + p2;
    Uncaptioned(p0[0]);
    assert p0 == [p0[0]];
    if logo.Some? && logoFetched {
      CaptionedImage(BrandLogoAnchor, Fetched(logo.value));
    }
    if c.reference.Some? {
      CaptionedImage(VisualReference, Upload(c.reference.value));
    }
    CaptionsConcat(p0, p1);
    CaptionsConcat(p0 + p1, p2);
    PairedConcat(p0, p1);
    PairedConcat(p0 + p1, p2);
  }

  /** The render button of a canvas is disabled while it renders. */
  predicate CanvasEnabled(c: Canvas)
  {
    !c.isGenerating
  }

  /** Starting a render marks the canvas busy; a canvas that is missing or
      already busy is not started. */
  function StartCanvas(canvases: seq<Canvas>, id: string): (r: Option<seq<Canvas>>)
    ensures r.None? <==> id !in CanvasIds(canvases) || canvases[FindIndex(canvases, CanvasIs(id)).value].isGenerating
    ensures r.Some? ==> CanvasIds(r.value) == CanvasIds(canvases)
    ensures r.Some? ==> forall i :: 0 <= i < |canvases| && canvases[i].id != id ==> r.value[i] == canvases[i]
    ensures r.Some? ==> forall i :: 0 <= i < |canvases| && canvases[i].id == id ==>
              r.value[i].isGenerating && r.value[i].(isGenerating := canvases[i].isGenerating) == canvases[i]
  {
    assert id in CanvasIds(canvases) <==> FindIndex(canvases, CanvasIs(id)).Some? by {
      if id in CanvasIds(canvases) {
        var j :| 0 <= j < |canvases| && CanvasIds(canvases)[j] == id;
        assert CanvasIs(id)(canvases[j]);
      }
      if FindIndex(canvases, CanvasIs(id)).Some? {
        var j := FindIndex(canvases, CanvasIs(id)).value;
        assert CanvasIds(canvases)[j] == id;
      }
    }
    match FindIndex(canvases, CanvasIs(id))
    case None => None
    case Some(k) =>
      if canvases[k].isGenerating then None
      else
        var r := MapIf(canvases, CanvasIs(id), (x: Canvas) => x.(isGenerating := true));
        SameIds(canvases, r);
        Some(r)
  }

  /** The end of a canvas render: all requests answered replaces the
      canvas's images with those they returned; a rejection keeps the old
      images. Either way the canvas is no longer busy. */
  function FinishCanvas(canvases: seq<Canvas>, id: string, replies: Reply<seq<Option<InlineData>>>): (r: seq<Canvas>)
    ensures CanvasIds(r) == CanvasIds(canvases)
    ensures forall i :: 0 <= i < |r| && canvases[i].id != id ==> r[i] == canvases[i]
    ensures forall i :: 0 <= i < |r| && canvases[i].id == id ==>
              !r[i].isGenerating
              && r[i].(isGenerating := canvases[i].isGenerating, generatedImages := canvases[i].generatedImages) == canvases[i]
              && r[i].generatedImages == (if replies.Ok? then ImagesOf(replies.value) else canvases[i].generatedImages)
  {
    var r := match replies
      case Ok(responses) => MapIf(canvases, CanvasIs(id), (x: Canvas) => x.(generatedImages := ImagesOf(responses), isGenerating := false))
      case Fail => MapIf(canvases, CanvasIs(id), (x: Canvas) => x.(isGenerating := false));
    SameIds(canvases, r);
    r
  }

  /** While a canvas renders a second start is refused, and the finish
      frees it again. */
  lemma RenderIsExclusive(canvases: seq<Canvas>, id: string, replies: Reply<seq<Option<InlineData>>>)
    requires StartCanvas(canvases, id).Some?
    ensures StartCanvas(StartCanvas(canvases, id).value, id).None?
    ensures StartCanvas(FinishCanvas(StartCanvas(canvases, id).value, id, replies), id).Some?
  {
    var started := StartCanvas(canvases, id).value;
    var k := FindIndex(canvases, CanvasIs(id)).value;
    FindSameIds(canvases, started, id);
    assert started[k].isGenerating;
    var done := FinishCanvas(started, id, replies);
    FindSameIds(started, done, id);
    assert !done[k].isGenerating;
  }
}

=== FILE: storyboard.dfy ===
/** The storyboard screen: frames grouped by scene, rendered one by one
    with retries or in batches, edited, extended with in-between frames
    and deleted. */
module Storyboard {
  import opened Wrappers
  import opened Seqs
  import opened Text
  import opened Types
  import opened Gemini
  import opened Batch
  import opened ObjectKeys

  // ---------------------------------------------------------------------
  // Frame lookup and updates
  // ---------------------------------------------------------------------

  function IdIs(id: string): Shot -> bool
  {
    (s: Shot) => s.id == id
  }

  function IdIsNot(id: string): Shot -> bool
  {
    (s: Shot) => s.id != id
  }

  /** `shots.findIndex((s: Shot) => s.id === id)`. */
  function IndexOf(shots: seq<Shot>, id: string): Option<nat>
  {
    FindIndex(shots, IdIs(id))
  }

  function Ids(shots: seq<Shot>): (r: seq<string>)
    ensures |r| == |shots|
    ensures forall i :: 0 <= i < |shots| ==> r[i] == shots[i].id
  {
    if shots == [] then [] else [shots[0].id] + Ids(shots[1..])
  }

  /** Plot mode is on when a non-empty roster is passed in. */
  predicate PlotMode(chars: seq<Character>)
  {
    chars != []
  }

  /** `productImages[0] || null`: the product photo sent with every frame. */
  function FirstImage(images: seq<FileRef>): (r: Option<FileRef>)
    ensures r.Some? <==> images != []
    ensures r.Some? ==> r.value == images[0]
  {
    if images == [] then None else Some(images[0])
  }

  // ---------------------------------------------------------------------
  // Scene grouping
  // ---------------------------------------------------------------------

  /** `s.sceneId || 'default'`. */
  function SceneKey(s: Shot): string
  {
    if Has(s.sceneId) then s.sceneId.value else "default"
  }

  function InScene(key: string): Shot -> bool
  {
    (s: Shot) => SceneKey(s) == key
  }

  /** The frames of one scene, pushed in storyboard order. */
  function Members(shots: seq<Shot>, key: string): (r: seq<Shot>)
    ensures forall i :: 0 <= i < |r| ==> SceneKey(r[i]) == key && r[i] in shots
    ensures forall i :: 0 <= i < |shots| && SceneKey(shots[i]) == key ==> shots[i] in r
  {
    if shots == [] then []
    else (if SceneKey(shots[0]) == key then [shots[0]] else []) + Members(shots[1..], key)
  }

  /** The group the loop builds is the scene filter of the storyboard, so
      its frames keep their storyboard order. */
  lemma {:induction false} MembersInOrder(shots: seq<Shot>, key: string)
    ensures Members(shots, key) == Filter(shots, InScene(key))
    decreases |shots|
  {
    if shots != [] {
      MembersInOrder(shots[1..], key);
    }
  }

  /** The scene keys in the order the grouping loop creates them: the
      order of first appearance. */
  function FirstAppearance(shots: seq<Shot>): (r: seq<string>)
    ensures Distinct(r)
    ensures forall i :: 0 <= i < |shots| ==> SceneKey(shots[i]) in r
    ensures forall k :: 0 <= k < |r| ==> exists i :: 0 <= i < |shots| && SceneKey(shots[i]) == r[k]
    decreases |shots|
  {
    if shots == [] then []
    else
      var ks := FirstAppearance(shots[..|shots| - 1]);
      var key := SceneKey(shots[|shots| - 1]);
      assert forall i :: 0 <= i < |shots| - 1 ==> shots[i] == shots[..|shots| - 1][i];
      if key in ks then ks else ks + [key]
  }

  /** Where a scene first shows up in the storyboard. */
  function FirstFrame(shots: seq<Shot>, key: string): Option<nat>
  {
    FindIndex(shots, InScene(key))
  }

  /** Every listed key has a first frame. */
  lemma FirstFramesExist(shots: seq<Shot>)
    ensures forall k :: 0 <= k < |FirstAppearance(shots)| ==> FirstFrame(shots, FirstAppearance(shots)[k]).Some?
  {
    var r := FirstAppearance(shots);
    forall k | 0 <= k < |r| ensures FirstFrame(shots, r[k]).Some? {
      var i :| 0 <= i < |shots| && SceneKey(shots[i]) == r[k];
      assert InScene(r[k])(shots[i]);
    }
  }

  /** The keys are listed in the order of their first frames. */
  lemma {:induction false} FirstAppearanceOrder(shots: seq<Shot>)
    ensures forall k :: 0 <= k < |FirstAppearance(shots)| ==> FirstFrame(shots, FirstAppearance(shots)[k]).Some?
    ensures forall a, b :: 0 <= a < b < |FirstAppearance(shots)| ==>
              FirstFrame(shots, FirstAppearance(shots)[a]).value < FirstFrame(shots, FirstAppearance(shots)[b]).value
    decreases |shots|
  {
    FirstFramesExist(shots);
    if shots != [] {
      var init := shots[..|shots| - 1];
      var last := shots[|shots| - 1];
      assert shots == init + [last];
      FirstAppearanceOrder(init);
      OrderStep(init, last);
    }
  }

  /** One more frame keeps the keys in the order of their first frames. */
  lemma OrderStep(init: seq<Shot>, last: Shot)
    requires forall k :: 0 <= k < |FirstAppearance(init)| ==> FirstFrame(init, FirstAppearance(init)[k]).Some?
    requires forall a, b :: 0 <= a < b < |FirstAppearance(init)| ==>
               FirstFrame(init, FirstAppearance(init)[a]).value < FirstFrame(init, FirstAppearance(init)[b]).value
    ensures forall a, b :: 0 <= a < b < |FirstAppearance(init + [last])| ==>
              FirstFrame(init + [last], FirstAppearance(init + [last])[a]).value
              < FirstFrame(init + [last], FirstAppearance(init + [last])[b]).value
  {
    var shots := init + [last];
    assert shots[..|shots| - 1] == init;
    var ks := FirstAppearance(init);
    var r := FirstAppearance(shots);
    KeepFirstFrames(init, last, ks);
    FirstFramesExist(shots);
    if SceneKey(last) in ks {
      assert r == ks;
    } else {
      NewSceneFirstFrame(init, last, ks);
      assert r == ks + [SceneKey(last)];
      OrderedSnoc(shots, ks, SceneKey(last));
    }
  }

  /** Adding a frame moves no scene's first frame. */
  lemma KeepFirstFrames(init: seq<Shot>, last: Shot, ks: seq<string>)
    requires forall k :: 0 <= k < |ks| ==> FirstFrame(init, ks[k]).Some?
    ensures forall k :: 0 <= k < |ks| ==> FirstFrame(init + [last], ks[k]) == FirstFrame(init, ks[k])
  {
    forall k | 0 <= k < |ks| ensures FirstFrame(init + [last], ks[k]) == FirstFrame(init, ks[k]) {
      FindIndexPrefix(init, [last], InScene(ks[k]));
    }
  }

  /** A key whose first frame comes after those of the listed keys can be
      listed last. */
  lemma OrderedSnoc(shots: seq<Shot>, ks: seq<string>, key: string)
    requires forall k :: 0 <= k < |ks| ==> FirstFrame(shots, ks[k]).Some?
    requires forall a, b :: 0 <= a < b < |ks| ==> FirstFrame(shots, ks[a]).value < FirstFrame(shots, ks[b]).value
    requires FirstFrame(shots, key).Some?
    requires forall k :: 0 <= k < |ks| ==> FirstFrame(shots, ks[k]).value < FirstFrame(shots, key).value
    ensures forall a, b :: 0 <= a < b < |ks + [key]| ==>
              FirstFrame(shots, (ks + [key])[a]).value < FirstFrame(shots, (ks + [key])[b]).value
  {
    var r := ks + [key];
    forall a, b | 0 <= a < b < |r|
      ensures FirstFrame(shots, r[a]).value < FirstFrame(shots, r[b]).value
    {
      if b < |ks| {
        assert r[a] == ks[a] && r[b] == ks[b];
      } else {
        assert r[a] == ks[a];
      }
    }
  }

  /** A frame whose scene no earlier frame has is that scene's first frame. */
  lemma NewSceneFirstFrame(init: seq<Shot>, last: Shot, ks: seq<string>)
    requires forall i :: 0 <= i < |init| ==> SceneKey(init[i]) in ks
    requires SceneKey(last) !in ks
    ensures FirstFrame(init + [last], SceneKey(last)) == Some(|init|)
  {
    forall j | 0 <= j < |init| ensures !InScene(SceneKey(last))(init[j]) {
      assert SceneKey(init[j]) in ks;
    }
    FindIndexAfterMisses(init, last, InScene(SceneKey(last)));
  }

  /** The scene keys in the order `Object.entries` lists the `groups`
      record: the keys that are array indices ("1", "2", ...) first and in
      ascending numeric order, then the other keys ("default", "scene-a",
      ...) in order of first appearance. */
  function SceneKeys(shots: seq<Shot>): (r: seq<string>)
    ensures Distinct(r)
    ensures forall i :: 0 <= i < |shots| ==> SceneKey(shots[i]) in r
    ensures forall k :: 0 <= k < |r| ==> exists i :: 0 <= i < |shots| && SceneKey(shots[i]) == r[k]
  {
    var created := FirstAppearance(shots);
    var r := OwnKeys(created);
    assert forall k :: 0 <= k < |r| ==> r[k] in created;
    r
  }

  /** The order of the scene keys: numbered scenes ascending ahead of all
      others, and the others in order of first appearance. */
  lemma SceneKeysOrder(shots: seq<Shot>)
    ensures var r := SceneKeys(shots);
            forall a, b :: 0 <= a < b < |r| && IsArrayIndex(r[b]) ==>
              IsArrayIndex(r[a]) && IndexValue(r[a]) < IndexValue(r[b])
    ensures Filter(SceneKeys(shots), NotIndexFn()) == Filter(FirstAppearance(shots), NotIndexFn())
  {
    OwnKeysAscending(FirstAppearance(shots));
    OwnKeysOrder(FirstAppearance(shots));
  }

  /** A scene with id "2" followed by one with id "1" is shown "1" first,
      and an unnamed scene comes after a numbered one whatever the
      storyboard order. */
  lemma SceneKeysExamples(s: ShotStructure)
    ensures var two := Shot(s, "a", "", None, false, None, Some("2"), None);
            var one := Shot(s, "b", "", None, false, None, Some("1"), None);
            var unnamed := Shot(s, "c", "", None, false, None, None, None);
            SceneKeys([two, one]) == ["1", "2"] && SceneKeys([unnamed, one]) == ["1", "default"]
  {
    var two := Shot(s, "a", "", None, false, None, Some("2"), None);
    var one := Shot(s, "b", "", None, false, None, Some("1"), None);
    var unnamed := Shot(s, "c", "", None, false, None, None, None);
    FirstAppearanceOfTwo(two, one);
    FirstAppearanceOfTwo(unnamed, one);
    OwnKeysNumbersAscend();
    OwnKeysNumbersFirst();
  }

  lemma FirstAppearanceOfTwo(a: Shot, b: Shot)
    requires SceneKey(a) != SceneKey(b)
    ensures FirstAppearance([a, b]) == [SceneKey(a), SceneKey(b)]
  {
    assert [a, b][..1] == [a] && [a][..0] == [];
    assert FirstAppearance([a]) == [SceneKey(a)];
    assert SceneKey(b) !in [SceneKey(a)];
  }

  /** `groupedShots`: one group per scene key, in `Object.entries` order. */
  function Groups(shots: seq<Shot>): (r: seq<(string, seq<Shot>)>)
    ensures |r| == |SceneKeys(shots)|
    ensures forall k :: 0 <= k < |r| ==> r[k] == (SceneKeys(shots)[k], Members(shots, SceneKeys(shots)[k]))
  {
    var keys := SceneKeys(shots);
    seq(|keys|, k requires 0 <= k < |keys| => (keys[k], Members(shots, keys[k])))
  }

  /** The total size of the groups of the given keys. */
  function GroupSizes(shots: seq<Shot>, keys: seq<string>): nat
  {
    if keys == [] then 0 else |Members(shots, keys[0])| + GroupSizes(shots, keys[1..])
  }

  function Occurrences(keys: seq<string>, key: string): nat
  {
    if keys == [] then 0 else (if keys[0] == key then 1 else 0) + Occurrences(keys[1..], key)
  }

  lemma {:induction false} OccursOnce(keys: seq<string>, key: string)
    requires Distinct(keys) && key in keys
    ensures Occurrences(keys, key) == 1
    decreases |keys|
  {
    if keys[0] == key {
      OccursNever(keys[1..], key);
    } else {
      OccursOnce(keys[1..], key);
    }
  }

  lemma {:induction false} OccursNever(keys: seq<string>, key: string)
    requires key !in keys
    ensures Occurrences(keys, key) == 0
    decreases |keys|
  {
    if keys != [] {
      OccursNever(keys[1..], key);
    }
  }

  /** Adding one frame at the front grows exactly the group of its scene. */
  lemma {:induction false} GroupSizesCons(x: Shot, rest: seq<Shot>, keys: seq<string>)
    ensures GroupSizes([x] + rest, keys) == GroupSizes(rest, keys) + Occurrences(keys, SceneKey(x))
    decreases |keys|
  {
    assert ([x] + rest)[0] == x;
    assert ([x] + rest)[1..] == rest;
    if keys != [] {
      GroupSizesCons(x, rest, keys[1..]);
    }
  }

  lemma {:induction false} GroupSizesTotal(shots: seq<Shot>, keys: seq<string>)
    requires Distinct(keys)
    requires forall i :: 0 <= i < |shots| ==> SceneKey(shots[i]) in keys
    ensures GroupSizes(shots, keys) == |shots|
    decreases |shots|
  {
    if shots == [] {
      GroupSizesEmpty(keys);
    } else {
      assert shots == [shots[0]] + shots[1..];
      GroupSizesTotal(shots[1..], keys);
      GroupSizesCons(shots[0], shots[1..], keys);
      OccursOnce(keys, SceneKey(shots[0]));
    }
  }

  lemma {:induction false} GroupSizesEmpty(keys: seq<string>)
    ensures GroupSizes([], keys) == 0
    decreases |keys|
  {
    if keys != [] {
      GroupSizesEmpty(keys[1..]);
    }
  }

  /** Frame `s` is in the group of its scene. */
  predicate InItsGroup(shots: seq<Shot>, s: Shot)
  {
    exists k :: 0 <= k < |Groups(shots)| && Groups(shots)[k].0 == SceneKey(s) && s in Groups(shots)[k].1
  }

  /** The scene groups partition the storyboard: every frame lies in the
      group of its scene and the group sizes add up to the number of
      frames, so no frame is shown twice or dropped. */
  lemma {:induction false} GroupsPartition(shots: seq<Shot>)
    ensures GroupSizes(shots, SceneKeys(shots)) == |shots|
    ensures forall i :: 0 <= i < |shots| ==>
              InItsGroup(shots, shots[i])
  {
    var keys := SceneKeys(shots);
    assert Distinct(keys) && forall i :: 0 <= i < |shots| ==> SceneKey(shots[i]) in keys;
    GroupSizesTotal(shots, keys);
    EveryFrameGrouped(shots);
  }

  lemma {:induction false} EveryFrameGrouped(shots: seq<Shot>)
    ensures forall i :: 0 <= i < |shots| ==>
              InItsGroup(shots, shots[i])
  {
    var keys := SceneKeys(shots);
    forall i | 0 <= i < |shots|
      ensures InItsGroup(shots, shots[i])
    {
      var k :| 0 <= k < |keys| && keys[k] == SceneKey(shots[i]);
      assert Groups(shots)[k] == (keys[k], Members(shots, keys[k]));
      assert shots[i] in Members(shots, keys[k]);
    }
  }

  /** Each group is non-empty and holds exactly the frames of its scene, in
      storyboard order. */
  lemma {:induction false} GroupsInOrder(shots: seq<Shot>)
    ensures forall k :: 0 <= k < |Groups(shots)| ==>
              Groups(shots)[k].1 != [] && Groups(shots)[k].1 == Filter(shots, InScene(Groups(shots)[k].0))
  {
    var keys := SceneKeys(shots);
    var g := Groups(shots);
    assert |g| == |keys|;
    forall k | 0 <= k < |g|
      ensures g[k].1 != [] && g[k].1 == Filter(shots, InScene(g[k].0))
    {
      assert g[k] == (keys[k], Members(shots, keys[k]));
      var i :| 0 <= i < |shots| && SceneKey(shots[i]) == keys[k];
      assert shots[i] in Members(shots, keys[k]);
      MembersInOrder(shots, keys[k]);
    }
  }

  // ---------------------------------------------------------------------
  // Rendering one frame
  // ---------------------------------------------------------------------

  /** The previous-frame reference of frame `idx`: an explicit one wins;
      otherwise, in plot mode, the image of the frame right before it in the
      whole storyboard, provided that frame has the same scene id and an image. */
  function PreviousFrame(shots: seq<Shot>, idx: nat, custom: Option<string>, plot: bool): (r: Option<string>)
    requires idx < |shots|
    ensures Has(custom) ==> r == custom
    ensures !Has(custom) ==>
              (r != custom <==> plot && idx > 0 && shots[idx - 1].sceneId == shots[idx].sceneId
                                && Has(shots[idx - 1].generatedImageUrl))
    ensures r != custom ==> idx > 0 && r == shots[idx - 1].generatedImageUrl
  {
    if plot && idx > 0 && !Has(custom) && shots[idx - 1].sceneId == shots[idx].sceneId
       && Has(shots[idx - 1].generatedImageUrl)
    then shots[idx - 1].generatedImageUrl
    else custom
  }

  /** The continuity reference is not the scene predecessor: with scenes
      A, B, A, the second frame of scene A gets nothing from the first one,
      because the frame right before it belongs to scene B. */
  lemma ContinuitySkipsInterleavedScene(s: ShotStructure)
    ensures var a := Shot(s, "a1", "", Some("data:image/png;base64,x"), false, None, Some("A"), None);
            var b := Shot(s, "b1", "", None, false, None, Some("B"), None);
            var c := Shot(s, "a2", "", None, false, None, Some("A"), None);
            PreviousFrame([a, b, c], 2, None, true).None?
  {
  }

  /** A frame is tried once and retried at most twice. */
  const Retries: nat := 2
  /** The wait before each retry; the model counts the waits. */
  const RetryPauseMs: nat := 1000
  /** The pause after each frame of a scene render. */
  const SceneFramePauseMs: nat := 1000

  /** An attempt counts only when it yields a non-empty image URL. */
  predicate Succeeds(r: Reply<string>)
  {
    r.Ok? && r.value != ""
  }

  /** The answer to attempt `k`; attempts beyond the supplied answers fail. */
  function Answer(replies: seq<Reply<string>>, k: nat): Reply<string>
  {
    if k < |replies| then replies[k] else Fail
  }

  /** The answers of the attempts the retry loop may make. */
  function Tries(replies: seq<Reply<string>>): (r: seq<Reply<string>>)
    ensures |r| == Retries + 1
    ensures forall k :: 0 <= k < |r| ==> r[k] == Answer(replies, k)
  {
    seq(Retries + 1, k requires 0 <= k => Answer(replies, k))
  }

  /** The attempt whose answer is used: the first of the `Retries + 1`
      attempts that succeeds. Every attempt before it failed (only a failure
      is retried), and there is none exactly when all attempts fail. */
  function FirstSuccess(replies: seq<Reply<string>>): (r: Option<nat>)
    ensures r.Some? ==> r.value <= Retries && Succeeds(Answer(replies, r.value))
    ensures r.Some? ==> forall j :: 0 <= j < r.value ==> !Succeeds(Answer(replies, j))
    ensures r.None? <==> forall k :: 0 <= k <= Retries ==> !Succeeds(Answer(replies, k))
  {
    FindIndex(Tries(replies), Succeeds)
  }

  function Finish(url: string): Shot -> Shot
  {
    (s: Shot) => s.(isGenerating := false, generatedImageUrl := Some(url))
  }

  function Stop(): Shot -> Shot
  {
    (s: Shot) => s.(isGenerating := false)
  }

  /** `generateImageForShot`: render the frame with id `id`, trying
      `Retries + 1` times with a pause between attempts. `replies[k]` is the
      answer to attempt `k`. Returns the frames afterwards, the image URL
      ("" when the frame is unknown or every attempt failed), the request
      every attempt sends, the number of attempts and of pauses. */
  method GenerateImageForShot(shots: seq<Shot>, id: string, custom: Option<string>,
                              productImages: seq<FileRef>, chars: seq<Character>,
                              replies: seq<Reply<string>>)
    returns (after: seq<Shot>, url: string, request: seq<Part>, attempts: nat, waits: nat)
    ensures IndexOf(shots, id).None? ==> after == shots && url == "" && attempts == 0 && waits == 0
    ensures IndexOf(shots, id).Some? ==>
              var i := IndexOf(shots, id).value;
              request == FrameParts(shots[i].finalPrompt, FirstImage(productImages), chars,
                                    PreviousFrame(shots, i, custom, PlotMode(chars)), None)
    ensures IndexOf(shots, id).Some? && FirstSuccess(replies).Some? ==>
              var k := FirstSuccess(replies).value;
              attempts == k + 1 && waits == k && url == replies[k].value && url != ""
              && after == MapIf(shots, IdIs(id), Finish(url))
    ensures IndexOf(shots, id).Some? && FirstSuccess(replies).None? ==>
              attempts == Retries + 1 && waits == Retries && url == ""
              && after == MapIf(shots, IdIs(id), Stop())
              && forall k :: 0 <= k <= Retries ==> !Succeeds(Answer(replies, k))
  {
    var found := IndexOf(shots, id);
    if found.None? {
      return shots, "", [], 0, 0;
    }
    var i := found.value;
    var prev := PreviousFrame(shots, i, custom, PlotMode(chars));
    request := FrameParts(shots[i].finalPrompt, FirstImage(productImages), chars, prev, None);
    var attempt: nat := 0;
    waits := 0;
    while attempt <= Retries
      invariant attempt <= Retries + 1
      invariant waits == if attempt == Retries + 1 then Retries else attempt
      invariant forall j :: 0 <= j < attempt ==> !Succeeds(Answer(replies, j))
      decreases Retries + 1 - attempt
    {
      var reply := Answer(replies, attempt);
      if Succeeds(reply) {
        assert Tries(replies)[attempt] == reply;
        return MapIf(shots, IdIs(id), Finish(reply.value)), reply.value, request, attempt + 1, waits;
      }
      attempt := attempt + 1;
      if attempt <= Retries {
        waits := waits + 1;
      }
    }
    assert forall j :: 0 <= j < |Tries(replies)| ==> !Succeeds(Tries(replies)[j]);
    after, url, attempts := MapIf(shots, IdIs(id), Stop()), "", attempt;
  }

  /** A storyboard render request never carries an environment anchor:
      this screen does not pass an environment image. */
  lemma StoryboardOmitsEnvironment(scene: string, reference: Option<FileRef>, chars: seq<Character>,
                                   prev: Option<string>)
    ensures EnvironmentAnchor !in Captions(FrameParts(scene, reference, chars, prev, None))
  {
    FramePartsShape(scene, reference, chars, prev, None);
    IdentityLabelsAreIdentities(chars);
  }

  lemma {:induction false} IdentityLabelsAreIdentities(chars: seq<Character>)
    ensures forall i :: 0 <= i < |IdentityLabels(chars)| ==> IdentityLabels(chars)[i].CharacterIdentity?
    decreases |chars|
  {
    if chars != [] {
      IdentityLabelsAreIdentities(chars[1..]);
    }
  }

  // ---------------------------------------------------------------------
  // Editing
  // ---------------------------------------------------------------------

  /** `handleEditSave`: the frame being edited takes the new image. */
  function EditSave(shots: seq<Shot>, editing: Option<Shot>, newUrl: string): (r: seq<Shot>)
    ensures editing.None? ==> r == shots
    ensures |r| == |shots|
    ensures editing.Some? ==> forall i :: 0 <= i < |shots| ==>
              r[i] == if shots[i].id == editing.value.id then shots[i].(generatedImageUrl := Some(newUrl)) else shots[i]
  {
    if editing.None? then shots
    else MapIf(shots, IdIs(editing.value.id), (s: Shot) => s.(generatedImageUrl := Some(newUrl)))
  }

  /** Saving an edit keeps the frame list (ids, order, prompts) and saving
      the same image twice is the same as saving it once. */
  lemma EditSaveKeepsFrames(shots: seq<Shot>, editing: Option<Shot>, newUrl: string)
    ensures Ids(EditSave(shots, editing, newUrl)) == Ids(shots)
    ensures forall i :: 0 <= i < |shots| ==> EditSave(shots, editing, newUrl)[i].finalPrompt == shots[i].finalPrompt
    ensures EditSave(EditSave(shots, editing, newUrl), editing, newUrl) == EditSave(shots, editing, newUrl)
  {
    EditSaveKeepsIds(shots, editing, newUrl);
    EditSaveTwice(shots, editing, newUrl);
  }

  lemma EditSaveKeepsIds(shots: seq<Shot>, editing: Option<Shot>, newUrl: string)
    ensures Ids(EditSave(shots, editing, newUrl)) == Ids(shots)
  {
    var r := EditSave(shots, editing, newUrl);
    var ids, ids0 := Ids(r), Ids(shots);
    forall i | 0 <= i < |ids| ensures ids[i] == ids0[i] {
      assert ids[i] == r[i].id;
    }
  }

  lemma EditSaveTwice(shots: seq<Shot>, editing: Option<Shot>, newUrl: string)
    ensures EditSave(EditSave(shots, editing, newUrl), editing, newUrl) == EditSave(shots, editing, newUrl)
  {
    if editing.Some? {
      var r := EditSave(shots, editing, newUrl);
      var rr := EditSave(r, editing, newUrl);
      forall i | 0 <= i < |r| ensures rr[i] == r[i] {
        assert r[i].id == shots[i].id;
      }
    }
  }

  /** The edit request of the refiner: none unless there is an instruction
      and an image to edit; the mask goes along in brush mode. */
  function RefineRequest(shot: Shot, instruction: string, mask: Option<string>): (r: Option<seq<Part>>)
    ensures r.Some? <==> instruction != "" && Has(shot.generatedImageUrl)
    ensures r.Some? ==> |r.value| >= 2 && r.value[0] == Image(Fetched(shot.generatedImageUrl.value))
                        && r.value[1] == Text(EditFrame(instruction))
    ensures r.Some? ==> (|r.value| == 3 <==> Has(mask))
  {
    if instruction == "" || !Has(shot.generatedImageUrl) then None
    else Some(EditFrameParts(shot.generatedImageUrl.value, instruction, mask))
  }

  /** `handleRefine`: the edited image replaces the frame's image only when
      the request was made and came back with a non-empty URL. */
  function Refine(shots: seq<Shot>, editing: Shot, instruction: string, reply: Reply<string>): (r: seq<Shot>)
    ensures r != shots ==> instruction != "" && Has(editing.generatedImageUrl) && Succeeds(reply)
    ensures instruction != "" && Has(editing.generatedImageUrl) && Succeeds(reply) ==>
              r == EditSave(shots, Some(editing), reply.value)
  {
    if RefineRequest(editing, instruction, None).None? then shots
    else if Succeeds(reply) then EditSave(shots, Some(editing), reply.value)
    else shots
  }

  /** The prompt field of one frame edited in place. */
  function UpdatePrompt(shots: seq<Shot>, id: string, text: string): (r: seq<Shot>)
    ensures Ids(r) == Ids(shots)
    ensures forall i :: 0 <= i < |shots| ==>
              r[i].finalPrompt == (if shots[i].id == id then text else shots[i].finalPrompt)
              && r[i].generatedImageUrl == shots[i].generatedImageUrl
    ensures |r| == |shots| && forall i :: 0 <= i < |shots| ==>
              r[i] == (if shots[i].id == id then shots[i].(finalPrompt := text) else shots[i])
  {
    MapIf(shots, IdIs(id), (s: Shot) => s.(finalPrompt := text))
  }

  /** The last edit of a frame's prompt is the one that stays, and writing
      back the prompt every frame with that id already has changes nothing. */
  lemma UpdatePromptLastWins(shots: seq<Shot>, id: string, first: string, second: string)
    ensures UpdatePrompt(UpdatePrompt(shots, id, first), id, second) == UpdatePrompt(shots, id, second)
    ensures (forall i :: 0 <= i < |shots| && shots[i].id == id ==> shots[i].finalPrompt == first) ==>
              UpdatePrompt(shots, id, first) == shots
  {
  }

  // ---------------------------------------------------------------------
  // In-between frames and deletion
  // ---------------------------------------------------------------------

  function InBetweenAction(action: string): string
  {
    "[过渡/补充] " + Head(action, 15) + "..."
  }

  /** The render prompt of an inserted frame: a transition towards the next
      frame, or a continuation when there is none. */
  function TransitionPrompt(current: string, next: Option<string>): string
  {
    match next
    case Some(n) =>
      "A smooth transition frame between \"" + current + "\" and \"" + n
      + "\". Maintain character pose continuity and lighting. Cinematic flow."
    case None =>
      "An additional following frame for \"" + current
      + "\", showing a slight progression in motion or emotion."
  }

  function InBetweenId(now: nat): string
  {
    "inbetween-" + NatToString(now)
  }

  /** The inserted frame: a copy of its anchor under a time-stamped id, with
      the anchor's action shortened under a transition marker, a prompt
      that leads to the next frame's action (or continues the anchor's when
      it is the last), and no image. */
  function InBetweenShot(current: Shot, next: Option<Shot>, now: nat): (r: Shot)
    ensures r.sceneId == current.sceneId && r.sceneTitle == current.sceneTitle
    ensures r.id == InBetweenId(now) && r.generatedImageUrl.None? && !r.isGenerating
    ensures r.structure.subjectAction == "[过渡/补充] " + Head(current.structure.subjectAction, 15) + "..."
    ensures r.structure.(subjectAction := current.structure.subjectAction) == current.structure
    ensures next.Some? ==> r.finalPrompt == TransitionPrompt(current.structure.subjectAction, Some(next.value.structure.subjectAction))
    ensures next.None? ==> r.finalPrompt == TransitionPrompt(current.structure.subjectAction, None)
    ensures r.(id := current.id, structure := current.structure, finalPrompt := current.finalPrompt,
               generatedImageUrl := current.generatedImageUrl, isGenerating := current.isGenerating) == current
  {
    current.(id := InBetweenId(now),
             structure := current.structure.(subjectAction := InBetweenAction(current.structure.subjectAction)),
             finalPrompt := TransitionPrompt(current.structure.subjectAction,
                                             if next.Some? then Some(next.value.structure.subjectAction) else None),
             generatedImageUrl := None,
             isGenerating := false)
  }

  /** `handleAddInBetweenFrame`: insert a new frame right after `afterId`. */
  function AddInBetween(shots: seq<Shot>, afterId: string, now: nat): (r: seq<Shot>)
    ensures IndexOf(shots, afterId).None? ==> r == shots
    ensures IndexOf(shots, afterId).Some? ==>
              var i := IndexOf(shots, afterId).value;
              |r| == |shots| + 1 && r[..i + 1] == shots[..i + 1] && r[i + 2..] == shots[i + 1..]
              && r[i + 1] == InBetweenShot(shots[i], if i + 1 < |shots| then Some(shots[i + 1]) else None, now)
  {
    match IndexOf(shots, afterId)
    case None => shots
    case Some(i) =>
      var next := if i + 1 < |shots| then Some(shots[i + 1]) else None;
      shots[..i + 1] + [InBetweenShot(shots[i], next, now)] + shots[i + 1..]
  }

  /** Frames may not be deleted while only two (or fewer) are left in the whole storyboard. */
  const MinFrames: nat := 2

  /** `handleDeleteShot`: refused at `MinFrames` frames, else every frame
      with the id goes and the rest keep their order. */
  function DeleteShot(shots: seq<Shot>, id: string): (r: seq<Shot>)
    ensures |shots| <= MinFrames ==> r == shots
    ensures |shots| > MinFrames ==> r == Filter(shots, IdIsNot(id))
    ensures |shots| > MinFrames ==>
              (forall i :: 0 <= i < |r| ==> r[i].id != id && r[i] in shots)
              && (forall i :: 0 <= i < |shots| && shots[i].id != id ==> shots[i] in r)
              && |r| == |shots| - Count(shots, IdIs(id))
  {
    if |shots| <= MinFrames then shots
    else
      assert Count(shots, IdIs(id)) + Count(shots, IdIsNot(id)) == |shots| by { CountSplit(shots, id); }
      Filter(shots, IdIsNot(id))
  }

  lemma {:induction false} CountSplit(shots: seq<Shot>, id: string)
    ensures Count(shots, IdIs(id)) + |Filter(shots, IdIsNot(id))| == |shots|
    decreases |shots|
  {
    if shots != [] {
      CountSplit(shots[1..], id);
    }
  }

  /** Deleting a frame that was just inserted (under a fresh id) gives back
      the storyboard as it was. */
  lemma InBetweenThenDelete(shots: seq<Shot>, afterId: string, now: nat)
    requires IndexOf(shots, afterId).Some? && |shots| >= MinFrames
    requires forall i :: 0 <= i < |shots| ==> shots[i].id != InBetweenId(now)
    ensures DeleteShot(AddInBetween(shots, afterId, now), InBetweenId(now)) == shots
  {
    var i := IndexOf(shots, afterId).value;
    var next := if i + 1 < |shots| then Some(shots[i + 1]) else None;
    var x := InBetweenShot(shots[i], next, now);
    var added := AddInBetween(shots, afterId, now);
    assert added == shots[..i + 1] + [x] + shots[i + 1..];
    assert DeleteShot(added, x.id) == Filter(added, IdIsNot(x.id));
    DropInsertedAt(shots, i, x);
  }

  lemma DropInsertedAt(shots: seq<Shot>, i: nat, x: Shot)
    requires i < |shots|
    requires forall j :: 0 <= j < |shots| ==> shots[j].id != x.id
    ensures Filter(shots[..i + 1] + [x] + shots[i + 1..], IdIsNot(x.id)) == shots
  {
    var a, b := shots[..i + 1], shots[i + 1..];
    forall j | 0 <= j < |a| ensures a[j].id != x.id {
      assert a[j] == shots[j];
    }
    forall j | 0 <= j < |b| ensures b[j].id != x.id {
      assert b[j] == shots[i + 1 + j];
    }
    DropInserted(a, x, b);
    assert a + b == shots;
  }

  /** Filtering out the id of one frame that no other frame carries removes just that frame. */
  lemma DropInserted(a: seq<Shot>, x: Shot, b: seq<Shot>)
    requires forall i :: 0 <= i < |a| ==> a[i].id != x.id
    requires forall i :: 0 <= i < |b| ==> b[i].id != x.id
    ensures Filter(a + [x] + b, IdIsNot(x.id)) == a + b
  {
    var p := IdIsNot(x.id);
    assert forall i :: 0 <= i < |a| ==> p(a[i]);
    assert forall i :: 0 <= i < |b| ==> p(b[i]);
    FilterDropOne(a, x, b, p);
  }

  /** The guard counts frames in the whole storyboard, not per scene: with
      three frames, the only frame of a scene can be deleted. */
  lemma DeleteCanEmptyScene(s: ShotStructure)
    ensures var a := Shot(s, "a1", "", None, false, None, Some("A"), None);
            var b := Shot(s, "b1", "", None, false, None, Some("B"), None);
            var c := Shot(s, "b2", "", None, false, None, Some("B"), None);
            Members(DeleteShot([a, b, c], "a1"), "A") == []
  {
    var a := Shot(s, "a1", "", None, false, None, Some("A"), None);
    var b := Shot(s, "b1", "", None, false, None, Some("B"), None);
    var c := Shot(s, "b2", "", None, false, None, Some("B"), None);
    var r := DeleteShot([a, b, c], "a1");
    forall i | 0 <= i < |r| ensures SceneKey(r[i]) != "A" {
      assert r[i] in [a, b, c] && r[i].id != "a1";
    }
    NoMembers(r, "A");
  }

  lemma {:induction false} NoMembers(shots: seq<Shot>, key: string)
    requires forall i :: 0 <= i < |shots| ==> SceneKey(shots[i]) != key
    ensures Members(shots, key) == []
    decreases |shots|
  {
    if shots != [] {
      NoMembers(shots[1..], key);
    }
  }

  // ---------------------------------------------------------------------
  // Batch rendering
  // ---------------------------------------------------------------------

  function NoImage(): Shot -> bool
  {
    (s: Shot) => !Has(s.generatedImageUrl)
  }

  /** The ids of the frames without an image, in storyboard order. */
  function PendingIds(shots: seq<Shot>): (r: seq<string>)
    ensures |r| <= |shots|
    ensures forall i :: 0 <= i < |shots| && !Has(shots[i].generatedImageUrl) ==> shots[i].id in r
    ensures forall j :: 0 <= j < |r| ==>
              exists i :: 0 <= i < |shots| && shots[i].id == r[j] && !Has(shots[i].generatedImageUrl)
    ensures r == [] <==> forall i :: 0 <= i < |shots| ==> Has(shots[i].generatedImageUrl)
  {
    if shots == [] then []
    else
      var rest := PendingIds(shots[1..]);
      assert forall i :: 1 <= i < |shots| ==> shots[i] == shots[1..][i - 1];
      (if Has(shots[0].generatedImageUrl) then [] else [shots[0].id]) + rest
  }

  /** The pending ids are the ids of the frames without an image, in
      storyboard order. */
  lemma {:induction false} PendingInOrder(shots: seq<Shot>)
    ensures PendingIds(shots) == Ids(Filter(shots, NoImage()))
  {
    if shots != [] {
      PendingInOrder(shots[1..]);
    }
  }

  const Concurrency: nat := 2
  const BatchPauseMs: nat := 1500

  /** The full-render button is enabled unless a batch runs or every frame has an image. */
  predicate GenerateAllEnabled(shots: seq<Shot>, busy: bool)
  {
    !busy && exists i :: 0 <= i < |shots| && !Has(shots[i].generatedImageUrl)
  }

  /** `generateAll`: nothing while a batch runs; otherwise the pending
      frames in chunks of two, with a pause between chunks. */
  function GenerateAllPlan(shots: seq<Shot>, busy: bool): Option<seq<Event<string>>>
  {
    if busy then None else Some(Schedule(Chunks(PendingIds(shots), Concurrency), BatchPauseMs))
  }

  /** The full render visits exactly the pending frames, in order, at most
      two at a time, pausing only between chunks; the button that starts
      it is enabled exactly when that plan has work in it. */
  lemma GenerateAllCoversPending(shots: seq<Shot>, busy: bool)
    requires !busy
    ensures Flatten(Runs(GenerateAllPlan(shots, busy).value)) == PendingIds(shots)
    ensures forall j :: 0 <= j < |Runs(GenerateAllPlan(shots, busy).value)| ==>
              0 < |Runs(GenerateAllPlan(shots, busy).value)[j]| <= Concurrency
    ensures PauseCount(GenerateAllPlan(shots, busy).value) ==
              if PendingIds(shots) == [] then 0 else |Chunks(PendingIds(shots), Concurrency)| - 1
    ensures GenerateAllEnabled(shots, busy) <==> GenerateAllPlan(shots, busy).value != []
  {
    var chunks := Chunks(PendingIds(shots), Concurrency);
    ChunksShape(PendingIds(shots), Concurrency);
    ScheduleShape(chunks, BatchPauseMs);
    assert chunks == [] <==> PendingIds(shots) == [] by {
      if chunks == [] { assert Flatten(chunks) == []; }
    }
  }

  /** The chunks of a full render are all full but the last, and the plan
      starts and ends with a render and pauses only between two of them. */
  lemma GenerateAllPacing(shots: seq<Shot>)
    ensures var runs := Runs(GenerateAllPlan(shots, false).value);
            forall j :: 0 <= j < |runs| - 1 ==> |runs[j]| == Concurrency
    ensures var plan := GenerateAllPlan(shots, false).value;
            plan != [] ==> (plan[0].Run? && plan[|plan| - 1].Run?
                            && forall i :: 0 <= i < |plan| - 1 && plan[i].Pause? ==> plan[i + 1].Run?)
  {
    ChunkedPacing(PendingIds(shots), Concurrency, BatchPauseMs);
  }

  /** The scene-group button is enabled unless a batch runs or every frame of the group has an image. */
  predicate SceneGroupEnabled(group: seq<Shot>, busy: bool)
  {
    !busy && exists i :: 0 <= i < |group| && !Has(group[i].generatedImageUrl)
  }

  /** `generateSceneGroup`: the pending frames of a scene one by one,
      each followed by a pause. */
  function SceneGroupPlan(group: seq<Shot>, busy: bool): Option<seq<Event<string>>>
  {
    if busy then None else Some(Sequential(PendingIds(group), SceneFramePauseMs))
  }

  /** A scene render runs pending frame `j` alone at step `2j`, right after
      the previous frame and its pause, so each frame can take the one
      before it as continuity; it pauses once per frame. */
  lemma SceneGroupInOrder(group: seq<Shot>)
    ensures forall j :: 0 <= j < |PendingIds(group)| ==>
              SceneGroupPlan(group, false).value[2 * j] == Run([PendingIds(group)[j]])
              && SceneGroupPlan(group, false).value[2 * j + 1] == Pause(SceneFramePauseMs)
    ensures PauseCount(SceneGroupPlan(group, false).value) == |PendingIds(group)|
    ensures SceneGroupEnabled(group, false) <==> SceneGroupPlan(group, false).value != []
  {
    SequentialShape(PendingIds(group), SceneFramePauseMs);
  }
}

=== FILE: text.dfy ===
/** The JavaScript string primitives the app relies on, with their exact
    edge cases: `split`, `join`, `trim`, `startsWith`/`endsWith`,
    `toLowerCase`, `parseInt` and the decimal rendering of numbers used
    in generated ids. */
module Text {
  import opened Wrappers

  // ---------------------------------------------------------------------
  // Decimal digits and the rendering of naturals (`${n}`)
  // ---------------------------------------------------------------------

  predicate IsDigit(c: char)
  {
    '0' <= c <= '9'
  }

  predicate AllDigits(s: string)
  {
    forall i :: 0 <= i < |s| ==> IsDigit(s[i])
  }

  function DigitChar(d: nat): (c: char)
    requires d < 10
    ensures IsDigit(c)
  {
    ['0', '1', '2', '3', '4', '5', '6', '7', '8', '9'][d]
  }

  function DigitValue(c: char): (d: nat)
    requires IsDigit(c)
    ensures d < 10
  {
    (c as int - '0' as int) as nat
  }

  lemma DigitRoundTrip(d: nat)
    requires d < 10
    ensures DigitValue(DigitChar(d)) == d
  {
  }

  /** The value of a string of decimal digits, read most significant first. */
  function DigitsValue(s: string): nat
    requires AllDigits(s)
  {
    if s == [] then 0 else DigitsValue(s[..|s| - 1]) * 10 + DigitValue(s[|s| - 1])
  }

  /** `String(n)` for a non-negative integer. */
  function NatToString(n: nat): (s: string)
    ensures |s| >= 1
    ensures AllDigits(s)
  {
    if n < 10 then [DigitChar(n)] else NatToString(n / 10) + [DigitChar(n % 10)]
  }

  /** Reading the rendered digits back gives the number. */
  lemma {:induction false} NatToStringRoundTrip(n: nat)
    ensures DigitsValue(NatToString(n)) == n
  {
    var s := NatToString(n);
    if n < 10 {
      assert s[..|s| - 1] == [];
      DigitRoundTrip(n);
    } else {
      assert s[..|s| - 1] == NatToString(n / 10);
      NatToStringRoundTrip(n / 10);
      DigitRoundTrip(n % 10);
    }
  }

  /** Distinct numbers render as distinct strings. */
  lemma NatToStringInjective(n: nat, m: nat)
    requires NatToString(n) == NatToString(m)
    ensures n == m
  {
    NatToStringRoundTrip(n);
    NatToStringRoundTrip(m);
  }

  /** Ids built as a fixed prefix followed by a counter differ when the counters do. */
  lemma PrefixedNumbersDiffer(p: string, i: nat, j: nat)
    requires i != j
    ensures p + NatToString(i) != p + NatToString(j)
  {
    if p + NatToString(i) == p + NatToString(j) {
      assert (p + NatToString(i))[|p|..] == NatToString(i);
      assert (p + NatToString(j))[|p|..] == NatToString(j);
      NatToStringInjective(i, j);
    }
  }

  /** A run of digits ended by a non-digit is determined by the whole string:
      this is what keeps ids like `prefix-<i>-<stamp>` apart. */
  lemma DigitRunUnique(a: string, b: string, c: char, x: string, y: string)
    requires AllDigits(a) && AllDigits(b) && !IsDigit(c)
    requires a + [c] + x == b + [c] + y
    ensures a == b
  {
    var u := a + [c] + x;
    var v := b + [c] + y;
    assert u[|a|] == c && v[|b|] == c;
    assert forall k :: 0 <= k < |a| ==> u[k] == a[k];
    assert forall k :: 0 <= k < |b| ==> v[k] == b[k];
    assert |a| == |b|;
    assert a == u[..|a|] && b == v[..|b|];
  }

  /** `p + i + sep + rest` with a rendered number `i` and a non-digit `sep`:
      different numbers give different strings. */
  lemma NumberedIdsDiffer(p: string, i: nat, j: nat, c: char, x: string, y: string)
    requires !IsDigit(c) && i != j
    ensures p + NatToString(i) + [c] + x != p + NatToString(j) + [c] + y
  {
    if p + NatToString(i) + [c] + x == p + NatToString(j) + [c] + y {
      var u := p + NatToString(i) + [c] + x;
      var v := p + NatToString(j) + [c] + y;
      assert u[|p|..] == NatToString(i) + [c] + x;
      assert v[|p|..] == NatToString(j) + [c] + y;
      DigitRunUnique(NatToString(i), NatToString(j), c, x, y);
      NatToStringInjective(i, j);
    }
  }

  // ---------------------------------------------------------------------
  // Prefix / suffix tests and lower-casing
  // ---------------------------------------------------------------------

  /** `s.startsWith(p)`. */
  predicate StartsWith(s: string, p: string)
  {
    |p| <= |s| && s[..|p|] == p
  }

  /** `s.substring(0, n)`: the first `n` characters, or all of a shorter string. */
  function Head(s: string, n: nat): (r: string)
    ensures |r| <= n && |r| <= |s| && r == s[..|r|]
    ensures |s| >= n ==> |r| == n
  {
    if |s| <= n then s else s[..n]
  }

  /** `s.endsWith(p)`. */
  predicate EndsWith(s: string, p: string)
  {
    |p| <= |s| && s[|s| - |p|..] == p
  }

  function LowerChar(c: char): char
  {
    if 'A' <= c <= 'Z' then (c as int + 32) as char else c
  }

  /** `s.toLowerCase()` on the ASCII letters. */
  function ToLower(s: string): (r: string)
    ensures |r| == |s|
    ensures forall i :: 0 <= i < |s| ==> r[i] == LowerChar(s[i])
  {
    if s == [] then [] else [LowerChar(s[0])] + ToLower(s[1..])
  }

  /** Lower-casing works character by character, so it distributes over concatenation. */
  lemma ToLowerConcat(a: string, b: string)
    ensures ToLower(a + b) == ToLower(a) + ToLower(b)
  {
    assert forall i :: 0 <= i < |a + b| ==> ToLower(a + b)[i] == (ToLower(a) + ToLower(b))[i];
  }

  lemma ToLowerIdempotent(s: string)
    ensures ToLower(ToLower(s)) == ToLower(s)
  {
  }

  // ---------------------------------------------------------------------
  // Whitespace and `trim`
  // ---------------------------------------------------------------------

  /** ECMAScript WhiteSpace and LineTerminator code points: the set `trim`
      and `parseInt` skip. */
  predicate IsSpace(c: char)
  {
    c == '\t' || c == '\n' || c == '\U{000B}' || c == '\U{000C}' || c == '\r' || c == ' ' ||
    c == '\U{00A0}' || c == '\U{1680}' || ('\U{2000}' <= c <= '\U{200A}') ||
    c == '\U{2028}' || c == '\U{2029}' || c == '\U{202F}' || c == '\U{205F}' ||
    c == '\U{3000}' || c == '\U{FEFF}'
  }

  predicate AllSpace(s: string)
  {
    forall k :: 0 <= k < |s| ==> IsSpace(s[k])
  }

  /** `s.trimStart()`: the suffix left after the leading whitespace. */
  function TrimStart(s: string): (r: string)
    ensures |r| <= |s| && r == s[|s| - |r|..]
    ensures forall k :: 0 <= k < |s| - |r| ==> IsSpace(s[k])
    ensures r != [] ==> !IsSpace(r[0])
  {
    if s != [] && IsSpace(s[0]) then TrimStart(s[1..]) else s
  }

  /** `s.trimEnd()`: the prefix left before the trailing whitespace. */
  function TrimEnd(s: string): (r: string)
    ensures |r| <= |s| && r == s[..|r|]
    ensures forall k :: |r| <= k < |s| ==> IsSpace(s[k])
    ensures r != [] ==> !IsSpace(r[|r| - 1])
  {
    if s != [] && IsSpace(s[|s| - 1]) then TrimEnd(s[..|s| - 1]) else s
  }

  /** `s.trim()`. */
  function Trim(s: string): (r: string)
    ensures r != [] ==> !IsSpace(r[0]) && !IsSpace(r[|r| - 1])
    ensures r == [] <==> forall k :: 0 <= k < |s| ==> IsSpace(s[k])
  {
    TrimEnd(TrimStart(s))
  }

  // ---------------------------------------------------------------------
  // `split` and `join` on a non-empty separator
  // ---------------------------------------------------------------------

  /** `sep` occurs in `s` starting at index `j`. */
  predicate OccursAt(s: string, sep: string, j: int)
  {
    0 <= j && j + |sep| <= |s| && s[j..j + |sep|] == sep
  }

  predicate Contains(s: string, sep: string)
  {
    exists j :: 0 <= j <= |s| && OccursAt(s, sep, j)
  }

  /** A separator inside a slice is inside the whole string. */
  lemma ContainsWithin(s: string, i: nat, j: nat, sep: string)
    requires i <= j <= |s|
    ensures Contains(s[i..j], sep) ==> Contains(s, sep)
  {
    if Contains(s[i..j], sep) {
      var t := s[i..j];
      var k :| 0 <= k <= |t| && OccursAt(t, sep, k);
      assert t[k..k + |sep|] == sep;
      forall m | 0 <= m < |sep| ensures s[i + k + m] == sep[m] {
        assert t[k + m] == s[i + k + m];
      }
      assert s[i + k..i + k + |sep|] == sep;
      assert OccursAt(s, sep, i + k);
    }
  }

  /** `s.indexOf(sep, from)`. */
  function IndexFrom(s: string, sep: string, from: nat): (r: Option<nat>)
    requires sep != []
    ensures r.Some? ==> from <= r.value && OccursAt(s, sep, r.value)
    ensures r.Some? ==> forall j :: from <= j < r.value ==> !OccursAt(s, sep, j)
    ensures r.None? ==> forall j :: from <= j ==> !OccursAt(s, sep, j)
    decreases |s| - from
  {
    if from + |sep| > |s| then None
    else if OccursAt(s, sep, from) then Some(from)
    else IndexFrom(s, sep, from + 1)
  }

  /** `s.split(sep)` for a non-empty separator: the pieces between occurrences. */
  function Split(s: string, sep: string): (r: seq<string>)
    requires sep != []
    ensures |r| >= 1
    ensures forall k :: 0 <= k < |r| ==> !Contains(r[k], sep)
    decreases |s|
  {
    match IndexFrom(s, sep, 0)
    case None => [s]
    case Some(i) =>
      var head := s[..i];
      assert !Contains(head, sep) by {
        forall j | OccursAt(head, sep, j) ensures false {
          assert s[j..j + |sep|] == head[j..j + |sep|];
          assert OccursAt(s, sep, j);
        }
      }
      [head] + Split(s[i + |sep|..], sep)
  }

  /** `parts.join(sep)`. */
  function Join(parts: seq<string>, sep: string): string
  {
    if parts == [] then ""
    else if |parts| == 1 then parts[0]
    else parts[0] + sep + Join(parts[1..], sep)
  }

  /** Splitting and joining back on the same separator gives the input. */
  lemma {:induction false} JoinSplit(s: string, sep: string)
    requires sep != []
    ensures Join(Split(s, sep), sep) == s
    decreases |s|
  {
    match IndexFrom(s, sep, 0)
    case None =>
    case Some(i) =>
      var rest := s[i + |sep|..];
      JoinSplit(rest, sep);
      SplitFirst(s, sep, i);
      JoinCons(s[..i], Split(rest, sep), sep);
      SplitAround(s, i, |sep|);
  }

  lemma SplitFirst(s: string, sep: string, i: nat)
    requires sep != [] && IndexFrom(s, sep, 0) == Some(i)
    ensures Split(s, sep) == [s[..i]] + Split(s[i + |sep|..], sep)
  {
  }

  /** Joining one more piece adds the separator and the piece at the end. */
  lemma {:induction false} JoinSnoc(parts: seq<string>, p: string, sep: string)
    requires parts != []
    ensures Join(parts + [p], sep) == Join(parts, sep) + sep + p
    decreases |parts|
  {
    var ps := parts + [p];
    assert ps[0] == parts[0] && ps[1..] == parts[1..] + [p];
    if |parts| > 1 {
      JoinSnoc(parts[1..], p, sep);
    }
  }

  lemma JoinCons(p: string, tail: seq<string>, sep: string)
    requires |tail| >= 1
    ensures Join([p] + tail, sep) == p + sep + Join(tail, sep)
  {
    assert ([p] + tail)[1..] == tail;
  }

  lemma SplitAround(s: string, i: nat, n: nat)
    requires i + n <= |s|
    ensures s == s[..i] + s[i..i + n] + s[i + n..]
  {
  }

  lemma NotContainsChar(s: string, c: char)
    requires c !in s
    ensures !Contains(s, [c])
  {
    forall j | 0 <= j <= |s| ensures !OccursAt(s, [c], j) {
      if j + 1 <= |s| {
        assert s[j..j + 1] == [s[j]];
      }
    }
  }

  /** A piece free of the separator character is split off intact. */
  lemma SplitCharCons(a: string, c: char, b: string)
    requires c !in a
    ensures Split(a + [c] + b, [c]) == [a] + Split(b, [c])
  {
    var s := a + [c] + b;
    assert OccursAt(s, [c], |a|) by {
      assert s[|a|..|a| + 1] == [c];
    }
    forall j | 0 <= j < |a| ensures !OccursAt(s, [c], j) {
      assert s[j] == a[j];
      assert s[j..j + 1] == [a[j]];
    }
    assert IndexFrom(s, [c], 0) == Some(|a|);
    assert s[..|a|] == a;
    assert s[|a| + 1..] == b;
  }

  /** A string free of the separator character splits into itself alone. */
  lemma SplitCharNone(a: string, c: char)
    requires c !in a
    ensures Split(a, [c]) == [a]
  {
    NotContainsChar(a, c);
  }

  // ---------------------------------------------------------------------
  // `parseInt`
  // ---------------------------------------------------------------------

  /** A number `parseInt` can produce, kept as sign and magnitude so that
      JavaScript's negative zero stays visible. */
  datatype JsInt = JsInt(negative: bool, magnitude: nat)
  {
    function Value(): int
    {
      if negative then -(magnitude as int) else magnitude
    }
  }

  /** The longest prefix of decimal digits. */
  function DigitPrefix(s: string): (r: string)
    ensures AllDigits(r) && |r| <= |s| && r == s[..|r|]
    ensures |r| < |s| ==> !IsDigit(s[|r|])
  {
    if s != [] && IsDigit(s[0]) then [s[0]] + DigitPrefix(s[1..]) else []
  }

  predicate IsHexDigit(c: char)
  {
    IsDigit(c) || 'a' <= c <= 'f' || 'A' <= c <= 'F'
  }

  function HexValue(c: char): (d: nat)
    requires IsHexDigit(c)
    ensures d < 16
  {
    if IsDigit(c) then DigitValue(c)
    else if 'a' <= c <= 'f' then (c as int - 'a' as int + 10) as nat
    else (c as int - 'A' as int + 10) as nat
  }

  predicate AllHexDigits(s: string)
  {
    forall i :: 0 <= i < |s| ==> IsHexDigit(s[i])
  }

  function HexPrefix(s: string): (r: string)
    ensures AllHexDigits(r) && |r| <= |s| && r == s[..|r|]
    ensures |r| < |s| ==> !IsHexDigit(s[|r|])
  {
    if s != [] && IsHexDigit(s[0]) then [s[0]] + HexPrefix(s[1..]) else []
  }

  function HexDigitsValue(s: string): nat
    requires AllHexDigits(s)
  {
    if s == [] then 0 else HexDigitsValue(s[..|s| - 1]) * 16 + HexValue(s[|s| - 1])
  }

  /** The unsigned part of `parseInt`: a `0x`/`0X`-prefixed hexadecimal run or
      a decimal run; `None` when no digit follows. */
  function ParseMagnitude(body: string): (r: Option<nat>)
    ensures r.None? <==> (if StartsWith(body, "0x") || StartsWith(body, "0X")
                          then HexPrefix(body[2..]) == [] else DigitPrefix(body) == [])
  {
    if StartsWith(body, "0x") || StartsWith(body, "0X") then
      var hex := HexPrefix(body[2..]);
      if hex == [] then None else Some(HexDigitsValue(hex))
    else
      var digits := DigitPrefix(body);
      if digits == [] then None else Some(DigitsValue(digits))
  }

  /** `parseInt(s)` with no radix: leading whitespace, an optional sign, then the
      magnitude; `None` is `NaN`. */
  function ParseInt(s: string): (r: Option<JsInt>)
    ensures r.Some? ==> (r.value.negative <==> TrimStart(s) != [] && TrimStart(s)[0] == '-')
  {
    var t := TrimStart(s);
    var signed := t != [] && (t[0] == '-' || t[0] == '+');
    match ParseMagnitude(if signed then t[1..] else t)
    case None => None
    case Some(m) => Some(JsInt(t != [] && t[0] == '-', m))
  }

  lemma DigitPrefixOfDigits(s: string)
    requires AllDigits(s)
    ensures DigitPrefix(s) == s
  {
    if s != [] {
      DigitPrefixOfDigits(s[1..]);
    }
  }

  /** A plain run of digits, with or without a minus sign, parses to its value. */
  lemma NoHexMarker(s: string)
    requires s != [] && AllDigits(s)
    ensures !StartsWith(s, "0x") && !StartsWith(s, "0X")
  {
    if |s| >= 2 {
      assert IsDigit(s[1]);
      assert s[..2][1] == s[1];
    }
  }

  lemma MagnitudeOfDigits(s: string)
    requires s != [] && AllDigits(s)
    ensures ParseMagnitude(s) == Some(DigitsValue(s))
  {
    DigitPrefixOfDigits(s);
    NoHexMarker(s);
  }

  lemma TrimStartKeeps(s: string)
    requires s != [] && !IsSpace(s[0])
    ensures TrimStart(s) == s
  {
  }

  lemma ParseIntOfDigits(s: string)
    requires s != [] && AllDigits(s)
    ensures ParseInt(s) == Some(JsInt(false, DigitsValue(s)))
  {
    MagnitudeOfDigits(s);
    assert IsDigit(s[0]);
    TrimStartKeeps(s);
  }

  lemma ParseIntOfNegatedDigits(s: string)
    requires s != [] && AllDigits(s)
    ensures ParseInt("-" + s) == Some(JsInt(true, DigitsValue(s)))
  {
    MagnitudeOfDigits(s);
    var m := "-" + s;
    assert m[0] == '-';
    TrimStartKeeps(m);
    assert m[1..] == s;
  }

  /** `parseInt(String(n)) === n` and `parseInt("-" + String(n)) === -n`. */
  lemma ParseIntRoundTrip(n: nat)
    ensures ParseInt(NatToString(n)) == Some(JsInt(false, n))
    ensures ParseInt("-" + NatToString(n)) == Some(JsInt(true, n))
  {
    NatToStringRoundTrip(n);
    ParseIntOfDigits(NatToString(n));
    ParseIntOfNegatedDigits(NatToString(n));
  }
}

=== FILE: types.dfy ===
/** The records the wizard passes between its screens. Optional
    TypeScript fields are `Option`s; an optional `isGenerating` flag reads
    as `false` when absent and is a plain `bool` here. */
module Types {
  import opened Wrappers

  /** A file the user picked; only its name and MIME type matter to the logic. */
  datatype FileRef = FileRef(name: string, mime: string)

  datatype DialogueType = VoiceOver | CharacterLine

  /** One shot of a script as the analysis or brainstorm returns it. */
  datatype ShotStructure = ShotStructure(
    timestamp: string,
    shotType: string,
    cameraMovement: string,
    lighting: string,
    pacing: string,
    subjectAction: string,
    dialogue: Option<string>,
    dialogueType: Option<DialogueType>)

  /** A storyboard frame: a script shot plus its render prompt and results. */
  datatype Shot = Shot(
    structure: ShotStructure,
    id: string,
    finalPrompt: string,
    generatedImageUrl: Option<string>,
    isGenerating: bool,
    videoPrompt: Option<string>,
    sceneId: Option<string>,
    sceneTitle: Option<string>)

  /** A script shot not yet turned into a frame: every frame-only field absent. */
  function FromStructure(s: ShotStructure): (r: Shot)
    ensures r.structure == s && r.generatedImageUrl.None? && !r.isGenerating
    ensures r.videoPrompt.None? && r.sceneId.None? && r.sceneTitle.None?
  {
    Shot(s, "", "", None, false, None, None, None)
  }

  datatype SlotType = Main | Secondary | APlus

  /** One Amazon listing image slot. */
  datatype AmazonSlot = AmazonSlot(
    id: string,
    slotType: SlotType,
    size: string,
    prompt: string,
    finalPrompt: string,
    generatedImageUrl: Option<string>,
    isGenerating: bool)

  datatype PlotStyle =
    | Anime | Realistic | Cyberpunk | Pixar | Sketch | Ink
    | RealisticInkFusion | Chinese | Chinese3DAnime

  datatype Costume = Costume(id: string, name: string, description: string, style: string)

  datatype Environment = Environment(
    id: string,
    name: string,
    description: string,
    imageUrl: Option<string>,
    isGenerating: bool)

  datatype Character = Character(
    id: string,
    name: string,
    images: seq<FileRef>,
    token: string,
    turnaroundUrl: Option<string>,
    outfittedUrl: Option<string>,
    isGenerating: bool,
    style: Option<PlotStyle>,
    selectedCostume: Option<Costume>,
    suggestedCostumes: Option<seq<Costume>>)

  /** The plot strategy: its free-text fields by name, the environments it
      proposes and its style keywords. */
  datatype Proposal = Proposal(
    fields: map<string, string>,
    environments: seq<Environment>,
    keywords: seq<string>)

  datatype Canvas = Canvas(
    id: string,
    width: int,
    height: int,
    reference: Option<FileRef>,
    referencePreview: Option<string>,
    generatedImages: seq<string>,
    isGenerating: bool)

  datatype WorkflowMode = Reference | Creative | Amazon | Plot | Storefront

  /** The image the hosted model returned in a response part, if any. */
  datatype InlineData = InlineData(mime: string, data: string)

  /** `data:<mime>;base64,<data>`: how every generated image reaches the app. */
  function DataUri(d: InlineData): string
  {
    "data:" + d.mime + ";base64," + d.data
  }
}

=== FILE: video_prompts.dfy ===
/** The last screen: one video prompt per frame in the product modes, and
    one transition prompt per pair of consecutive frames of a scene in
    plot mode. */
module VideoPrompts {
  import opened Wrappers
  import opened Seqs
  import opened Types
  import Storyboard

  /** The prompt a frame gets when neither the answer nor the frame has one. */
  function VideoFallback(token: string, s: Shot): string
  {
    "Cinematic commercial video of " + token + ", " + s.structure.subjectAction + ", slow motion, 8k."
  }

  /** `promptTexts[i] || s.videoPrompt || fallback`: never empty. */
  function VideoPromptFor(texts: seq<string>, i: nat, s: Shot, token: string): (r: string)
    ensures r != ""
    ensures i < |texts| && texts[i] != "" ==> r == texts[i]
    ensures !(i < |texts| && texts[i] != "") && Has(s.videoPrompt) ==> r == s.videoPrompt.value
    ensures !(i < |texts| && texts[i] != "") && !Has(s.videoPrompt) ==> r == VideoFallback(token, s)
  {
    if i < |texts| && texts[i] != "" then texts[i]
    else if Has(s.videoPrompt) then s.videoPrompt.value
    else VideoFallback(token, s)
  }

  /** Product modes: a failed call keeps the frames; otherwise every frame
      gets a non-empty video prompt, preferring the new text, then its old
      prompt, and nothing but the video prompts changes. */
  function ProductPrompts(shots: seq<Shot>, token: string, reply: Reply<seq<string>>): (r: seq<Shot>)
    ensures reply.Fail? ==> r == shots
    ensures |r| == |shots|
    ensures forall i :: 0 <= i < |shots| ==> r[i].(videoPrompt := shots[i].videoPrompt) == shots[i]
    ensures reply.Ok? ==> forall i :: 0 <= i < |shots| ==> Has(r[i].videoPrompt)
    ensures reply.Ok? ==> forall i :: 0 <= i < |shots| ==>
              r[i].videoPrompt == Some(VideoPromptFor(reply.value, i, shots[i], token))
  {
    match reply
    case Fail => shots
    case Ok(texts) =>
      seq(|shots|, i requires 0 <= i < |shots| => shots[i].(videoPrompt := Some(VideoPromptFor(texts, i, shots[i], token))))
  }

  /** Regenerating never takes a prompt away from a frame, and never
      touches anything but video prompts. */
  lemma RegenerateKeepsPrompts(shots: seq<Shot>, token: string, reply: Reply<seq<string>>)
    ensures forall i :: 0 <= i < |shots| && Has(shots[i].videoPrompt) ==>
              Has(ProductPrompts(shots, token, reply)[i].videoPrompt)
    ensures forall i :: 0 <= i < |shots| ==>
              ProductPrompts(shots, token, reply)[i].(videoPrompt := shots[i].videoPrompt) == shots[i]
  {
    var r := ProductPrompts(shots, token, reply);
    forall i | 0 <= i < |shots| && Has(shots[i].videoPrompt) ensures Has(r[i].videoPrompt) {
      if reply.Ok? {
        var v := VideoPromptFor(reply.value, i, shots[i], token);
        assert v != "";
      }
    }
  }

  /** One transition answer. The model may name the two frames either
      `startShotId`/`endShotId` or `startId`/`endId`. */
  datatype Transition = Transition(startShotId: Option<string>, endShotId: Option<string>,
                                   startId: Option<string>, endId: Option<string>, prompt: Option<string>)

  predicate Joins(t: Transition, start: string, end: string)
  {
    (t.startShotId == Some(start) && t.endShotId == Some(end)) || (t.startId == Some(start) && t.endId == Some(end))
  }

  function JoinsFn(start: string, end: string): Transition -> bool
  {
    t => Joins(t, start, end)
  }

  /** Plot mode: `results || []`; a failed call keeps the previous answers. */
  function PlotTransitions(previous: seq<Transition>, reply: Reply<Option<seq<Transition>>>): (r: seq<Transition>)
    ensures reply.Fail? ==> r == previous
    ensures reply.Ok? && reply.value.None? ==> r == []
    ensures reply.Ok? && reply.value.Some? ==> r == reply.value.value
  {
    match reply
    case Fail => previous
    case Ok(None) => []
    case Ok(Some(ts)) => ts
  }

  /** `ts[j]` is the first answer that joins the pair. */
  predicate FirstJoiner(ts: seq<Transition>, j: int, start: string, end: string)
  {
    0 <= j < |ts| && Joins(ts[j], start, end) && forall k :: 0 <= k < j ==> !Joins(ts[k], start, end)
  }

  lemma FirstJoinerFound(ts: seq<Transition>, start: string, end: string)
    ensures forall j :: FirstJoiner(ts, j, start, end) ==> FindIndex(ts, JoinsFn(start, end)) == Some(j)
  {
    forall j | FirstJoiner(ts, j, start, end) ensures FindIndex(ts, JoinsFn(start, end)) == Some(j) {
      FindIndexIsFirst(ts, JoinsFn(start, end), j);
    }
  }

  /** The prompt shown between two frames: the first answer that joins
      them, or empty. */
  function PairPrompt(ts: seq<Transition>, start: string, end: string): (r: string)
    ensures (forall j :: 0 <= j < |ts| ==> !Joins(ts[j], start, end)) ==> r == ""
    ensures r != "" ==> exists j :: 0 <= j < |ts| && Joins(ts[j], start, end) && ts[j].prompt == Some(r)
    ensures forall j :: FirstJoiner(ts, j, start, end) ==> r == (if Has(ts[j].prompt) then ts[j].prompt.value else "")
  {
    FirstJoinerFound(ts, start, end);
    match FindIndex(ts, JoinsFn(start, end))
    case None => ""
    case Some(i) => if Has(ts[i].prompt) then ts[i].prompt.value else ""
  }

  /** Reading the answers from the front: a first answer that joins the pair
      decides the prompt, and one that does not is skipped. */
  lemma PairPromptCons(t: Transition, ts: seq<Transition>, start: string, end: string)
    ensures PairPrompt([t] + ts, start, end)
            == if Joins(t, start, end) then (if Has(t.prompt) then t.prompt.value else "")
               else PairPrompt(ts, start, end)
  {
    var all := [t] + ts;
    assert all[0] == t;
    if !Joins(t, start, end) {
      forall j | 0 <= j < |ts| ensures all[j + 1] == ts[j] { }
      match FindIndex(ts, JoinsFn(start, end))
      case None =>
        assert forall j :: 0 <= j < |all| ==> !Joins(all[j], start, end) by {
          forall j | 0 <= j < |all| ensures !Joins(all[j], start, end) {
            if j > 0 { assert all[j] == ts[j - 1]; }
          }
        }
      case Some(i) =>
        forall k | 0 <= k < i + 1 ensures !Joins(all[k], start, end) {
          if k > 0 { assert all[k] == ts[k - 1]; }
        }
    }
  }

  /** The consecutive pairs of a scene, as ids: a chain that starts at
      every frame but the last, each pair ending where the next begins, and
      the last ending at the scene's last frame. */
  function Pairs(group: seq<Shot>): (r: seq<(string, string)>)
    ensures |r| == if group == [] then 0 else |group| - 1
    ensures forall i :: 0 <= i < |r| ==> r[i].0 == group[i].id
    ensures forall i :: 0 <= i < |r| - 1 ==> r[i].1 == r[i + 1].0
    ensures r != [] ==> r[|r| - 1].1 == group[|group| - 1].id
  {
    if |group| < 2 then [] else seq(|group| - 1, i requires 0 <= i < |group| - 1 => (group[i].id, group[i + 1].id))
  }

  /** The number of transition cards over the given scenes. */
  function CardCount(shots: seq<Shot>, keys: seq<string>): nat
  {
    if keys == [] then 0 else |Pairs(Storyboard.Members(shots, keys[0]))| + CardCount(shots, keys[1..])
  }

  lemma {:induction false} CardCountOfGroups(shots: seq<Shot>, keys: seq<string>)
    requires forall k :: 0 <= k < |keys| ==> Storyboard.Members(shots, keys[k]) != []
    ensures CardCount(shots, keys) + |keys| == Storyboard.GroupSizes(shots, keys)
    decreases |keys|
  {
    if keys != [] {
      CardCountOfGroups(shots, keys[1..]);
    }
  }

  /** Plot mode shows one transition card per pair of consecutive frames
      within a scene: as many as there are frames, less one per scene. */
  lemma CardsPerStoryboard(shots: seq<Shot>)
    ensures CardCount(shots, Storyboard.SceneKeys(shots)) == |shots| - |Storyboard.SceneKeys(shots)|
  {
    var keys := Storyboard.SceneKeys(shots);
    forall k | 0 <= k < |keys| ensures Storyboard.Members(shots, keys[k]) != [] {
      var i :| 0 <= i < |shots| && Storyboard.SceneKey(shots[i]) == keys[k];
      assert shots[i] in Storyboard.Members(shots, keys[k]);
    }
    CardCountOfGroups(shots, keys);
    Storyboard.GroupsPartition(shots);
  }

  /** `handleCopy`: nothing happens for an empty prompt; otherwise the text
      is copied and the card marked. */
  function Copy(text: string, id: string): (r: Option<(string, string)>)
    ensures r.None? <==> text == ""
    ensures r.Some? ==> r.value == (text, id)
  {
    if text == "" then None else Some((text, id))
  }
}

=== FILE: video_upload.dfy ===
/** The reference video step: a video is chosen, previewed when the browser
    can play it, and analysed into a shot structure. */
module VideoUpload {
  import opened Wrappers
  import opened Text
  import opened Types

  /** Whether the browser is expected to preview a file: never a transport
      stream or Matroska file, whatever its MIME type and however its name
      is capitalised; otherwise any video MIME type. */
  function CanBrowserPlay(name: string, mime: string): (r: bool)
    ensures EndsWith(ToLower(name), ".ts") || EndsWith(ToLower(name), ".mkv") ==> !r
    ensures !EndsWith(ToLower(name), ".ts") && !EndsWith(ToLower(name), ".mkv") ==> (r <==> StartsWith(mime, "video/"))
  {
    var lower := ToLower(name);
    if EndsWith(lower, ".ts") then false
    else if EndsWith(lower, ".mkv") then false
    else StartsWith(mime, "video/")
  }

  /** The suffix test ignores case: a name and its lower-cased form are judged alike. */
  lemma PlayIgnoresCase(name: string, mime: string)
    ensures CanBrowserPlay(name, mime) == CanBrowserPlay(ToLower(name), mime)
  {
    ToLowerIdempotent(name);
  }

  /** A name whose extension reads ".ts" or ".mkv" in any capitalisation is
      never previewed, even with a video MIME type. */
  lemma ExcludedExtensions(stem: string, ext: string, mime: string)
    requires ToLower(ext) == ".ts" || ToLower(ext) == ".mkv"
    ensures !CanBrowserPlay(stem + ext, mime)
  {
    ToLowerConcat(stem, ext);
    var lower := ToLower(stem + ext);
    assert lower[|lower| - |ToLower(ext)|..] == ToLower(ext);
  }

  /** An upper-case transport stream with a video MIME type is still refused. */
  lemma UpperCaseTransportStream()
    ensures !CanBrowserPlay("CLIP" + ".TS", "video/mp2t")
  {
    var ext := ToLower(".TS");
    assert ext[0] == '.' && ext[1] == 't' && ext[2] == 's';
    assert ext == ".ts";
    ExcludedExtensions("CLIP", ".TS", "video/mp2t");
  }

  /** The step: the chosen file, whether analysis runs, and the structure. */
  datatype VideoStep = VideoStep(file: Option<FileRef>, analyzing: bool, structure: seq<ShotStructure>)

  function Open(initial: seq<ShotStructure>): VideoStep
  {
    VideoStep(None, false, initial)
  }

  /** Choosing a file discards the structure of the previous one. */
  function ChooseFile(st: VideoStep, f: FileRef): (r: VideoStep)
    ensures r.file == Some(f) && r.structure == [] && r.analyzing == st.analyzing
  {
    st.(file := Some(f), structure := [])
  }

  /** The preview's remove button drops the file and keeps the structure. */
  function RemoveFile(st: VideoStep): (r: VideoStep)
    ensures r.file.None? && r.structure == st.structure && r.analyzing == st.analyzing
  {
    st.(file := None)
  }

  /** Without a file, an analysis request is ignored whatever it would answer. */
  lemma NoFileNoAnalysis(st: VideoStep, answer: Reply<seq<ShotStructure>>)
    ensures Analyze(RemoveFile(st), answer) == RemoveFile(st)
  {
  }

  /** Analysis is offered while nothing runs and no structure exists. */
  predicate AnalyzeEnabled(st: VideoStep)
  {
    !st.analyzing && |st.structure| == 0
  }

  /** The structure table and the proceed button show once a structure exists. */
  predicate ProceedShown(st: VideoStep)
  {
    |st.structure| > 0
  }

  /** Analysing needs a file: the answer replaces the structure, and a
      rejection keeps it. */
  function Analyze(st: VideoStep, answer: Reply<seq<ShotStructure>>): (r: VideoStep)
    ensures st.file.None? ==> r == st
    ensures st.file.Some? ==> !r.analyzing && r.file == st.file
    ensures st.file.Some? ==> r.structure == (if answer.Ok? then answer.value else st.structure)
  {
    if st.file.None? then st
    else match answer
      case Ok(shots) => st.(analyzing := false, structure := shots)
      case Fail => st.(analyzing := false)
  }

  /** A new file re-enables analysis, and a non-empty answer then locks it
      again and shows the proceed button. */
  lemma NewFileReopensAnalysis(st: VideoStep, f: FileRef, shots: seq<ShotStructure>)
    requires !st.analyzing && shots != []
    ensures AnalyzeEnabled(ChooseFile(st, f))
    ensures var r := Analyze(ChooseFile(st, f), Ok(shots));
            !AnalyzeEnabled(r) && ProceedShown(r) && r.structure == shots
  {
  }
}

=== FILE: workflow.dfy ===
/** The wizard shell: which steps each mode walks through, which screen a
    step shows, and how finishing or leaving a screen moves between steps. */
module Workflow {
  import opened Wrappers
  import opened Types
  import opened Text
  import ApiKey

  datatype Step =
    | ModeSelection | ProductAnchoring | VideoAnalysis | CreativeScript | PromptRemapping
    | Storyboarding | VideoPrompts | AmazonConfig | AmazonBrief | AmazonVisuals
    | PlotCharacterAnchor | PlotCharacterTurnaround | PlotScriptBrainstorm
    | PlotEnvironmentAnchor | PlotCharacterOutfit | PlotStoryboard | PlotFinalPrompts
    | StorefrontConfig

  /** The numeric value of each step; the sidebar compares steps by it. */
  function StepValue(s: Step): real
  {
    match s
    case ModeSelection => 0.0
    case ProductAnchoring => 1.0
    case VideoAnalysis => 2.0
    case CreativeScript => 2.5
    case PromptRemapping => 3.0
    case Storyboarding => 4.0
    case VideoPrompts => 5.0
    case AmazonConfig => 10.0
    case AmazonBrief => 11.0
    case AmazonVisuals => 12.0
    case PlotCharacterAnchor => 20.0
    case PlotCharacterTurnaround => 21.0
    case PlotScriptBrainstorm => 22.0
    case PlotEnvironmentAnchor => 22.2
    case PlotCharacterOutfit => 22.5
    case PlotStoryboard => 23.0
    case PlotFinalPrompts => 24.0
    case StorefrontConfig => 30.0
  }

  predicate Increasing(steps: seq<Step>)
  {
    forall i, j :: 0 <= i < j < |steps| ==> StepValue(steps[i]) < StepValue(steps[j])
  }

  /** Each step's value exceeds the one before it. */
  predicate NeighboursIncrease(steps: seq<Step>)
  {
    forall i :: 0 < i < |steps| ==> StepValue(steps[i - 1]) < StepValue(steps[i])
  }

  /** Increasing neighbours make the whole list increasing. */
  lemma {:induction false} NeighboursOrderAll(steps: seq<Step>)
    requires NeighboursIncrease(steps)
    ensures Increasing(steps)
    decreases |steps|
  {
    if |steps| > 1 {
      var init := steps[..|steps| - 1];
      assert NeighboursIncrease(init) by {
        forall i | 0 < i < |init| ensures StepValue(init[i - 1]) < StepValue(init[i]) {
          assert init[i - 1] == steps[i - 1] && init[i] == steps[i];
        }
      }
      NeighboursOrderAll(init);
      forall i, j | 0 <= i < j < |steps| ensures StepValue(steps[i]) < StepValue(steps[j]) {
        if j < |steps| - 1 {
          assert steps[i] == init[i] && steps[j] == init[j];
        } else if i < j - 1 {
          assert steps[i] == init[i] && steps[j - 1] == init[j - 1];
        }
      }
    }
  }

  /** The sidebar list of a mode (`steps` in the app). */
  function Steps(mode: Option<WorkflowMode>): (r: seq<Step>)
    ensures mode.None? <==> r == []
    ensures Increasing(r)
    ensures mode == Some(Storefront) ==> |r| == 1
    ensures mode == Some(Reference) ==> |r| == 5
    ensures mode == Some(Creative) || mode == Some(Amazon) ==> |r| == 4
    ensures mode == Some(Plot) ==> |r| == 7
  {
    match mode
    case None => []
    case Some(m) =>
      assert Increasing(ModeSteps(m)) by { ModeStepsIncrease(m); }
      ModeSteps(m)
  }

  function ModeSteps(m: WorkflowMode): seq<Step>
  {
    match m
    case Storefront => [StorefrontConfig]
    case Reference => [ProductAnchoring, VideoAnalysis, PromptRemapping, Storyboarding, VideoPrompts]
    case Creative => [ProductAnchoring, CreativeScript, Storyboarding, VideoPrompts]
    case Amazon => [ProductAnchoring, AmazonConfig, AmazonBrief, AmazonVisuals]
    case Plot =>
      [PlotCharacterAnchor, PlotCharacterTurnaround, PlotScriptBrainstorm, PlotEnvironmentAnchor,
       PlotCharacterOutfit, PlotStoryboard, PlotFinalPrompts]
  }

  lemma ModeStepsIncrease(m: WorkflowMode)
    ensures Increasing(ModeSteps(m))
  {
    var r := ModeSteps(m);
    forall i | 0 < i < |r| ensures StepValue(r[i - 1]) < StepValue(r[i]) {
      if m.Plot? {
        assert i == 1 || i == 2 || i == 3 || i == 4 || i == 5 || i == 6;
      }
    }
    NeighboursOrderAll(r);
  }

  /** A sidebar entry is clickable unless it lies ahead of the current step. */
  predicate SidebarEnabled(current: Step, target: Step)
  {
    !(StepValue(current) < StepValue(target))
  }

  /** Within a mode the sidebar lets the user go back to any earlier step or
      stay, and never jump ahead. */
  lemma SidebarOnlyBackward(mode: WorkflowMode, i: nat, j: nat)
    requires i < |Steps(Some(mode))| && j < |Steps(Some(mode))|
    ensures SidebarEnabled(Steps(Some(mode))[i], Steps(Some(mode))[j]) <==> j <= i
  {
  }

  // ---------------------------------------------------------------------
  // Application state
  // ---------------------------------------------------------------------

  datatype AppState = AppState(
    mode: Option<WorkflowMode>,
    step: Step,
    restartKey: int,
    showKeyManager: bool,
    productToken: string,
    productImages: seq<FileRef>,
    requirement: string,
    structure: seq<ShotStructure>,
    shots: seq<Shot>,
    slots: seq<AmazonSlot>,
    characters: seq<Character>,
    environments: seq<Environment>,
    proposal: Option<Proposal>)

  /** Nothing collected yet. */
  predicate Blank(st: AppState)
  {
    st.mode.None? && st.step == ModeSelection && st.productToken == "" && st.productImages == [] &&
    st.requirement == "" && st.structure == [] && st.shots == [] && st.slots == [] &&
    st.characters == [] && st.environments == [] && st.proposal.None?
  }

  /** The first render: a blank wizard that opens the key form when no key is stored. */
  function Launch(storage: ApiKey.Storage): (st: AppState)
    ensures Blank(st) && st.restartKey == 0
    ensures st.showKeyManager <==> !Has(ApiKey.StoredKey(storage))
  {
    AppState(None, ModeSelection, 0, !Has(ApiKey.StoredKey(storage)), "", [], "", [], [], [], [], [], None)
  }

  /** `handleSelectMode`: without a stored key only the key form opens;
      otherwise the mode is set and the wizard enters its first step. */
  function SelectMode(st: AppState, m: WorkflowMode, storage: ApiKey.Storage): (r: AppState)
    ensures !Has(ApiKey.StoredKey(storage)) ==> r == st.(showKeyManager := true)
    ensures Has(ApiKey.StoredKey(storage)) ==> r == st.(mode := Some(m), step := Steps(Some(m))[0])
  {
    if !Has(ApiKey.StoredKey(storage)) then st.(showKeyManager := true)
    else if m == Storefront then st.(mode := Some(m), step := StorefrontConfig)
    else st.(mode := Some(m), step := if m == Plot then PlotCharacterAnchor else ProductAnchoring)
  }

  /** `handleApiKeySet`: the key form closes. */
  function KeySet(st: AppState): (r: AppState)
    ensures !r.showKeyManager && r.(showKeyManager := st.showKeyManager) == st
  {
    st.(showKeyManager := false)
  }

  /** Once a key is saved through the form, choosing a mode is no longer
      refused: the form is closed and the wizard enters the mode's first step. */
  lemma SaveUnlocksModes(st: AppState, form: ApiKey.KeyForm, storage: ApiKey.Storage, m: WorkflowMode)
    requires ApiKey.Save(form, storage).Saved?
    ensures var r := SelectMode(KeySet(st), m, ApiKey.Save(form, storage).storage);
            r.mode == Some(m) && r.step == Steps(Some(m))[0] && !r.showKeyManager
  {
    ApiKey.SavedKeyIsUsable(form, storage);
  }

  /** `handleRestart`: every collected artifact is dropped, the mode is
      cleared, and the restart key takes the clock value `now`. */
  function Restart(st: AppState, now: int): (r: AppState)
    ensures Blank(r)
    ensures r.restartKey == now && r.showKeyManager == st.showKeyManager
  {
    st.(mode := None, productToken := "", productImages := [], requirement := "", structure := [],
        shots := [], slots := [], characters := [], environments := [], proposal := None,
        step := ModeSelection, restartKey := now)
  }

  /** Nothing collected before a restart survives it. */
  lemma RestartForgets(a: AppState, b: AppState, now: int)
    requires a.showKeyManager == b.showKeyManager
    ensures Restart(a, now) == Restart(b, now)
  {
  }

  // ---------------------------------------------------------------------
  // Screens and navigation
  // ---------------------------------------------------------------------

  datatype Screen =
    | StorefrontScreen
    | PlotCharacterScreen | PlotReferenceScreen | PlotScriptScreen | PlotEnvironmentScreen
    | PlotOutfitScreen | PlotStoryboardScreen | PlotFinalScreen
    | ReferenceProductScreen | VideoScreen | PromptsScreen
    | CreativeProductScreen | CreativeScriptScreen
    | StoryboardScreen | VideoPromptsScreen
    | AmazonProductScreen | AmazonConfigScreen | AmazonBriefScreen | AmazonVisualsScreen

  /** The screen the workspace renders for a step (and, where the app asks, the mode). */
  function ScreenOf(mode: Option<WorkflowMode>, step: Step): Option<Screen>
  {
    match step
    case ModeSelection => None
    case StorefrontConfig => Some(StorefrontScreen)
    case PlotCharacterAnchor => Some(PlotCharacterScreen)
    case PlotCharacterTurnaround => Some(PlotReferenceScreen)
    case PlotScriptBrainstorm => Some(PlotScriptScreen)
    case PlotEnvironmentAnchor => Some(PlotEnvironmentScreen)
    case PlotCharacterOutfit => Some(PlotOutfitScreen)
    case PlotStoryboard => Some(PlotStoryboardScreen)
    case PlotFinalPrompts => Some(PlotFinalScreen)
    case ProductAnchoring =>
      if mode == Some(Reference) then Some(ReferenceProductScreen)
      else if mode == Some(Creative) then Some(CreativeProductScreen)
      else if mode == Some(Amazon) then Some(AmazonProductScreen)
      else None
    case VideoAnalysis => Some(VideoScreen)
    case PromptRemapping => Some(PromptsScreen)
    case CreativeScript => Some(CreativeScriptScreen)
    case Storyboarding => if mode != Some(Plot) then Some(StoryboardScreen) else None
    case VideoPrompts => if mode != Some(Plot) then Some(VideoPromptsScreen) else None
    case AmazonConfig => Some(AmazonConfigScreen)
    case AmazonBrief => Some(AmazonBriefScreen)
    case AmazonVisuals => Some(AmazonVisualsScreen)
  }

  /** Every step a mode lists has a screen in that mode. */
  lemma EveryListedStepHasScreen(mode: WorkflowMode, i: nat)
    requires i < |Steps(Some(mode))|
    ensures ScreenOf(Some(mode), Steps(Some(mode))[i]).Some?
  {
  }

  /** The `onBack` callback of the screen on show: the first screen of each
      mode restarts the wizard, every other screen steps back. */
  function Back(st: AppState, now: int): AppState
  {
    match ScreenOf(st.mode, st.step)
    case None => st
    case Some(screen) =>
      match screen
      case StorefrontScreen => Restart(st, now)
      case PlotCharacterScreen => Restart(st, now)
      case ReferenceProductScreen => Restart(st, now)
      case CreativeProductScreen => Restart(st, now)
      case AmazonProductScreen => Restart(st, now)
      case PlotReferenceScreen => st.(step := PlotCharacterAnchor)
      case PlotScriptScreen => st.(step := PlotCharacterTurnaround)
      case PlotEnvironmentScreen => st.(step := PlotScriptBrainstorm)
      case PlotOutfitScreen => st.(step := PlotEnvironmentAnchor)
      case PlotStoryboardScreen => st.(step := PlotCharacterOutfit)
      case PlotFinalScreen => st.(step := PlotStoryboard)
      case VideoScreen => st.(step := ProductAnchoring)
      case PromptsScreen => st.(step := VideoAnalysis)
      case CreativeScriptScreen => st.(step := ProductAnchoring)
      case StoryboardScreen => st.(step := if st.mode == Some(Reference) then PromptRemapping else CreativeScript)
      case VideoPromptsScreen => st.(step := Storyboarding)
      case AmazonConfigScreen => st.(step := ProductAnchoring)
      case AmazonBriefScreen => st.(step := AmazonConfig)
      case AmazonVisualsScreen => st.(step := AmazonBrief)
  }

  /** Going back from any later step of a mode lands on the step listed just
      before it and keeps every collected artifact, so moving forward again
      shows the same data; going back from the first step restarts. */
  lemma BackFollowsSteps(st: AppState, mode: WorkflowMode, i: nat, now: int)
    requires st.mode == Some(mode) && i < |Steps(Some(mode))| && st.step == Steps(Some(mode))[i]
    ensures i > 0 ==> Back(st, now) == st.(step := Steps(Some(mode))[i - 1])
    ensures i == 0 ==> Back(st, now) == Restart(st, now)
  {
    assert Steps(Some(mode)) == ModeSteps(mode);
    if mode.Plot? {
      BackInPlot(st, i, now);
    } else {
      BackInOtherModes(st, mode, i, now);
    }
  }

  lemma BackInPlot(st: AppState, i: nat, now: int)
    requires st.mode == Some(Plot) && i < |ModeSteps(Plot)| && st.step == ModeSteps(Plot)[i]
    ensures i > 0 ==> Back(st, now) == st.(step := ModeSteps(Plot)[i - 1])
    ensures i == 0 ==> Back(st, now) == Restart(st, now)
  {
    if i == 0 {
    } else if i == 1 {
    } else if i == 2 {
    } else if i == 3 {
    } else if i == 4 {
    } else if i == 5 {
    } else {
      assert i == 6;
    }
  }

  lemma BackInOtherModes(st: AppState, mode: WorkflowMode, i: nat, now: int)
    requires !mode.Plot?
    requires st.mode == Some(mode) && i < |ModeSteps(mode)| && st.step == ModeSteps(mode)[i]
    ensures i > 0 ==> Back(st, now) == st.(step := ModeSteps(mode)[i - 1])
    ensures i == 0 ==> Back(st, now) == Restart(st, now)
  {
  }

  /** What a screen hands to `onComplete` (or `onNext`). */
  datatype Artifact =
    | Anchored(token: string, images: seq<FileRef>)
    | CreativeAnchored(token: string, images: seq<FileRef>, requirement: string)
    | Analyzed(structure: seq<ShotStructure>)
    | Frames(shots: seq<Shot>)
    | Slots(slots: seq<AmazonSlot>)
    | Roster(characters: seq<Character>)
    | Scripted(shots: seq<Shot>, requirement: string, proposal: Proposal)
    | Environments(environments: seq<Environment>)

  /** Whether a screen's completion callback takes this kind of artifact. */
  predicate Accepts(screen: Screen, a: Artifact)
  {
    match screen
    case ReferenceProductScreen => a.Anchored?
    case AmazonProductScreen => a.Anchored?
    case CreativeProductScreen => a.CreativeAnchored?
    case VideoScreen => a.Analyzed?
    case PromptsScreen => a.Frames?
    case CreativeScriptScreen => a.Frames?
    case StoryboardScreen => a.Frames?
    case PlotStoryboardScreen => a.Frames?
    case AmazonConfigScreen => a.Slots?
    case AmazonBriefScreen => a.Slots?
    case PlotCharacterScreen => a.Roster?
    case PlotReferenceScreen => a.Roster?
    case PlotOutfitScreen => a.Roster?
    case PlotScriptScreen => a.Scripted?
    case PlotEnvironmentScreen => a.Environments?
    case _ => false
  }

  /** The completion callback of the screen on show: it stores the artifact
      and advances. Screens without one, and artifacts of another kind,
      leave the state alone. */
  function Complete(st: AppState, a: Artifact): AppState
  {
    match ScreenOf(st.mode, st.step)
    case None => st
    case Some(screen) =>
      if !Accepts(screen, a) then st
      else match screen
        case ReferenceProductScreen => st.(productToken := a.token, productImages := a.images, step := VideoAnalysis)
        case AmazonProductScreen => st.(productToken := a.token, productImages := a.images, step := AmazonConfig)
        case CreativeProductScreen =>
          st.(productToken := a.token, productImages := a.images, requirement := a.requirement, step := CreativeScript)
        case VideoScreen => st.(structure := a.structure, step := PromptRemapping)
        case PromptsScreen => st.(shots := a.shots, step := Storyboarding)
        case CreativeScriptScreen => st.(shots := a.shots, step := Storyboarding)
        case StoryboardScreen => st.(shots := a.shots, step := VideoPrompts)
        case PlotStoryboardScreen => st.(shots := a.shots, step := PlotFinalPrompts)
        case AmazonConfigScreen => st.(slots := a.slots, step := AmazonBrief)
        case AmazonBriefScreen => st.(slots := a.slots, step := AmazonVisuals)
        case PlotCharacterScreen => st.(characters := a.characters, step := PlotCharacterTurnaround)
        case PlotReferenceScreen => st.(characters := a.characters, step := PlotScriptBrainstorm)
        case PlotOutfitScreen => st.(characters := a.characters, step := PlotStoryboard)
        case PlotScriptScreen =>
          st.(shots := a.shots, requirement := a.requirement, proposal := Some(a.proposal),
              environments := a.proposal.environments, step := PlotEnvironmentAnchor)
        case PlotEnvironmentScreen => st.(environments := a.environments, step := PlotCharacterOutfit)
        case _ => st
  }

  /** Finishing any step but the last of a mode, with the artifact its screen
      produces, lands on the step listed right after it; the last step of
      each mode has no completion and stays put. */
  lemma CompleteFollowsSteps(st: AppState, mode: WorkflowMode, i: nat, a: Artifact)
    requires st.mode == Some(mode) && i < |Steps(Some(mode))| && st.step == Steps(Some(mode))[i]
    requires Accepts(ScreenOf(Some(mode), st.step).value, a) || i + 1 == |Steps(Some(mode))|
    ensures i + 1 < |Steps(Some(mode))| ==> Complete(st, a).step == Steps(Some(mode))[i + 1]
    ensures i + 1 == |Steps(Some(mode))| ==> Complete(st, a) == st
    ensures Complete(st, a).mode == st.mode
  {
  }

  /** One character as the final step of the plot mode names it. */
  function RosterLine(c: Character): string
  {
    c.name + ": " + c.token
  }

  function RosterLines(chars: seq<Character>): (r: seq<string>)
    ensures |r| == |chars| && forall i :: 0 <= i < |chars| ==> r[i] == RosterLine(chars[i])
  {
    seq(|chars|, i requires 0 <= i < |chars| => RosterLine(chars[i]))
  }

  /** The product token handed to the final step of the plot mode: every
      character as `name: token`, joined by ". ". */
  function RosterToken(chars: seq<Character>): string
  {
    Join(RosterLines(chars), ". ")
  }

  /** The token is empty only for an empty roster, names the first character
      first, and each added character appends ". " and its line. */
  lemma RosterTokenShape(chars: seq<Character>, c: Character)
    ensures RosterToken(chars) == "" <==> chars == []
    ensures chars != [] ==> StartsWith(RosterToken(chars), RosterLine(chars[0]))
    ensures RosterToken([c]) == RosterLine(c)
    ensures chars != [] ==> RosterToken(chars + [c]) == RosterToken(chars) + ". " + RosterLine(c)
  {
    var lines := RosterLines(chars);
    if chars != [] {
      assert RosterLines(chars + [c]) == lines + [RosterLine(c)];
      JoinSnoc(lines, RosterLine(c), ". ");
      if |chars| > 1 {
        assert RosterToken(chars) == lines[0] + ". " + Join(lines[1..], ". ");
      }
      assert |RosterLine(chars[0])| >= 2;
    }
    assert RosterLines([c]) == [RosterLine(c)];
  }

  /** The art style of the environment step: the first character's, else anime. */
  function EnvironmentStyle(chars: seq<Character>): PlotStyle
  {
    if chars != [] && chars[0].style.Some? then chars[0].style.value else Anime
  }
}

=== FILE: wrappers.dfy ===
/** Failure-carrying datatypes shared by the whole model. */
module Wrappers {

  /** An optional value: a TypeScript field that may be `undefined`. */
  datatype Option<+T> = None | Some(value: T)

  /** The outcome of a call into the hosted model that the app awaits:
      it either answers with a value or rejects (throws). */
  datatype Reply<+T> = Ok(value: T) | Fail

  /** JavaScript truthiness of an optional string: `undefined` and `""` are falsy. */
  predicate Has(o: Option<string>)
  {
    o.Some? && o.value != ""
  }

  /** `a || b` on optional strings. */
  function OrElse(a: Option<string>, b: Option<string>): (r: Option<string>)
    ensures Has(a) ==> r == a
    ensures !Has(a) ==> r == b
  {
    if Has(a) then a else b
  }
}
